=== FILE: README.md ===
# Operativo stage ordering, in Dafny

This project models the "Operativo" module of the SIGMA well-planning
application. A well (`wells`) has stages (`well_stages`). Each stage has a
position, `order_index`, and a deferred unique constraint,
`uq_stage_order_per_well`, keeps positions distinct within a well. Each
stage carries materials (`materials`), and each material has an alert level.

The model covers two groups of code.

- **The server routes that write or read positions**, in
  `server/routes/operativo.js`:
  - the reorder transaction, `POST /wells/:id/stages/reorder`, with its
    validator `intsUnique`;
  - position assignment in `POST /wells` and in the stage upsert of
    `PUT /wells/:id`;
  - the stage edit, `PUT /stages/:id`;
  - the `first_stage` and `current_progress` columns of `GET /wells`, and its
    sort-column whitelist `sortMap`;
  - the partial update `PUT /materials/:id`.
- **The browser scripts that drive those routes**:
  - the drag-and-drop stage list with its autosave and revert
    (`operativo_etapas.js`);
  - the well form (`operativo_pozo_form.js`);
  - the material form (`operativo_material_form.js`);
  - the alerts page's stage filter, alert chip and viewer gating
    (`operativo_alertas.js`);
  - the wells matrix's export file name, export URL and progress cell
    (`operativo_matriz.js`);
  - the user badges of the top bar (`loadTopbar.js`) and the dashboard
    (`dashboard.js`).

How the model represents them:

- The database is a finite map from stage id to row. A route is a pure
  function from the store and the request to an `Outcome`, which is a status
  (`Ok`, `BadRequest`, `ServerError`) together with the store left behind. A
  failed transaction returns the store it was given.
- A `fault` parameter stands for any statement inside the route's `try` that
  fails for a reason the model does not derive from its inputs. The route's
  `catch` answers it with 500 after a rollback. Examples are a lock-wait
  timeout and the writes the model does not represent: the `wells` row of
  POST and PUT `/wells`, and a drill time or stage change that the `numeric`
  column rejects. A lost connection is not a `fault` (see "## Left out").
- The ids the database sequences hand out are parameters: `nextId`, which is
  ahead of every id in use.
- The stage list page is a state record: the rows' ids in DOM order, the
  dragged row, `snapshotIds`, `saving`, the status badge, and the pending
  badge timers. Discrete events drive it: load, dragstart, dragover, dragend,
  the reply to the reorder request, and a timer tick.
- A row's geometry is reduced to an integer vertical midpoint.
- Markup that the scripts build from stored text is read back through the
  browser's attribute parsing: the value ends at the first `"`, character
  references are decoded, and a text input drops line breaks.

Modules, one per file:

- Shared helpers:
  - `Optional`: `Option`.
  - `Seqs`: distinctness, first index, removal, filters.
  - `Text`: JavaScript whitespace, ASCII case mapping, `trim`,
    `split(/\s+/)`, whitespace collapsing.
  - `Decimal`: integer text, its reading back, and the value of a number
    input, `NumberInput`.
  - `JsObject`: the property names every object literal inherits.
  - `Query`: `URLSearchParams.get`.
  - `Html`: how a browser reads a text spliced into `value="${…}"`, and the
    escaping that would make the splice lossless.
- Server:
  - `StageStore`: rows, the uniqueness constraint, the commit-time check.
  - `Reorder`: the reorder route.
  - `WellPositions`: POST and PUT `/wells`, and PUT `/stages/:id`.
  - `WellProgress`: `first_stage` and `current_progress`.
  - `WellList`: `sortMap` and the ORDER BY direction.
  - `Materials`: PUT `/materials/:id`.
- Browser:
  - `ReorderController`: the stage list page.
  - `WellForm`, `MaterialForm`, `AlertsView`, `WellMatrix` and `UserBadge`:
    the remaining scripts.

## Model

| member | source | states |
|---|---|---|
| Reorder.IntsUnique | server/routes/operativo.js:14-20 | The validator accepts an order exactly when it is a non-empty array, every element is an integer, and the integers are pairwise distinct. |
| Reorder.ReorderStages | server/routes/operativo.js:330-384 | The route answers 400 exactly when the well id is not an integer or `intsUnique` rejects the order. Every non-200 outcome leaves the store unchanged. On 200, the stage at index k gets position k+1, every other field of every row is kept, and unlisted rows are untouched. |
| Reorder.RowCountIffOwned | server/routes/operativo.js:357-373 | With distinct ids, the UPDATE's row count equals the list length exactly when every listed id is a stage of the well. |
| Reorder.CommitCheckIffNoCollision | server/routes/operativo.js:347-375 | The deferred constraint fails at COMMIT exactly when an unlisted stage of the well already holds one of the ranks 1..N the list hands out. |
| Reorder.ReorderCommitsIff | server/routes/operativo.js:334-380 | The reorder commits exactly when all of these hold: the request is valid, there is no fault, every id fits `int` and is a stage of the well, and no unlisted stage holds a rank the list assigns. |
| Reorder.ForeignIdRollsBack | server/routes/operativo.js:365-380 | An id that is missing or belongs to another well gives 500 and an unchanged store. |
| Reorder.PartialOrderCollisionRollsBack | server/routes/operativo.js:347-380 | A partial order whose ranks reach an unlisted stage gives 500 and an unchanged store. |
| Reorder.FullOrderYieldsOneToN | server/routes/operativo.js:357-375 | Listing every stage of the well once succeeds. The well's positions then become exactly {1..N} and are pairwise distinct. |
| Reorder.RanksInPlaceIsFixedPoint | server/routes/operativo.js:357-375 | An order whose ranks are already in place, with no collision, commits and changes nothing. |
| Reorder.ReorderIdempotent | server/routes/operativo.js:357-375 | Re-sending an order that succeeded succeeds again and leaves the store as it is. |
| Reorder.ReorderKeepsConsistent | server/routes/operativo.js:347-375 | A committed reorder keeps positions unique within every well. |
| StageStore.CommitCheckKeepsConsistent | server/routes/operativo.js:347-348 | Checking only the rows a transaction wrote is enough: a consistent table stays consistent. |
| WellPositions.CreatePositions | server/routes/operativo.js:143-163 | The insertion loop, with its counter `idx`, hands stage i exactly the position of the row `CreatedRow` stores for it: its own `toInt(position ?? order_index)`, or i+1. |
| WellPositions.NewRows | server/routes/operativo.js:145-162 | POST `/wells` inserts exactly one row per sent stage, under fresh ids. Each row is built from its stage. |
| WellPositions.CreateWell | server/routes/operativo.js:129-174 | The route commits exactly when there is no fault, every sent position fits the `::int` cast, and the new rows keep positions unique within the well; it never answers 400. A failure leaves the store unchanged. Success adds exactly the new rows, and a consistent table stays consistent. This holds for a wells row and numbers the database accepts; any other failing write counts as `fault`. |
| WellPositions.CreatedStagePositions | server/routes/operativo.js:143-163 | After creation, stage i sits in the new well at its own position or at i+1, and older rows are untouched. |
| WellPositions.DefaultPositionsOneToN | server/routes/operativo.js:143-163 | Stages sent without positions get exactly the positions 1..N. |
| WellPositions.ExplicitPositionCanCollideWithFallback | server/routes/operativo.js:146-160 | An explicit position is not reconciled with the fallback counter. A blank stage followed by one asking for 1 makes the whole creation fail and stores nothing. |
| WellPositions.MaxPosition | server/routes/operativo.js:229 | `COALESCE(MAX(order_index), 0)` is an upper bound that some stage attains, or 0 when the well has no stages. |
| WellPositions.UpsertOne | server/routes/operativo.js:197-240 | A stage sent with an id never inserts and consumes no id; it updates only that row of this well, and nothing when the row is elsewhere or missing. The updated row gets `name \|\| null` and `pipe \|\| null`, the sent drill time and stage change (null when absent), the sent progress or its old one, and the sent position or its old one. A stage sent without an id is inserted under the next id, in this well, with the same texts, progress `\|\| "En proceso"`, at its own position or at MAX+1. |
| WellPositions.UpsertOneTwice | server/routes/operativo.js:200-221 | Sending an existing stage twice writes the same row as sending it once. A stage without an id, sent twice, inserts two rows. |
| WellPositions.UpsertAll | server/routes/operativo.js:197-241 | The upsert loop never touches another well. It never moves a stage for which no position is sent. |
| WellPositions.UpsertWell | server/routes/operativo.js:196-251 | The stage part commits exactly when there is no fault, no sent position and no stage id outside the `integer` range (`WHERE id = $7`), and the written rows keep positions unique. A failure leaves the store unchanged. On success other wells are unchanged, stages without a sent position keep it, and consistency is preserved. This holds for a wells row and numbers the database accepts; any other failing write counts as `fault`. |
| WellPositions.PutWell | server/routes/operativo.js:177-194 | A NaN or fractional well id fails the wells UPDATE with the syntax error, and one outside the `integer` range with the cast error; nothing is written. Otherwise the route commits exactly when the stage part does, leaves other wells unchanged, and preserves consistency. This holds for a wells row and numbers the database accepts; any other failing write counts as `fault`. |
| WellPositions.NewStageAppends | server/routes/operativo.js:223-239 | A new stage without a position lands after every stage of the well: at MAX+1, or at 1 in an empty well. |
| WellPositions.EditStage | server/routes/operativo.js:296-313 | The edit succeeds exactly for an `int` id when there is no fault. It never changes a stage's well or position. It replaces each sent text field and keeps the unsent ones. No other row changes. |
| WellPositions.EditStageKeepsConsistent | server/routes/operativo.js:301-308 | Editing a stage never breaks the uniqueness of positions. |
| WellPositions.EditStageIdempotent | server/routes/operativo.js:301-308 | Sending the same edit twice is the same as sending it once. |
| WellProgress.FirstOf | server/routes/operativo.js:62-66 | `ORDER BY order_index, id LIMIT 1` returns a member of the set that precedes every other member. |
| WellProgress.FirstIsUnique | server/routes/operativo.js:79-80 | At most one stage precedes all others under `(order_index, id)`. |
| WellProgress.CurrentProgress | server/routes/operativo.js:67-94 | With a pending stage, the label names the first pending stage by `(order_index, id)`. Otherwise "Pozo completado" exactly when the well has stages and all of them are completed. Otherwise NULL. |
| WellProgress.LabelIsNotCompleted | server/routes/operativo.js:75-92 | A pending label can never read "Pozo completado". |
| WellProgress.NotBoth | server/routes/operativo.js:73-91 | No progress text is both pending and completed. |
| WellProgress.CompletedIffAllCompleted | server/routes/operativo.js:67-94 | The CASE yields "Pozo completado" exactly when the well has stages and every stage reads "completado...". |
| WellProgress.FirstStage | server/routes/operativo.js:62-66 | `first_stage` is the name of the stage that precedes all others, or NULL for a well without stages. |
| WellProgress.ReorderMovesLabel | server/routes/operativo.js:69-81 | After a full reorder, the progress label names the first pending stage in the submitted order. |
| WellList.LookupSort | server/routes/operativo.js:36-43 | `sortMap[sort]` is an own column exactly for the five whitelisted names, and an inherited property exactly for the inherited names. |
| WellList.Ascending | server/routes/operativo.js:44 | The order is ascending exactly when `order` is "asc" in some ASCII case. |
| WellList.WellsOrderAsWritten | server/routes/operativo.js:36-44 | As written, the route fails exactly when `sort` names an inherited property. |
| WellList.InheritedSortKeyFails | server/routes/operativo.js:43 | `?sort=toString` and `?sort=constructor` make GET `/wells` fail. |
| WellList.SortColumn | server/routes/operativo.js:36-43 | As intended, a whitelisted name gives its column, and anything else gives `w.id`. |
| WellList.WellsOrder | server/routes/operativo.js:36-44 | The corrected ordering always uses a whitelisted column and keeps the direction rule. |
| WellList.CorrectedAgreesElsewhere | server/routes/operativo.js:43 | For every `sort` that is not an inherited name, the correction orders exactly as the original. |
| WellList.AscendingCases | server/routes/operativo.js:44 | "ASC" and "aSc" sort ascending. An absent, empty or "ascending" value sorts descending. |
| Materials.Merge | server/routes/operativo.js:513-531 | The update sets every column the patch sends a usable value for. It keeps every other column and never clears a stored value. An empty patch changes nothing. |
| Materials.MergeCharacterised | server/routes/operativo.js:513-530 | Any row that applies the patch and keeps the unsent columns is the merged row. |
| Materials.MergeIdempotent | server/routes/operativo.js:513-530 | Applying a patch twice is applying it once. |
| Materials.UpdateMaterial | server/routes/operativo.js:506-557 | The update succeeds exactly for an `int` id when every cast passes and there is no fault. Only the addressed row changes, to the merge. A failure changes nothing. |
| ReorderController.Closest | public/js/operativo_etapas.js:64-75 | The `reduce` keeps the row with the smallest midpoint strictly below the pointer, the first on a tie, or none. |
| ReorderController.DragAfter | public/js/operativo_etapas.js:64-75 | The insertion point is the non-dragged row nearest below the pointer. There is none exactly when no midpoint lies below the pointer. |
| ReorderController.Move | public/js/operativo_etapas.js:55-62 | Dragover puts the dragged row just before the chosen row, or last. The ids stay the same multiset. |
| ReorderController.MoveOnlyMovesDragged | public/js/operativo_etapas.js:59-61 | The move keeps the rows distinct and leaves the other rows in their order. |
| ReorderController.DragOverMovesOnlyDragged | public/js/operativo_etapas.js:55-62 | A dragover permutes the rows, moves only the dragged one, and changes nothing else on the page. |
| ReorderController.Autosave | public/js/operativo_etapas.js:82-89 | A save is sent exactly when no save is in flight and the rows are empty or differ from the snapshot. It posts the current ids and sets `saving` and "Guardando…". |
| ReorderController.SavingBlocksAutosave | public/js/operativo_etapas.js:83 | While a save is in flight, ending a drag sends nothing and changes nothing. |
| ReorderController.ReplyOutcomes | public/js/operativo_etapas.js:90-99 | Any reply clears `saving`. On success the badge shows "Guardado ✓" until its timer fires. On failure the badge clears at once, the rows are restored, and the server's message or the default is alerted. |
| ReorderController.RestoreIsSnapshotFilter | public/js/operativo_etapas.js:102-107 | `restoreOrder(snapshot)` yields the snapshot's ids that still have a row, in snapshot order. Rows absent from the snapshot are dropped. |
| ReorderController.RestorePermutationIsSnapshot | public/js/operativo_etapas.js:102-107 | Rows that are a rearrangement of the snapshot are put back exactly in the snapshot's order. |
| ReorderController.StepKeepsWellFormed | public/js/operativo_etapas.js:55-107 | Every event keeps the rows and the snapshot free of repeated ids. |
| ReorderController.FailedSaveRestoresSnapshot | public/js/operativo_etapas.js:94-107 | After a failed save, the rows are the snapshot filtered to the rows still on screen. They are exactly the snapshot when the rows were a permutation of it. |
| ReorderController.SnapshotOverwrittenDuringSave | public/js/operativo_etapas.js:45 | As written, a drag during an in-flight save overwrites the snapshot. A failed first save then "restores" the rejected order [3, 1, 2]. |
| ReorderController.ThrownLeavesSavingStuck | public/js/operativo_etapas.js:87-90 | As written, a rejected request leaves `saving` true, and no later event ever sends a save. |
| ReorderController.StepFixed | public/js/operativo_etapas.js:82-100 | Corrected: the order to fall back to is fixed when a save is sent. Any reply, a thrown one included, clears `saving`. A failure restores the fallback order. |
| ReorderController.InFlightKeepsRevertTo | public/js/operativo_etapas.js:45 | Corrected: nothing during an in-flight save changes the fallback order. |
| ReorderController.FixedScenarioRestoresServerOrder | public/js/operativo_etapas.js:94-97 | Corrected: the same scenario restores [1, 2, 3], the order the server holds. |
| ReorderController.ThrownReleasesSaving | public/js/operativo_etapas.js:87-90 | Corrected: after a rejected request, the next changed order is saved. |
| Html.BeforeQuote | public/js/operativo_pozo_form.js:16-17 | The attribute gets the text up to its first `"`: all of a text without one, otherwise a strict prefix that ends just before the quote. |
| Html.BeforeQuoteOf | public/js/operativo_pozo_form.js:16-17 | Nothing after the first `"` reaches the attribute. |
| Html.Decode | public/js/operativo_pozo_form.js:16-17 | Decoding never lengthens a text, and leaves a text without `&` or NUL unchanged. |
| Html.VerbatimDecode | public/js/operativo_pozo_form.js:16-17 | Decoding passes unchanged over a prefix free of `&`, `"`, NUL and line breaks. |
| Html.StripLineBreaks | public/js/operativo_pozo_form.js:16-17 | A text input's value holds no CR or LF, is no longer than the text, and equals a text that holds none. |
| Html.InchMarkIsCut | public/js/operativo_pozo_form.js:17 | A pipe size such as `13 3/8"` reaches the input without its inch mark. |
| Html.ReferenceIsDecoded | public/js/operativo_pozo_form.js:16 | A stored `A &amp; B` reaches the input as `A & B`. |
| Html.Escape | public/js/operativo_pozo_form.js:16-17 | Corrected: escaping leaves no `"` and introduces no NUL. |
| Html.DecodeEscape | public/js/operativo_pozo_form.js:16-17 | Corrected: decoding undoes escaping for every text without NUL. |
| Html.EscapedAttrValue | public/js/operativo_alertas.js:280 | Corrected: escaped, every text without NUL comes back from the attribute as written. |
| Html.EscapedInputValue | public/js/operativo_pozo_form.js:16-17 | Corrected: escaped, every text without NUL or line breaks reaches the text input as written. |
| WellForm.NumberField | public/js/operativo_pozo_form.js:18-19 | A number input is empty exactly when the stored value is null, and otherwise holds it. |
| WellForm.RowTemplate | public/js/operativo_pozo_form.js:10-22 | A row carries a stage id exactly when its stage has an integer id. Its name and pipe inputs hold what the browser reads back from the unescaped `value="${…}"`: the stored text when it holds no `"`, `&`, NUL or line break, and something strictly shorter when it holds a `"`. The blank template is all empty. |
| WellForm.RowTemplateEscaped | public/js/operativo_pozo_form.js:16-17 | Corrected: the same row with the name and pipe escaped before the splice. |
| WellForm.SentBackTexts | public/js/operativo_pozo_form.js:16-17 | A row sends a stored name or pipe back unchanged when it holds none of the altered characters, and never when it holds a `"`. |
| WellForm.EscapedRowSentBack | public/js/operativo_pozo_form.js:16-17 | Corrected: with escaping, every stored name and pipe without NUL or line breaks is sent back exactly, with the stage's id, drill time and stage change. |
| WellForm.RenderRows | public/js/operativo_pozo_form.js:24-33 | Renders exactly n rows (none for n < 1): rows from the existing stages in order, then blank ones. |
| WellForm.SuggestedCount | public/js/operativo_pozo_form.js:50 | The suggested count is at least 1, at least the selection, and at least the number of existing stages. It equals one of the two candidates. |
| WellForm.Hydrate | public/js/operativo_pozo_form.js:47-52 | Editing shows at least one row per existing stage, each filled from that stage. |
| WellForm.NumberOrNull | public/js/operativo_pozo_form.js:69-70 | An empty number input is sent as null, and otherwise as its number. |
| WellForm.RowPayload | public/js/operativo_pozo_form.js:63-73 | A row sends its texts and numbers, and no id when it carries none. |
| WellForm.BuildPayload | public/js/operativo_pozo_form.js:57-75 | The body has one stage per row, built from that row. The name and team are trimmed, and an empty date is sent as null. |
| WellForm.Save | public/js/operativo_pozo_form.js:56-84 | The save is rejected with "Nombre es requerido" exactly when the name is blank. It sends PUT to the edited id when there is one, and POST otherwise. |
| WellForm.RowKeepsStageId | public/js/operativo_pozo_form.js:65-72 | The stage id survives its round trip through the row's text attribute. |
| WellForm.UneditedSaveKeepsStages | public/js/operativo_pozo_form.js:47-75 | Saving the form as hydrated sends every existing stage back in order, with its id, numbers and the texts its inputs hold, followed by blank new stages. A name or pipe free of `"`, `&`, NUL and line breaks goes back as stored. A pipe holding a `"` goes back altered, so the UPDATE overwrites it. |
| WellForm.ServerInput | public/js/operativo_pozo_form.js:63-73 | A stage the form sends carries its id and never a position. |
| WellForm.ServerInputs | public/js/operativo_pozo_form.js:63-74 | The server receives one such stage per payload stage. |
| WellForm.FormSaveKeepsOrder | public/js/operativo_pozo_form.js:63-74 | Saving from the form never moves an existing stage. |
| MaterialForm.MaterialId | public/js/operativo_material_form.js:6 | The material id is a non-empty `?id`, or else a non-empty `?material`, or else none. |
| MaterialForm.LowerOr | public/js/operativo_material_form.js:10 | A missing or empty value gives the fallback, and anything else gives its lower case. |
| MaterialForm.DatePart | public/js/operativo_material_form.js:42 | A stored date shows as its first 10 characters. An absent one shows as "". |
| MaterialForm.Hydrate | public/js/operativo_material_form.js:29-53 | Hydration defaults the quantity to 1 and logistics to "Por Definir". The alert is lower-cased and defaults to "azul". The programme is lower-cased or "". Dates are at most 10 characters. |
| MaterialForm.EnumOrNull | public/js/operativo_material_form.js:65-71 | An enum select sends null exactly when it is empty, and otherwise its lower case. |
| MaterialForm.EmptyToNull | public/js/operativo_material_form.js:11 | "" becomes null, and any other text is kept. |
| MaterialForm.DateParam | public/js/operativo_material_form.js:78 | An empty date input is sent as null. |
| MaterialForm.SavePatch | public/js/operativo_material_form.js:64-85 | The body normalises the enums and trims the texts. The quantity becomes `Number(value or 0)` and the comment maps "" to null. The body never sends a name. |
| MaterialForm.SaveRequest | public/js/operativo_material_form.js:87-92 | The form sends PUT `/materials/:id` exactly when it has a material id, and otherwise POSTs to `?stage`. |
| MaterialForm.SavePatchCasts | public/js/operativo_material_form.js:65-83 | The form's body passes the server's casts exactly when each enum select is empty or holds an enum label. |
| MaterialForm.EnumTextOfSelect | public/js/operativo_material_form.js:65-66 | The server's second lower-casing changes nothing the form sends. |
| MaterialForm.BlankFieldsKeepStored | public/js/operativo_material_form.js:68-85 | A blank text, select, date or comment keeps the stored value, and so does the name. |
| MaterialForm.EmptyQuantityBecomesZero | public/js/operativo_material_form.js:74 | An empty quantity is sent as 0 and overwrites the stored quantity. |
| MaterialForm.UntouchedSaveFillsDefaults | public/js/operativo_material_form.js:33-51 | Saving untouched writes the form's defaults into empty columns: quantity 1, "Por Definir", "azul". |
| AlertsView.NormIsNormal | public/js/operativo_alertas.js:70-75 | `norm` output has no edge whitespace, no whitespace other than single spaces, and no upper-case letter. |
| AlertsView.NormalIsFixed | public/js/operativo_alertas.js:70-75 | A string in that form is its own `norm`. |
| AlertsView.NormIdempotent | public/js/operativo_alertas.js:70-75 | `norm` is idempotent. |
| AlertsView.StageLabel | public/js/operativo_alertas.js:227 | A missing or empty stage name is labelled "Etapa", so a label is never empty. |
| AlertsView.Entries | public/js/operativo_alertas.js:226-228 | Each row contributes its key and its raw label, in row order. |
| AlertsView.DedupKeys | public/js/operativo_alertas.js:224-231 | The deduplicated keys are distinct and cover every row's key. |
| AlertsView.DedupFirst | public/js/operativo_alertas.js:224-231 | Each kept option is the first entry with its key. |
| AlertsView.DedupOrder | public/js/operativo_alertas.js:224-231 | The kept options follow the order of their first entries. |
| AlertsView.UniqueStageNames | public/js/operativo_alertas.js:224-232 | `buildUniqueStageNames` gives distinct keys that cover every row, in first-occurrence order. Each key carries the first raw label seen for it. |
| AlertsView.KeptSelection | public/js/operativo_alertas.js:276-286 | The previous stage key is kept exactly when it is still offered, and is reset to "" otherwise. |
| AlertsView.OptionValues | public/js/operativo_alertas.js:277-281 | The rebuilt select offers "" and then, per stage key, the value the browser reads back from the unescaped `<option value="${key}">`. |
| AlertsView.EscapedOptionValues | public/js/operativo_alertas.js:280 | Corrected: the same values with each key escaped before the splice. |
| AlertsView.AssignSelect | public/js/operativo_alertas.js:283-286 | Assigning a value no option has leaves the select reading "". |
| AlertsView.ReloadedStage | public/js/operativo_alertas.js:276-286 | After a reload the select reads either "" or the kept key, and only if an option has it. |
| AlertsView.PickedStageKept | public/js/operativo_alertas.js:276-286 | A picked stage whose key holds none of `"`, `&`, NUL and line breaks stays selected across a reload. |
| AlertsView.QuotedStageLost | public/js/operativo_alertas.js:280-286 | A picked stage whose key holds a `"` never stays selected across a reload. |
| AlertsView.EscapedStageKept | public/js/operativo_alertas.js:280-286 | Corrected: with escaped option values, every picked stage without NUL stays selected. |
| AlertsView.RowsToRender | public/js/operativo_alertas.js:289-293 | The table shows all rows when no key is selected. Otherwise it shows exactly the rows whose key is the selection. It never shows more rows than it was given. |
| AlertsView.RowsToRenderAppend | public/js/operativo_alertas.js:292 | Filtering keeps the rows' original order. |
| AlertsView.KeptSelectionShowsRows | public/js/operativo_alertas.js:276-293 | A selection that survives a reload always has rows to show. |
| AlertsView.ChipClass | public/js/operativo_alertas.js:56-64 | rojo, amarillo, verde and azul map to their classes. An inherited property name yields a non-class. Anything else gives "alert-azul". |
| AlertsView.ChipClassIgnoresCase | public/js/operativo_alertas.js:57 | The class does not depend on the letter case. |
| AlertsView.Role | public/js/operativo_alertas.js:305-312 | A missing user or an empty role counts as "admin". A failed lookup gives no role. This reads the page as if `getCurrentUser` were exported (see below). |
| AlertsView.IsViewer | public/js/operativo_alertas.js:305-312 | The page is in viewer mode exactly when the signed-in user's role is "viewer" in some ASCII case. |
| AlertsView.RowActions | public/js/operativo_alertas.js:198-218 | Every row can be viewed. It can be edited exactly when the user is not a viewer. |
| AlertsView.EditLinkQuery | public/js/operativo_alertas.js:78-85 | The edit link starts with the material id and ends with `action=edit`. It carries stage and well exactly when they are truthy. |
| AlertsView.EditLinkOpensMaterial | public/js/operativo_alertas.js:80 | The material form opened from an alert edits that alert's material. |
| WellMatrix.StripMarks | public/js/operativo_matriz.js:69 | After the removal no combining mark remains and the name is no longer. A name without marks is unchanged, and an all-unsafe name stays all-unsafe. |
| WellMatrix.StripMarksKeepsOthers | public/js/operativo_matriz.js:69 | The removal deletes nothing but marks: every other character occurs exactly as often as before. |
| WellMatrix.StripMarksAppend | public/js/operativo_matriz.js:69 | The removal keeps the order of the rest: stripping a concatenation strips each part. |
| WellMatrix.StripMarksOne | public/js/operativo_matriz.js:69 | A single character is kept exactly when it is not a combining mark; with `StripMarksAppend` this fixes the result of every name. |
| WellMatrix.ReplaceUnsafe | public/js/operativo_matriz.js:70 | After the replacement, only `[A-Za-z0-9_-]` remains. A safe name is unchanged, and an all-unsafe one becomes "_". |
| WellMatrix.Squash | public/js/operativo_matriz.js:70 | After squashing, no "__" remains. The first character and safety are kept, and a name without "__" is unchanged. |
| WellMatrix.TrimUnderscores | public/js/operativo_matriz.js:71 | After trimming, no edge underscore remains. The other invariants are kept, and "_" becomes "". |
| WellMatrix.Sanitise | public/js/operativo_matriz.js:68-71 | The replacement chain yields a safe name without "__" or edge underscores. |
| WellMatrix.SafeName | public/js/operativo_matriz.js:68-71 | `safeName` has at most 50 characters from `[A-Za-z0-9_-]`, no "__", and no leading '_'. A trailing '_' is possible only at exactly 50 characters. |
| WellMatrix.PrefixStaysSafe | public/js/operativo_matriz.js:71 | The 50-character cut keeps safety, the absence of "__", and the first character. |
| WellMatrix.CleanNameUnchanged | public/js/operativo_matriz.js:68-71 | A name that is already safe is its own safe name. |
| WellMatrix.SafeNameIdempotent | public/js/operativo_matriz.js:68-71 | `safeName` is idempotent unless the cut left a trailing '_'. |
| WellMatrix.UnnamedWellIsPozo | public/js/operativo_matriz.js:68 | A missing or empty name gives "pozo". |
| WellMatrix.UnsafeNameIsEmpty | public/js/operativo_matriz.js:68-71 | A name with no safe character gives "", not "pozo". |
| WellMatrix.RowExportQuery | public/js/operativo_matriz.js:61-63 | A row's export names the row's well, and carries `alerta` exactly when the filter is set. |
| WellMatrix.RowExportNamesWell | public/js/operativo_matriz.js:62 | The `well` parameter reads back as the row's id. |
| WellMatrix.ExportQuery | public/js/operativo_matriz.js:142-150 | The query has `well` and `alerta` exactly when they are non-empty, and `stage` exactly when it is non-empty and all digits. It has no other parameter. |
| WellMatrix.ExportStageIsNumber | public/js/operativo_matriz.js:146-147 | A stage the export sends reads back as a non-negative integer. |
| WellMatrix.BuildUrl | public/js/operativo_matriz.js:152 | The URL has no query exactly when none of the three filters qualifies. |
| WellMatrix.ProgressCell | public/js/operativo_matriz.js:28 | The cell shows a non-empty `current_progress`, and otherwise an "Etapa ..." text. |
| WellMatrix.PendingWellCell | public/js/operativo_matriz.js:28 | A well with a pending stage shows the label of its first pending stage. |
| WellMatrix.CompletedWellCell | public/js/operativo_matriz.js:28 | A finished well shows "Pozo completado". |
| WellMatrix.NoProgressCell | public/js/operativo_matriz.js:28 | When the server reports NULL, the cell still claims the first stage is "en proceso". A well without stages shows "Etapa  - en proceso". |
| UserBadge.LocalPart | public/js/loadTopbar.js:50 | `split("@")[0]` is the longest prefix without '@'. |
| UserBadge.NameFromEmail | public/js/loadTopbar.js:48-53 | A missing or empty address gives "Usuario". Otherwise the result is the local part with its first letter upper-cased. |
| UserBadge.NameMatchesLocalPart | public/js/loadTopbar.js:50-52 | The derived name equals the local part up to letter case. |
| UserBadge.NameBeforeAt | public/js/loadTopbar.js:50-52 | For an address whose first '@' is at i > 0, the name is the upper-cased first letter followed by the rest of the local part. |
| UserBadge.InitialsFrom | public/js/loadTopbar.js:70-76 | The top-bar initials are never empty. A missing or empty name gives "US". |
| UserBadge.InitialsOfTrimmed | public/js/loadTopbar.js:72-75 | The initials of a trimmed name are never empty. |
| UserBadge.InitialsOfWords | public/js/loadTopbar.js:72-75 | The initials are the upper-cased first letter, followed by the first letter of the last word when there are two or more words. |
| UserBadge.SingleWordInitial | public/js/loadTopbar.js:72-75 | A single word gives one initial. |
| UserBadge.BlankNameInitials | public/js/loadTopbar.js:75 | A whitespace-only name gives "US". |
| UserBadge.TopbarBadge | public/js/loadTopbar.js:40-68 | The badge is left alone exactly when there is no stored session or it is not JSON. The avatar is the name's initials. A stored non-empty name and address are shown as they are. |
| UserBadge.NamelessUserBadge | public/js/loadTopbar.js:55-56 | A stored user without a name is named after their address's local part. |
| UserBadge.EmptyUserBadge | public/js/loadTopbar.js:55-64 | Without a name or address, the badge reads "Correo", "correo@ejemplo.com", "C". |
| UserBadge.DefaultAddressName | public/js/loadTopbar.js:55-56 | The default address yields the name "Correo". |
| UserBadge.DashboardInitials | public/js/dashboard.js:29-35 | The dashboard initials are at most two letters. An empty name gives "US". |
| UserBadge.DashboardOfTrimmed | public/js/dashboard.js:31-34 | The initials of a trimmed name are at most two letters. |
| UserBadge.DashboardOfWords | public/js/dashboard.js:31-34 | An empty trimmed name gives "". One word gives its first two letters upper-cased. More words give the first letters of the first and SECOND words. |
| UserBadge.InitialsAgreeOnTwoWords | public/js/dashboard.js:29-35 | For exactly two words, the top bar and the dashboard agree. |
| UserBadge.InitialsDisagree | public/js/dashboard.js:31-34 | They disagree on a single word of two or more letters. A whitespace-only name gives "US" in the top bar but "" on the dashboard. |
| UserBadge.DashboardBadge | public/js/dashboard.js:10-20 | The dashboard name and address are never empty, and the user's own values are kept when present. |
| UserBadge.DashboardAvatarIgnoresEmail | public/js/dashboard.js:20 | `fullName or email` never reaches the address, so the avatar does not depend on it. |
| UserBadge.NamelessDashboardAvatar | public/js/dashboard.js:10-20 | A user without a name shows "US", the initials of "Usuario". |

## Left out

- The `FOR UPDATE` lock and concurrent requests: every route is one atomic step over the store.
- The `wells` row written by POST and PUT `/wells` (type, team, name, start date, stage count), and the values of `drill_time` and `stage_change`. Positions do not depend on them, but a row or number that the table rejects (an empty or malformed `start_date`, a fractional `stages_count`, a non-numeric drill time) fails the whole route with 500 and rolls back every stage. The model counts such a failure as `fault`. So the "exactly when" of `CreateWell`, `UpsertWell` and `PutWell` holds for a wells row and numbers that the database accepts.
- A failed `pool.connect()` and a connection lost inside a transaction (`server/routes/operativo.js:131,180,343`). The connect runs outside the `try`, and a lost connection also makes the `catch`'s own `ROLLBACK` reject (`:168-169,245-246,377-378`). Either way the store is unchanged, but the route sends no response of its own, and what the client gets is up to Express. `fault` does not cover these cases.
- The range of the well id in the reorder route beyond `Number.isInteger`: the model does not separate an out-of-range id from a missing well, and both fail the route with 500.
- A PUT `/wells/:id` whose id names no well: the wells UPDATE then touches no row, which the route does not check; the model runs the stage part as for any other id.
- Unique-constraint timing on POST and PUT `/wells`: those transactions do not defer the constraint. The model checks uniqueness over the written rows once, at the end of the transaction. An immediate check could also fail on an intermediate state.
- Which failure a route reports when several casts fail at once: the model reports one fixed error, and only the status and the rollback are stated.
- The search (`ILIKE`) and type filters of GET `/wells`, and the GET routes' filters for materials and alerts, which are SQL text filters. GET `/wells` is modelled only through its ORDER BY and its two derived columns.
- POST `/stages/:id/materials` and the DELETE routes: these are plain inserts and non-transactional cascades that involve no position.
- `LOWER` and `LIKE` are ASCII lower-casing plus a prefix test. JavaScript `toLowerCase` and `toUpperCase` are likewise modelled for ASCII only.
- Characters of names and addresses are Unicode scalar values. JavaScript indexes strings by UTF-16 code unit, so `charAt(0)`, `[0]` and `[1]` in the initials and the name from an address (`public/js/loadTopbar.js:52,73-74`, `public/js/dashboard.js:32-33`) give half a surrogate pair for a name that starts with a character outside the Basic Multilingual Plane, such as an emoji. The model takes the whole character.
- Date columns as the material form receives them: `GET /materials/:id` returns the `date` column through `res.json`, so it arrives as the ISO text of a JavaScript `Date` at the server's local midnight, in UTC. On a server east of UTC that text names the previous day. `MaterialForm.DatePart` takes the received text as given.
- `parseInt` inside `toInt`: the model takes the parse result as given (`Raw.Value(parsed)`).
- The DOM, `getBoundingClientRect` (integer midpoints stand in for floating-point geometry), `setTimeout` (a `Tick` event), `alert`, `prompt`, `confirmDialog` and `fetch`. The replies of requests are event parameters.
- `normalize('NFD')` in `safeName`: `WellMatrix.SafeName` takes the already decomposed name as its input.
- Percent-encoding of query strings: a query is a list of name and value pairs.
- Repeated or bracketed query parameters on GET `/wells` (`?order=a&order=b`, `?sort[x]=1`): Express then parses an array or an object. For `order`, `.toLowerCase` throws and the route answers 500 (`server/routes/operativo.js:34,44`). The model takes every parameter as one text.
- Html.Decode: decodes only `&amp;`, `&quot;`, `&lt;`, `&gt;` and `&apos;`, and NUL. The other named references, numeric references, and the legacy forms without `;` are kept as written. Every property of the splice stated here holds for texts without `&`, or is shown with `&amp;`.
- What a `"` in a spliced text does to the rest of the markup: the text after it becomes further attributes, or ends the tag. The model follows only the value the input or option gets.
- The download plumbing of the matrix and the material form: the blob, the object URL, the date stamp and the file name built around `safeName`. Also the material form's own export button (`operativo_material_form.js:113-166`).
- The matrix's `load()` filter parameters and the well-list rendering, which are view glue.
- `loadTopbar`'s fetching and insertion of the top bar partial. Also user names that are not strings: a stored name is modelled as text or missing.
- `JSON.parse` details: the stored session is modelled as absent, unparsable, or parsed into optional name and address fields.
- Number inputs: a number input holds either nothing or a number, as browsers guarantee. A date input holds "" or a valid date.
- Ids above 2^53, where `Number` loses precision.
- The well form's select value when the suggested count exceeds its options: the model uses the suggested count as the number of rows.
- Stage names that are only whitespace: their key is "", which the stage select treats as "Todas". The model keeps the key as computed.
- Authentication, the Express wiring (`server/index.js`) and the workbook export route (`server/routes/operativo_export.js`) are not part of this model.
- Behaviour of the code that a reader might not expect:
  - A drag that ends while a save is in flight is never saved afterwards.
  - The reorder route checks its well id only with `Number.isInteger`. PUT `/wells/:id` does not check it at all: a NaN or fractional id fails the wells UPDATE with 500 (`WellPositions.PutWell`).
  - `operativo_shared.js` as shipped exports no `getCurrentUser`, while `operativo_alertas.js:5` imports it. The module therefore fails to link, and no line of the alerts page runs; `sidebar_roles.js:2` fails the same way. `AlertsView` describes the page as if the export existed, and `AlertsView.Role` models a failed lookup as well as a successful one.

## Findings

| source | as written | input that shows it | evidently intended | confidence | as-written member | corrected member |
|---|---|---|---|---|---|---|
| server/routes/operativo.js:43 | The lookup `sortMap[sort]` also finds the properties `sortMap` inherits from `Object.prototype`. Those are truthy, so the fallback to `sortMap.id` is skipped. Their function text is put into ORDER BY, and the query fails with 500. | `GET /wells?sort=toString` | Any name outside the five columns sorts by `w.id`. | not executed | WellList.WellsOrderAsWritten, WellList.InheritedSortKeyFails | WellList.WellsOrder, WellList.CorrectedAgreesElsewhere |
| public/js/operativo_etapas.js:45 | `snapshotIds` is overwritten on every dragstart, including during an in-flight save. A failed save then reverts to an order the server never accepted. | Rows [1,2,3]. Drag 3 to the top (the save of [3,1,2] is in flight), drag 1 to the bottom, and the first save fails. The rows become [3,1,2] while the server still holds [1,2,3]. | A failure restores the order the server holds, fixed when the save was sent. | not executed | ReorderController.SnapshotOverwrittenDuringSave | ReorderController.StepFixed, ReorderController.FixedScenarioRestoresServerOrder, ReorderController.InFlightKeepsRevertTo |
| public/js/operativo_etapas.js:87-90 | If `api.post` rejects (a network error or a non-JSON body), `saving = false` is skipped. Every later drag is then ignored until the page reloads. | `saving` is true and the reply is a thrown request. Every following dragend sends nothing. | `saving` is released however the request ends. | not executed | ReorderController.ThrownLeavesSavingStuck | ReorderController.ThrownReleasesSaving |
| public/js/operativo_pozo_form.js:16-17 | The stage name and pipe are spliced into `value="${…}"` unescaped. The browser cuts the value at the first `"` and decodes `&amp;` and the like, so an unedited save overwrites the stored text with the altered one. | A stage whose pipe is `13 3/8"`: the input holds `13 3/8`, and saving the form unchanged stores `13 3/8`. | Every stored name and pipe comes back as stored. | not executed | WellForm.RowTemplate, WellForm.UneditedSaveKeepsStages, Html.InchMarkIsCut | WellForm.RowTemplateEscaped, WellForm.EscapedRowSentBack, Html.EscapedInputValue |
| public/js/operativo_alertas.js:280 | The stage key is spliced into `<option value="${key}">` unescaped, so the option's value is not the key. Applying the filter reloads the page, which finds no stage with that value, so the select falls back to "Todas". | A stage named `Tramo 9 5/8"`. Its option's value is `tramo 9 5/8`. Picking it and pressing "Aplicar" shows every row and resets the select to "Todas". | A picked stage stays selected. | not executed | AlertsView.QuotedStageLost | AlertsView.EscapedStageKept, AlertsView.EscapedOptionValues |

=== FILE: alerts_view.dfy ===
/** The alerts page: the stage filter built from the alert rows, deduplicated
    by a normalised stage name, the rows shown for the selected stage, the
    colour class of an alert level, and the edit action that viewers do not
    get. */
module AlertsView {
  import opened Optional
  import opened Seqs
  import opened Text
  import opened Decimal
  import opened JsObject
  import opened Query
  import opened Html
  import MaterialForm

  // ----------------------------------------------------------------- norm

  /** `norm(s)`: trim, collapse whitespace runs to one space, lower-case. */
  function Norm(s: string): string {
    Lower(Collapse(Trim(s)))
  }

  /** The strings `norm` produces: no edge whitespace, no whitespace but
      single spaces, no upper-case ASCII letter. */
  predicate Normal(t: string) {
    NoEdgeSpace(t) && Collapsed(t) && Lower(t) == t
  }

  lemma LowerKeepsShape(c: string)
    requires NoEdgeSpace(c) && Collapsed(c)
    ensures NoEdgeSpace(Lower(c)) && Collapsed(Lower(c))
  {
    var l := Lower(c);
    forall k | 0 <= k < |c| ensures IsSpace(l[k]) <==> IsSpace(c[k]) {
      LowerKeepsSpace(c[k]);
    }
  }

  /** Everything `norm` returns is in normal form. */
  lemma NormIsNormal(s: string)
    ensures Normal(Norm(s))
  {
    var t := Trim(s);
    CollapseShape(t);
    var c := Collapse(t);
    LowerKeepsShape(c);
    LowerIdempotent(c);
  }

  /** A string in normal form is its own `norm`. */
  lemma NormalIsFixed(t: string)
    requires Normal(t)
    ensures Norm(t) == t
  {
    CollapseFixed(t);
  }

  /** `norm` is idempotent. */
  lemma NormIdempotent(s: string)
    ensures Norm(Norm(s)) == Norm(s)
  {
    NormIsNormal(s);
    NormalIsFixed(Norm(s));
  }

  // --------------------------------------------------------- stage filter

  /** One element of GET /alerts' `data`, reduced to what the page uses. */
  datatype AlertRow = AlertRow(materialId: int, stageId: int, wellId: int, stageName: Option<string>)

  /** `r.stage_name || "Etapa"`. */
  function StageLabel(name: Option<string>): (l: string)
    ensures l != ""
  {
    if name.Some? && name.value != "" then name.value else "Etapa"
  }

  function StageKey(r: AlertRow): string {
    Norm(StageLabel(r.stageName))
  }

  /** An entry of the Map `buildUniqueStageNames` fills: the normalised key
      and the raw label. The select shows it as `<option value="${key}">`,
      spliced without escaping, whose value is `AttrValue(key)`. */
  datatype StageOption = StageOption(key: string, text: string)

  /** Each row's key and raw label, in row order. */
  function Entries(rows: seq<AlertRow>): (es: seq<StageOption>)
    ensures |es| == |rows|
    ensures forall i | 0 <= i < |rows| :: es[i] == StageOption(StageKey(rows[i]), StageLabel(rows[i].stageName))
  {
    seq(|rows|, i requires 0 <= i < |rows| => StageOption(StageKey(rows[i]), StageLabel(rows[i].stageName)))
  }

  function Keys(ps: seq<StageOption>): (ks: seq<string>)
    ensures |ks| == |ps|
    ensures forall j | 0 <= j < |ps| :: ks[j] == ps[j].key
  {
    seq(|ps|, j requires 0 <= j < |ps| => ps[j].key)
  }

  /** The entries of a `Map` filled in order, where a key already present is
      not set again. */
  function Dedup(es: seq<StageOption>): seq<StageOption>
    decreases |es|
  {
    if |es| == 0 then []
    else
      var ps := Dedup(es[..|es| - 1]);
      var e := es[|es| - 1];
      if e.key in Keys(ps) then ps else ps + [e]
  }

  lemma KeysAppend(ps: seq<StageOption>, e: StageOption)
    ensures Keys(ps + [e]) == Keys(ps) + [e.key]
  {
  }

  lemma KeysPrefix(es: seq<StageOption>, n: nat)
    requires n <= |es|
    ensures Keys(es[..n]) == Keys(es)[..n]
  {
  }

  /** The deduplicated keys are distinct and cover every entry's key. */
  lemma {:induction false} DedupKeys(es: seq<StageOption>)
    ensures Distinct(Keys(Dedup(es)))
    ensures forall i | 0 <= i < |es| :: es[i].key in Keys(Dedup(es))
    decreases |es|
  {
    if |es| > 0 {
      var n := |es| - 1;
      var pre := es[..n];
      DedupKeys(pre);
      var ps := Dedup(pre);
      var e := es[n];
      assert forall i | 0 <= i < n :: es[i] == pre[i];
      if e.key !in Keys(ps) {
        KeysAppend(ps, e);
        var ks := Keys(ps) + [e.key];
        forall a, b | 0 <= a < b < |ks| ensures ks[a] != ks[b] {
          if b < |ps| { assert ks[a] == Keys(ps)[a] && ks[b] == Keys(ps)[b]; }
          else { assert ks[a] == Keys(ps)[a]; }
        }
      }
    }
  }

  /** The first occurrence of `x` in a prefix is its first occurrence in the
      whole sequence. */
  lemma IndexOfPrefix(s: seq<string>, n: nat, x: string)
    requires n <= |s| && x in s[..n]
    ensures x in s && IndexOf(s, x) == IndexOf(s[..n], x)
  {
    var i := IndexOf(s[..n], x);
    assert s[i] == x;
    var j := IndexOf(s, x);
    assert j <= i;
    assert s[..n][j] == x;
  }

  lemma {:induction false} DedupSubset(es: seq<StageOption>)
    ensures forall p | p in Dedup(es) :: p in es
    decreases |es|
  {
    if |es| > 0 {
      DedupSubset(es[..|es| - 1]);
      assert forall p | p in es[..|es| - 1] :: p in es;
    }
  }

  /** An option kept from the first `|es| - 1` entries keeps the index of
      its first entry when the last entry is added. */
  lemma DedupKeptIndex(es: seq<StageOption>, pre: seq<StageOption>)
    requires |es| > 0 && pre == es[..|es| - 1]
    ensures forall j | 0 <= j < |Dedup(pre)| ::
      && Dedup(pre)[j].key in Keys(pre) && Dedup(pre)[j].key in Keys(es)
      && IndexOf(Keys(es), Dedup(pre)[j].key) == IndexOf(Keys(pre), Dedup(pre)[j].key) < |es| - 1
  {
    var n := |es| - 1;
    var ps := Dedup(pre);
    KeysPrefix(es, n);
    DedupSubset(pre);
    forall j | 0 <= j < |ps|
      ensures ps[j].key in Keys(pre) && ps[j].key in Keys(es) && IndexOf(Keys(es), ps[j].key) == IndexOf(Keys(pre), ps[j].key) < n
    {
      assert ps[j] in pre;
      var i :| 0 <= i < |pre| && pre[i] == ps[j];
      assert Keys(pre)[i] == ps[j].key;
      IndexOfPrefix(Keys(es), n, ps[j].key);
    }
  }

  /** The last entry is added only when its key is new, and then it is the
      first entry with that key. */
  lemma DedupNewIndex(es: seq<StageOption>)
    requires |es| > 0 && es[|es| - 1].key !in Keys(Dedup(es[..|es| - 1]))
    ensures es[|es| - 1].key in Keys(es) && IndexOf(Keys(es), es[|es| - 1].key) == |es| - 1
  {
    var n := |es| - 1;
    var pre := es[..n];
    var k := es[n].key;
    DedupKeys(pre);
    KeysPrefix(es, n);
    assert k !in Keys(pre);
    assert Keys(es)[n] == k;
    forall i | 0 <= i < n ensures Keys(es)[i] != k {
      assert Keys(es)[i] == Keys(pre)[i];
    }
  }

  /** Each kept option is the first entry with its key. */
  lemma {:induction false} DedupFirst(es: seq<StageOption>)
    ensures forall j | 0 <= j < |Dedup(es)| ::
      Dedup(es)[j].key in Keys(es) && Dedup(es)[j] == es[IndexOf(Keys(es), Dedup(es)[j].key)]
    decreases |es|
  {
    if |es| > 0 {
      var n := |es| - 1;
      var pre := es[..n];
      DedupFirst(pre);
      DedupKeptIndex(es, pre);
      var ps := Dedup(pre);
      assert forall i | 0 <= i < n :: es[i] == pre[i];
      assert Dedup(es) == if es[n].key in Keys(ps) then ps else ps + [es[n]];
      if es[n].key in Keys(ps) {
        forall j | 0 <= j < |ps| ensures ps[j].key in Keys(es) && ps[j] == es[IndexOf(Keys(es), ps[j].key)] {
          assert ps[j] == pre[IndexOf(Keys(pre), ps[j].key)];
        }
      } else {
        DedupNewIndex(es);
        var ps' := ps + [es[n]];
        forall j | 0 <= j < |ps'| ensures ps'[j].key in Keys(es) && ps'[j] == es[IndexOf(Keys(es), ps'[j].key)] {
          if j < |ps| { assert ps'[j] == ps[j]; }
        }
      }
    }
  }

  /** The kept options are in the order of their first entries. */
  lemma {:induction false} DedupOrder(es: seq<StageOption>)
    ensures forall a, b | 0 <= a < b < |Dedup(es)| ::
      && Dedup(es)[a].key in Keys(es) && Dedup(es)[b].key in Keys(es)
      && IndexOf(Keys(es), Dedup(es)[a].key) < IndexOf(Keys(es), Dedup(es)[b].key)
    decreases |es|
  {
    if |es| > 0 {
      var n := |es| - 1;
      var pre := es[..n];
      DedupOrder(pre);
      DedupKeptIndex(es, pre);
      var ps := Dedup(pre);
      assert Dedup(es) == if es[n].key in Keys(ps) then ps else ps + [es[n]];
      if es[n].key !in Keys(ps) {
        DedupNewIndex(es);
      }
      DedupOrderStep(Keys(es), Keys(pre), ps, es[n], Dedup(es));
    } else {
      assert Dedup(es) == [];
    }
  }

  /** The order of first entries among the kept options survives one more
      entry, whether it is dropped or appended. */
  lemma DedupOrderStep(ks: seq<string>, pks: seq<string>, ps: seq<StageOption>, e: StageOption, r: seq<StageOption>)
    requires |ks| == |pks| + 1
    requires forall a, b | 0 <= a < b < |ps| ::
      && ps[a].key in pks && ps[b].key in pks && IndexOf(pks, ps[a].key) < IndexOf(pks, ps[b].key)
    requires forall j | 0 <= j < |ps| :: ps[j].key in ks && ps[j].key in pks && IndexOf(ks, ps[j].key) == IndexOf(pks, ps[j].key) < |ks| - 1
    requires e.key !in Keys(ps) ==> e.key in ks && IndexOf(ks, e.key) == |ks| - 1
    requires r == if e.key in Keys(ps) then ps else ps + [e]
    ensures forall a, b | 0 <= a < b < |r| ::
      && r[a].key in ks && r[b].key in ks && IndexOf(ks, r[a].key) < IndexOf(ks, r[b].key)
  {
    forall a, b | 0 <= a < b < |r|
      ensures r[a].key in ks && r[b].key in ks && IndexOf(ks, r[a].key) < IndexOf(ks, r[b].key)
    {
      assert r[a] == ps[a];
      var ia := IndexOf(ks, ps[a].key);
      assert ia == IndexOf(pks, ps[a].key) < |ks| - 1;
      if b < |ps| {
        assert r[b] == ps[b];
        assert IndexOf(ks, ps[b].key) == IndexOf(pks, ps[b].key);
        assert IndexOf(pks, ps[a].key) < IndexOf(pks, ps[b].key);
      } else {
        assert r[b] == e && e.key !in Keys(ps);
      }
    }
  }

  /** `buildUniqueStageNames(rows)`: one option per distinct key, in the
      order of the first row with each key, labelled with that row's raw
      label; every row's key is offered. */
  function UniqueStageNames(rows: seq<AlertRow>): (ps: seq<StageOption>)
    ensures Distinct(Keys(ps))
    ensures forall i | 0 <= i < |rows| :: Entries(rows)[i].key in Keys(ps)
    ensures forall j | 0 <= j < |ps| ::
      ps[j].key in Keys(Entries(rows)) && ps[j] == Entries(rows)[IndexOf(Keys(Entries(rows)), ps[j].key)]
    ensures forall a, b | 0 <= a < b < |ps| ::
      ps[a].key in Keys(Entries(rows)) && ps[b].key in Keys(Entries(rows)) &&
      IndexOf(Keys(Entries(rows)), ps[a].key) < IndexOf(Keys(Entries(rows)), ps[b].key)
  {
    var es := Entries(rows);
    DedupKeys(es);
    DedupFirst(es);
    DedupOrder(es);
    Dedup(es)
  }

  /** `fStage.value` after the options are rebuilt: the previous key when it
      is still offered, otherwise "" ("Todas"). */
  function KeptSelection(current: string, ps: seq<StageOption>): (sel: string)
    ensures sel == "" || sel in Keys(ps)
    ensures sel == current <==> current == "" || current in Keys(ps)
  {
    if current != "" && current in Keys(ps) then current else ""
  }

  /** The values of the rebuilt stage select: "" for "Todas", then the value
      each option's markup parses to. */
  function OptionValues(ps: seq<StageOption>): (vs: seq<string>)
    ensures |vs| == |ps| + 1 && vs[0] == ""
    ensures forall j | 0 <= j < |ps| :: vs[j + 1] == AttrValue(ps[j].key)
  {
    [""] + seq(|ps|, j requires 0 <= j < |ps| => AttrValue(ps[j].key))
  }

  /** The option values had the keys been escaped before the splice. */
  function EscapedOptionValues(ps: seq<StageOption>): (vs: seq<string>)
    ensures |vs| == |ps| + 1 && vs[0] == ""
    ensures forall j | 0 <= j < |ps| :: vs[j + 1] == AttrValue(Escape(ps[j].key))
  {
    [""] + seq(|ps|, j requires 0 <= j < |ps| => AttrValue(Escape(ps[j].key)))
  }

  /** `fStage.value = v`: the option with value `v` is selected; when there
      is none, no option is, and the select reads "". */
  function AssignSelect(values: seq<string>, v: string): (sel: string)
    ensures v in values ==> sel == v
    ensures v !in values ==> sel == ""
  {
    if v in values then v else ""
  }

  /** What the stage select reads after `load()` rebuilds it with the option
      values `values`, given what it read before. */
  function ReloadedStage(current: string, ps: seq<StageOption>, values: seq<string>): (sel: string)
    ensures sel == "" || (sel == KeptSelection(current, ps) && sel in values)
  {
    AssignSelect(values, KeptSelection(current, ps))
  }

  /** A stage picked from the select stays selected across the reload when
      its key holds none of `"`, `&`, NUL or line breaks. */
  lemma PickedStageKept(ps: seq<StageOption>, j: int)
    requires 0 <= j < |ps|
    ensures Verbatim(ps[j].key) ==> ReloadedStage(AttrValue(ps[j].key), ps, OptionValues(ps)) == ps[j].key
  {
    VerbatimInputValue(ps[j].key);
    assert Keys(ps)[j] == ps[j].key;
    assert OptionValues(ps)[j + 1] == AttrValue(ps[j].key);
  }

  /** A stage whose key holds a `"` never stays selected: its option's value
      is cut at the quote and matches no key but possibly another one. */
  lemma QuotedStageLost(ps: seq<StageOption>, j: int)
    requires 0 <= j < |ps|
    ensures '"' in ps[j].key ==> ReloadedStage(AttrValue(ps[j].key), ps, OptionValues(ps)) != ps[j].key
  {
    QuoteCutsInputValue(ps[j].key);
  }

  /** With escaped option values, every picked stage stays selected. */
  lemma EscapedStageKept(ps: seq<StageOption>, j: int)
    requires 0 <= j < |ps|
    ensures '\0' !in ps[j].key ==> ReloadedStage(AttrValue(Escape(ps[j].key)), ps, EscapedOptionValues(ps)) == ps[j].key
  {
    if '\0' !in ps[j].key {
      EscapedAttrValue(ps[j].key);
      assert Keys(ps)[j] == ps[j].key;
      assert EscapedOptionValues(ps)[j + 1] == ps[j].key;
    }
  }

  /** The rows the table shows for the selection `sel`: all of them, or
      `rows.filter(it => norm(it.stage_name || "Etapa") === sel)`. */
  function RowsToRender(rows: seq<AlertRow>, sel: string): (r: seq<AlertRow>)
    ensures sel == "" ==> r == rows
    ensures |r| <= |rows|
    ensures forall x :: x in r <==> x in rows && (sel == "" || StageKey(x) == sel)
  {
    SelectMembers(rows, StageKey, sel);
    if sel == "" then rows else Select(rows, StageKey, sel)
  }

  /** The shown rows keep their order: filtering a list split in two is
      filtering each part. */
  lemma RowsToRenderAppend(a: seq<AlertRow>, b: seq<AlertRow>, sel: string)
    ensures RowsToRender(a + b, sel) == RowsToRender(a, sel) + RowsToRender(b, sel)
  {
    SelectAppend(a, b, StageKey, sel);
  }

  /** A selection that survives a reload always has rows to show. */
  lemma KeptSelectionShowsRows(rows: seq<AlertRow>, current: string)
    ensures var sel := KeptSelection(current, UniqueStageNames(rows));
      sel != "" ==> RowsToRender(rows, sel) != []
  {
    var ps := UniqueStageNames(rows);
    var sel := KeptSelection(current, ps);
    if sel != "" {
      var j := IndexOf(Keys(ps), sel);
      var i := IndexOf(Keys(Entries(rows)), ps[j].key);
      assert StageKey(rows[i]) == sel;
      assert rows[i] in RowsToRender(rows, sel);
    }
  }

  // ------------------------------------------------------------ alert chip

  /** The own keys of `chipClass`'s lookup table. */
  const ChipLevels: set<string> := {"rojo", "amarillo", "verde", "azul"}

  /** `chipClass(alerta)`. `None` stands for a lowered value that names an
      inherited property of the lookup table, whose value (a function or an
      object) ends up as the class text. */
  function ChipClass(alerta: Option<string>): (c: Option<string>)
    ensures var a := Lower(alerta.GetOr(""));
      && (a == "rojo" ==> c == Some("alert-rojo")) && (a == "amarillo" ==> c == Some("alert-amarillo"))
      && (a == "verde" ==> c == Some("alert-verde")) && (a == "azul" ==> c == Some("alert-azul"))
      && (c.None? <==> a in InheritedKeys)
      && (a !in ChipLevels && a !in InheritedKeys ==> c == Some("alert-azul"))
  {
    var a := Lower(alerta.GetOr(""));
    if a == "rojo" then Some("alert-rojo")
    else if a == "amarillo" then Some("alert-amarillo")
    else if a == "verde" then Some("alert-verde")
    else if a == "azul" then Some("alert-azul")
    else if a in InheritedKeys then None
    else Some("alert-azul")
  }

  /** The class does not depend on the letter case of the level. */
  lemma ChipClassIgnoresCase(x: string)
    ensures ChipClass(Some(x)) == ChipClass(Some(Lower(x)))
  {
    LowerIdempotent(x);
  }

  // ---------------------------------------------------------------- roles

  /** What `getCurrentUser()` produced: a rejection, no user, or a user with
      its `role` field. */
  datatype CurrentUser = Failed | NoUser | SignedIn(role: Option<string>)

  /** `(u?.role || 'admin').toLowerCase()`; `None` when the call threw. */
  function Role(u: CurrentUser): (r: Option<string>)
    ensures r.None? <==> u.Failed?
    ensures u.NoUser? || (u.SignedIn? && (u.role.None? || u.role.value == "")) ==> r == Some("admin")
  {
    assert Lower("admin") == "admin";
    if u.Failed? then None
    else if u.SignedIn? && u.role.Some? && u.role.value != "" then Some(Lower(u.role.value))
    else Some("admin")
  }

  function IsViewer(u: CurrentUser): (v: bool)
    ensures v <==> u.SignedIn? && u.role.Some? && Lower(u.role.value) == "viewer"
  {
    Role(u) == Some("viewer")
  }

  /** The actions of a table row: view, and edit unless the user is a viewer. */
  function RowActions(viewer: bool): (acts: seq<string>)
    ensures "view" in acts
    ensures "edit" in acts <==> !viewer
  {
    if viewer then ["view"] else ["view", "edit"]
  }

  // ------------------------------------------------------------- edit link

  /** The query of `goToMaterialInfo(it)`, in the order the parameters are set. */
  function EditLinkQuery(it: AlertRow): (q: Query)
    ensures |q| >= 2 && q[0] == ("material", IntText(it.materialId))
    ensures q[|q| - 1] == ("action", "edit")
    ensures ("stage", IntText(it.stageId)) in q <==> it.stageId != 0
    ensures ("well", IntText(it.wellId)) in q <==> it.wellId != 0
  {
    [("material", IntText(it.materialId))]
    + (if it.stageId != 0 then [("stage", IntText(it.stageId))] else [])
    + (if it.wellId != 0 then [("well", IntText(it.wellId))] else [])
    + [("action", "edit")]
  }

  /** The material form opened from an alert edits that alert's material:
      the link has no `id` parameter and its `material` parameter is the
      material's id. */
  lemma EditLinkOpensMaterial(it: AlertRow)
    ensures var q := EditLinkQuery(it);
      MaterialForm.MaterialId(Param(q, "id"), Param(q, "material")) == Some(IntText(it.materialId))
  {
    var q := EditLinkQuery(it);
    assert Param(q, "material") == Some(IntText(it.materialId));
    assert forall k | 0 <= k < |q| :: q[k].0 != "id";
  }
}

=== FILE: decimal.dfy ===
/** Numbers as text: `String(n)` of an integer, the value of an optionally
    signed run of ASCII digits as `Number(text)` reads it, and the value of a
    number input. */
module Decimal {
  import opened Optional
  import opened Text

  /** The value of an `<input type="number">`: empty, or a valid number
      (the browser clears any other text). */
  datatype NumberInput = Empty | Entered(value: real)

  predicate AllDigits(s: string) {
    forall k | 0 <= k < |s| :: IsAsciiDigit(s[k])
  }

  function DigitChar(d: nat): (c: char)
    requires d < 10
    ensures IsAsciiDigit(c)
  {
    ('0' as int + d) as char
  }

  function DigitValue(c: char): (d: nat)
    requires IsAsciiDigit(c)
    ensures d < 10
  {
    c as int - '0' as int
  }

  /** `String(n)` of a natural number: its digits, most significant first,
      without leading zeros. */
  function NatText(n: nat): (t: string)
    ensures |t| > 0 && AllDigits(t)
    ensures t[0] == '0' ==> n == 0
    decreases n
  {
    if n < 10 then [DigitChar(n)] else NatText(n / 10) + [DigitChar(n % 10)]
  }

  /** The value of a run of digits. */
  function DigitsValue(s: string): nat
    requires AllDigits(s)
    decreases |s|
  {
    if |s| == 0 then 0 else DigitsValue(s[..|s| - 1]) * 10 + DigitValue(s[|s| - 1])
  }

  /** `String(i)` of an integer. */
  function IntText(i: int): (t: string)
    ensures t != ""
  {
    if i < 0 then "-" + NatText(-i) else NatText(i)
  }

  /** `Number(t)` for `t` of the form `-?[0-9]+`; `None` for any other text,
      about which the model says nothing more. */
  function DecimalValue(t: string): Option<int> {
    if |t| > 0 && AllDigits(t) then Some(DigitsValue(t))
    else if |t| > 1 && t[0] == '-' && AllDigits(t[1..]) then Some(-(DigitsValue(t[1..]) as int))
    else None
  }

  lemma {:induction false} NatTextValue(n: nat)
    ensures DigitsValue(NatText(n)) == n
    decreases n
  {
    var t := NatText(n);
    if n < 10 {
      assert t[..|t| - 1] == "";
    } else {
      assert t[..|t| - 1] == NatText(n / 10);
      assert t[|t| - 1] == DigitChar(n % 10);
      NatTextValue(n / 10);
    }
  }

  /** Reading back `String(i)` gives `i`. */
  lemma IntTextRoundTrip(i: int)
    ensures DecimalValue(IntText(i)) == Some(i)
  {
    if i < 0 {
      NatTextValue(-i);
      assert IntText(i)[1..] == NatText(-i);
      assert !IsAsciiDigit(IntText(i)[0]);
    } else {
      NatTextValue(i);
    }
  }
}

=== FILE: html.dfy ===
/** How a browser reads a text spliced into markup as `value="${t}"`: the
    attribute ends at the first `"` of the text, character references in it
    are decoded, and a text input drops line breaks from its value. Also the
    escaping that makes such a splice lossless. */
module Html {

  /** The text up to the attribute's closing quote: everything before the
      first `"` of `t`. */
  function BeforeQuote(t: string): (r: string)
    ensures |r| <= |t| && r == t[..|r|] && '"' !in r
    ensures '"' !in t ==> r == t
    ensures '"' in t ==> |r| < |t| && t[|r|] == '"'
  {
    if |t| == 0 || t[0] == '"' then ""
    else
      var r := BeforeQuote(t[1..]);
      assert [t[0]] + r == t[..|r| + 1];
      [t[0]] + r
  }

  /** The text before the first `"` is all the attribute gets. */
  lemma BeforeQuoteOf(a: string, b: string)
    requires '"' !in a
    ensures BeforeQuote(a + "\"" + b) == a
  {
    var t := a + "\"" + b;
    var r := BeforeQuote(t);
    assert t[|a|] == '"';
    assert forall k | 0 <= k < |a| :: t[k] == a[k];
    assert forall k | 0 <= k < |r| :: r[k] == t[k];
    assert |r| == |a|;
    assert r == t[..|a|] == a;
  }

  predicate At(t: string, i: nat, c: char) { i < |t| && t[i] == c }

  /** The character a reference at the start of `t` stands for, and its
      length; a lone `&` stands for itself. */
  function ReferenceAt(t: string): (r: (char, nat))
    requires |t| > 0 && t[0] == '&'
    ensures 1 <= r.1 <= |t|
  {
    if At(t, 1, 'a') && At(t, 2, 'm') && At(t, 3, 'p') && At(t, 4, ';') then ('&', 5)
    else if At(t, 1, 'q') && At(t, 2, 'u') && At(t, 3, 'o') && At(t, 4, 't') && At(t, 5, ';') then ('"', 6)
    else if At(t, 1, 'l') && At(t, 2, 't') && At(t, 3, ';') then ('<', 4)
    else if At(t, 1, 'g') && At(t, 2, 't') && At(t, 3, ';') then ('>', 4)
    else if At(t, 1, 'a') && At(t, 2, 'p') && At(t, 3, 'o') && At(t, 4, 's') && At(t, 5, ';') then ('\'', 6)
    else ('&', 1)
  }

  /** Character-reference decoding of an attribute value: the references
      `&amp;` `&quot;` `&lt;` `&gt;` `&apos;`, and NUL, which the tokenizer
      replaces by U+FFFD. Any other character is kept. */
  function Decode(t: string): (r: string)
    ensures |r| <= |t|
    ensures '&' !in t && '\0' !in t ==> r == t
    decreases |t|
  {
    if |t| == 0 then ""
    else if t[0] == '&' then
      var (c, n) := ReferenceAt(t);
      [c] + Decode(t[n..])
    else if t[0] == '\0' then "\U{FFFD}" + Decode(t[1..])
    else [t[0]] + Decode(t[1..])
  }

  lemma DecodeCons(c: char, u: string)
    requires c != '&' && c != '\0'
    ensures Decode([c] + u) == [c] + Decode(u)
  {
    assert ([c] + u)[1..] == u;
  }

  lemma DecodeAmp(u: string)
    ensures Decode("&amp;" + u) == "&" + Decode(u)
  {
    var e := "&amp;" + u;
    assert e[1] == 'a' && e[2] == 'm' && e[3] == 'p' && e[4] == ';';
    assert e[5..] == u;
  }

  lemma DecodeQuot(u: string)
    ensures Decode("&quot;" + u) == "\"" + Decode(u)
  {
    var e := "&quot;" + u;
    assert e[1] == 'q' && e[2] == 'u' && e[3] == 'o' && e[4] == 't' && e[5] == ';';
    assert e[6..] == u;
  }

  /** The value of the attribute written as `value="${t}"`. */
  function AttrValue(t: string): string {
    Decode(BeforeQuote(t))
  }

  predicate LineBreak(c: char) { c == '\r' || c == '\n' }

  /** The value sanitization of a text input: line breaks are removed. */
  function StripLineBreaks(t: string): (r: string)
    ensures |r| <= |t|
    ensures '\r' !in r && '\n' !in r
    ensures '\r' !in t && '\n' !in t ==> r == t
  {
    if |t| == 0 then ""
    else if LineBreak(t[0]) then StripLineBreaks(t[1..])
    else [t[0]] + StripLineBreaks(t[1..])
  }

  /** What a text input built as `<input value="${t}">` holds. */
  function InputValue(t: string): string {
    StripLineBreaks(AttrValue(t))
  }

  /** A text that no step of the splice changes: it holds none of `"`, `&`,
      NUL, CR and LF. */
  predicate Verbatim(t: string) {
    '"' !in t && '&' !in t && '\0' !in t && '\r' !in t && '\n' !in t
  }

  /** A text free of the altered characters reaches the input unchanged. */
  lemma VerbatimInputValue(t: string)
    ensures Verbatim(t) ==> InputValue(t) == t && AttrValue(t) == t
  {
  }

  /** A text with a `"` always reaches the input shorter than it is: the
      input never holds the stored text. */
  lemma QuoteCutsInputValue(t: string)
    ensures '"' in t ==> |InputValue(t)| <= |AttrValue(t)| < |t|
  {
  }

  /** A size in inches such as `13 3/8"` loses its inch mark. */
  lemma InchMarkIsCut(size: string)
    requires Verbatim(size)
    ensures InputValue(size + "\"") == size
  {
    BeforeQuoteOf(size, "");
    assert size + "\"" + "" == size + "\"";
    VerbatimInputValue(size);
  }

  /** `A &amp; B` is read as `A & B`. */
  lemma ReferenceIsDecoded(a: string, b: string)
    requires Verbatim(a) && Verbatim(b)
    ensures InputValue(a + "&amp;" + b) == a + "&" + b
  {
    var m := "&amp;" + b;
    assert a + "&amp;" + b == a + m;
    assert '"' !in m;
    VerbatimDecode(a, m);
    DecodeAmp(b);
    assert a + ("&" + b) == a + "&" + b;
  }

  lemma ConsSplit(a: string, u: string)
    requires |a| > 0
    ensures a + u == [a[0]] + (a[1..] + u)
  {
  }

  /** Decoding passes over a prefix that holds no `&` or NUL. */
  lemma {:induction false} VerbatimDecode(a: string, u: string)
    requires Verbatim(a)
    ensures Decode(a + u) == a + Decode(u)
    decreases |a|
  {
    if |a| > 0 {
      var a' := a[1..];
      ConsSplit(a, "");
      assert a == [a[0]] + a';
      VerbatimDecode(a', u);
      DecodeCons(a[0], a' + u);
      ConsSplit(a, u);
      ConsSplit(a, Decode(u));
    } else {
      assert a + u == u && a + Decode(u) == Decode(u);
    }
  }

  // --------------------------------------------------------------- escaping

  /** The escaping the splice lacks: `&` as `&amp;` and `"` as `&quot;`. */
  function Escape(t: string): (r: string)
    ensures '"' !in r
    ensures '\0' in r ==> '\0' in t
  {
    if |t| == 0 then ""
    else if t[0] == '&' then "&amp;" + Escape(t[1..])
    else if t[0] == '"' then "&quot;" + Escape(t[1..])
    else [t[0]] + Escape(t[1..])
  }

  lemma {:induction false} DecodeEscape(t: string)
    requires '\0' !in t
    ensures Decode(Escape(t)) == t
    decreases |t|
  {
    if |t| > 0 {
      var rest := Escape(t[1..]);
      DecodeEscape(t[1..]);
      if t[0] == '&' {
        DecodeAmp(rest);
      } else if t[0] == '"' {
        DecodeQuot(rest);
      } else {
        DecodeCons(t[0], rest);
      }
      assert t == [t[0]] + t[1..];
    }
  }

  /** Escaped, every text comes back from the attribute as written. */
  lemma EscapedAttrValue(t: string)
    requires '\0' !in t
    ensures AttrValue(Escape(t)) == t
  {
    DecodeEscape(t);
  }

  /** Escaped, a text input holds every text a text input can hold: one
      without line breaks or NUL. */
  lemma EscapedInputValue(t: string)
    requires '\0' !in t && '\r' !in t && '\n' !in t
    ensures InputValue(Escape(t)) == t
  {
    DecodeEscape(t);
  }
}

=== FILE: js_object.dfy ===
/** Property lookup on a plain JavaScript object literal. */
module JsObject {

  /** The property names every plain object inherits from
      `Object.prototype`; looking one of them up in an object literal yields a
      function or an object, never `undefined`. */
  const InheritedKeys: set<string> := {
    "constructor", "__proto__", "toString", "toLocaleString", "valueOf",
    "hasOwnProperty", "isPrototypeOf", "propertyIsEnumerable",
    "__defineGetter__", "__defineSetter__", "__lookupGetter__", "__lookupSetter__"}
}

=== FILE: material_form.dfy ===
/** The material form: which material it edits, how a stored material fills
    its inputs, and the body "Guardar" sends to PUT /materials/:id or to the
    stage's POST. */
module MaterialForm {
  import opened Optional
  import opened Text
  import opened Decimal
  import opened Materials

  /** `qs("id") || qs("material")`; `None` stands for a falsy result (a
      missing parameter or an empty one). */
  function MaterialId(idParam: Option<string>, materialParam: Option<string>): (id: Option<string>)
    ensures id.Some? ==> id.value != ""
    ensures idParam.Some? && idParam.value != "" ==> id == idParam
    ensures (idParam.None? || idParam.value == "") ==>
      id == (if materialParam.Some? && materialParam.value != "" then materialParam else None)
  {
    if idParam.Some? && idParam.value != "" then idParam
    else if materialParam.Some? && materialParam.value != "" then materialParam
    else None
  }

  /** The inputs of the form. Selects and text inputs hold text; `cantidad`
      is a number input; the two dates are date inputs, whose value is empty
      or a valid date. */
  datatype Fields = Fields(
    programa: string,
    categoria: string,
    especificacion: string,
    cantidad: NumberInput,
    unidad: string,
    proveedor: string,
    ordenServicio: string,
    fechaAvanzada: string,
    linkAvanzada: string,
    fechaInspeccion: string,
    linkInspeccion: string,
    logistica: string,
    alerta: string,
    comentario: string)

  const DefaultLogistica := "Por Definir"
  const DefaultAlerta := "azul"

  /** `toLowerOrEmpty(v) || fallback`. */
  function LowerOr(v: Option<string>, fallback: string): (r: string)
    ensures v.Some? && v.value != "" ==> r == Lower(v.value)
    ensures v.None? || v.value == "" ==> r == fallback
  {
    if v.Some? && v.value != "" then Lower(v.value) else fallback
  }

  /** `v ? String(v).slice(0, 10) : ""`: the date part of a stored date. */
  function DatePart(v: Option<Date>): (r: string)
    ensures v.Some? && v.value != "" ==> r == v.value[..if |v.value| < 10 then |v.value| else 10]
    ensures |r| <= 10
    ensures r == "" <==> v.None? || v.value == ""
  {
    if v.Some? && v.value != "" then v.value[..if |v.value| < 10 then |v.value| else 10] else ""
  }

  /** `hydrate()` once GET /materials/:id has answered with `m`. */
  function Hydrate(m: Material): (f: Fields)
    ensures f.cantidad == Entered(m.cantidad.GetOr(1.0))
    ensures f.logistica == (if m.logistica.Some? && m.logistica.value != "" then m.logistica.value else DefaultLogistica)
    ensures f.alerta != "" && f.alerta == LowerOr(m.alerta, DefaultAlerta)
    ensures f.programa == LowerOr(m.programa, "")
    ensures |f.fechaAvanzada| <= 10 && |f.fechaInspeccion| <= 10
  {
    Fields(
      LowerOr(m.programa, ""),
      m.categoria.GetOr(""),
      m.especificacion.GetOr(""),
      Entered(m.cantidad.GetOr(1.0)),
      m.unidad.GetOr(""),
      m.proveedor.GetOr(""),
      m.ordenServicio.GetOr(""),
      DatePart(m.fechaAvanzada),
      m.linkAvanzada.GetOr(""),
      DatePart(m.fechaInspeccion),
      m.linkInspeccion.GetOr(""),
      if m.logistica.Some? && m.logistica.value != "" then m.logistica.value else DefaultLogistica,
      LowerOr(m.alerta, DefaultAlerta),
      m.comentario.GetOr(""))
  }

  /** `toLowerOrEmpty(v) || null` for an enum select. */
  function EnumOrNull(v: string): (r: Option<string>)
    ensures r.None? <==> v == ""
    ensures r.Some? ==> r.value == Lower(v)
  {
    LowerEmpty(v);
    if v == "" then None else Some(Lower(v))
  }

  /** `emptyToNull(v || "")`. */
  function EmptyToNull(v: string): (r: Option<string>)
    ensures r.None? <==> v == ""
    ensures r.Some? ==> r.value == v
  {
    if v == "" then None else Some(v)
  }

  /** A date input's value as a `::date` parameter. */
  function DateParam(v: string): (r: Typed<Date>)
    ensures r.Null? <==> v == ""
    ensures r.Valid? ==> r.value == v
  {
    if v == "" then Null else Valid(v)
  }

  /** The body of the save, as the server's patch sees it. The form never
      sends `name`; text inputs are trimmed and sent even when empty, and
      `cantidad` is `Number(value || 0)`. */
  function SavePatch(f: Fields): (p: Patch)
    ensures p.name.None?
    ensures p.programa == EnumOrNull(f.programa) && p.alerta == EnumOrNull(f.alerta)
    ensures p.categoria == Some(Trim(f.categoria)) && p.unidad == Some(Trim(f.unidad))
    ensures p.cantidad == Valid(if f.cantidad.Empty? then 0.0 else f.cantidad.value)
    ensures p.logistica == Some(f.logistica)
    ensures p.comentario == EmptyToNull(f.comentario)
  {
    Patch(
      None,
      EnumOrNull(f.programa),
      Some(Trim(f.categoria)),
      Some(Trim(f.especificacion)),
      Valid(if f.cantidad.Empty? then 0.0 else f.cantidad.value),
      Some(Trim(f.unidad)),
      Some(Trim(f.proveedor)),
      Some(Trim(f.ordenServicio)),
      DateParam(f.fechaAvanzada),
      Some(Trim(f.linkAvanzada)),
      DateParam(f.fechaInspeccion),
      Some(Trim(f.linkInspeccion)),
      Some(f.logistica),
      EnumOrNull(f.alerta),
      EmptyToNull(f.comentario))
  }

  datatype Request = PutMaterial(id: string, body: Patch) | PostToStage(stage: Option<string>, body: Patch)

  /** With a material id the form updates it, otherwise it creates one in the
      stage of `?stage`. */
  function SaveRequest(idParam: Option<string>, materialParam: Option<string>, stageParam: Option<string>, f: Fields): (r: Request)
    ensures r.PutMaterial? <==> MaterialId(idParam, materialParam).Some?
    ensures r.PutMaterial? ==> r.id == MaterialId(idParam, materialParam).value
    ensures r.PostToStage? ==> r.stage == stageParam
    ensures r.body == SavePatch(f)
  {
    var id := MaterialId(idParam, materialParam);
    if id.Some? then PutMaterial(id.value, SavePatch(f)) else PostToStage(stageParam, SavePatch(f))
  }

  // -------------------------------------------------------------- properties

  /** The form's body passes every cast of PUT /materials/:id exactly when
      both enum selects are empty or hold an enum label in some ASCII case. */
  lemma SavePatchCasts(f: Fields)
    ensures PatchCasts(SavePatch(f)) <==>
      && (f.programa == "" || Lower(f.programa) in ProgramTypes)
      && (f.alerta == "" || Lower(f.alerta) in AlertTypes)
  {
    var p := SavePatch(f);
    EnumTextOfSelect(f.programa);
    EnumTextOfSelect(f.alerta);
    assert !p.cantidad.Invalid? && !p.fechaAvanzada.Invalid? && !p.fechaInspeccion.Invalid?;
  }

  /** The server's lower-casing of an enum changes nothing the form sends. */
  lemma EnumTextOfSelect(v: string)
    ensures EnumText(EnumOrNull(v)) == EnumOrNull(v)
  {
    LowerEmpty(v);
    LowerIdempotent(v);
  }

  /** A blank input keeps the stored value: the text inputs, the enum
      selects, the dates and the comment. */
  lemma BlankFieldsKeepStored(m: Material, f: Fields)
    ensures var r := Merge(m, SavePatch(f));
      && (AllSpace(f.categoria) ==> r.categoria == m.categoria)
      && (AllSpace(f.especificacion) ==> r.especificacion == m.especificacion)
      && (AllSpace(f.unidad) ==> r.unidad == m.unidad)
      && (AllSpace(f.proveedor) ==> r.proveedor == m.proveedor)
      && (AllSpace(f.ordenServicio) ==> r.ordenServicio == m.ordenServicio)
      && (AllSpace(f.linkAvanzada) ==> r.linkAvanzada == m.linkAvanzada)
      && (AllSpace(f.linkInspeccion) ==> r.linkInspeccion == m.linkInspeccion)
      && (f.logistica == "" ==> r.logistica == m.logistica)
      && (f.programa == "" ==> r.programa == m.programa)
      && (f.alerta == "" ==> r.alerta == m.alerta)
      && (f.fechaAvanzada == "" ==> r.fechaAvanzada == m.fechaAvanzada)
      && (f.fechaInspeccion == "" ==> r.fechaInspeccion == m.fechaInspeccion)
      && (f.comentario == "" ==> r.comentario == m.comentario)
      && r.name == m.name
  {
    var p := SavePatch(f);
    assert KeepsUnsent(m, p, Merge(m, p));
    BlankSendsNothing(f.categoria);
    BlankSendsNothing(f.especificacion);
    BlankSendsNothing(f.unidad);
    BlankSendsNothing(f.proveedor);
    BlankSendsNothing(f.ordenServicio);
    BlankSendsNothing(f.linkAvanzada);
    BlankSendsNothing(f.linkInspeccion);
  }

  /** A text input holding only whitespace is trimmed to "", which `NULLIF`
      turns into no value. */
  lemma BlankSendsNothing(v: string)
    ensures AllSpace(v) ==> NonEmpty(Some(Trim(v))).None?
  {
  }

  /** The one exception: an empty quantity is sent as 0 and overwrites the
      stored quantity. */
  lemma EmptyQuantityBecomesZero(m: Material, f: Fields)
    requires f.cantidad.Empty?
    ensures Merge(m, SavePatch(f)).cantidad == Some(0.0)
  {
  }

  /** Opening a material and saving it untouched writes the form's defaults
      into the columns that were empty: quantity 1, logistics "Por Definir",
      alert "azul"; a stored quantity of 0 stays 0. */
  lemma UntouchedSaveFillsDefaults(m: Material)
    ensures var r := Merge(m, SavePatch(Hydrate(m)));
      && r.cantidad == Some(m.cantidad.GetOr(1.0))
      && (m.logistica.None? ==> r.logistica == Some(DefaultLogistica))
      && (m.alerta.None? ==> r.alerta == Some(DefaultAlerta))
      && (m.alerta.Some? && m.alerta.value != "" ==> r.alerta == Some(Lower(m.alerta.value)))
      && (m.programa.None? ==> r.programa.None?)
  {
    var f := Hydrate(m);
    var p := SavePatch(f);
    assert Applied(p, Merge(m, p)) && KeepsUnsent(m, p, Merge(m, p));
    assert p.cantidad == Valid(m.cantidad.GetOr(1.0));
    DefaultAlertaIsLower();
    if m.alerta.Some? && m.alerta.value != "" {
      LowerIdempotent(m.alerta.value);
    }
    assert p.alerta == Some(Lower(f.alerta));
  }

  lemma DefaultAlertaIsLower()
    ensures Lower(DefaultAlerta) == DefaultAlerta
  {
    var s := DefaultAlerta;
    assert |Lower(s)| == 4;
    assert Lower(s)[0] == 'a' && Lower(s)[1] == 'z' && Lower(s)[2] == 'u' && Lower(s)[3] == 'l';
  }
}

=== FILE: materials.dfy ===
/** PUT /materials/:id: a partial update of one `materials` row in which a
    field that is null, absent or (for text) empty keeps the stored value.
    `programa` and `alerta` are lower-cased and cast to their enum types. */
module Materials {
  import opened Optional
  import opened Text
  import opened StageStore

  /** A `date` column value, kept as its ISO text. */
  type Date = string

  /** One row of `materials`; `well` and `stage` are fixed at creation. */
  datatype Material = Material(
    well: int,
    stage: int,
    name: Option<string>,
    programa: Option<string>,
    categoria: Option<string>,
    especificacion: Option<string>,
    cantidad: Option<real>,
    unidad: Option<string>,
    proveedor: Option<string>,
    ordenServicio: Option<string>,
    fechaAvanzada: Option<Date>,
    linkAvanzada: Option<string>,
    fechaInspeccion: Option<Date>,
    linkInspeccion: Option<string>,
    logistica: Option<string>,
    alerta: Option<string>,
    comentario: Option<string>)

  type Materials = map<int, Material>

  /** A body field bound to a `::numeric` or `::date` parameter: null or
      absent, a value the cast accepts, or text it rejects (the empty string
      among them). */
  datatype Typed<T> = Null | Valid(value: T) | Invalid

  /** The PUT body. Text fields are `None` when null or absent. */
  datatype Patch = Patch(
    name: Option<string>,
    programa: Option<string>,
    categoria: Option<string>,
    especificacion: Option<string>,
    cantidad: Typed<real>,
    unidad: Option<string>,
    proveedor: Option<string>,
    ordenServicio: Option<string>,
    fechaAvanzada: Typed<Date>,
    linkAvanzada: Option<string>,
    fechaInspeccion: Typed<Date>,
    linkInspeccion: Option<string>,
    logistica: Option<string>,
    alerta: Option<string>,
    comentario: Option<string>)

  /** The labels of the `program_type` and `alert_type` enums. */
  const ProgramTypes: set<string> := {"programa", "contingencia"}
  const AlertTypes: set<string> := {"azul", "verde", "amarillo", "rojo"}

  /** `NULLIF(x, '')`: the value a text parameter contributes, if any. */
  function NonEmpty(x: Option<string>): Option<string> {
    if x.Some? && x.value != "" then x else None
  }

  /** `(c.f ?? null) && String(c.f).toLowerCase()` followed by `NULLIF(…, '')`. */
  function EnumText(x: Option<string>): Option<string> {
    if x.Some? && x.value != "" then Some(Lower(x.value)) else None
  }

  /** The value a `::numeric` or `::date` parameter contributes, if any. */
  function TypedValue<T>(x: Typed<T>): Option<T> {
    if x.Valid? then Some(x.value) else None
  }

  /** `COALESCE(new, old)`. */
  function Coalesce<T>(x: Option<T>, y: Option<T>): Option<T> {
    if x.Some? then x else y
  }

  /** Every cast in the statement succeeds. */
  predicate PatchCasts(p: Patch) {
    && !p.cantidad.Invalid? && !p.fechaAvanzada.Invalid? && !p.fechaInspeccion.Invalid?
    && (EnumText(p.programa).Some? ==> EnumText(p.programa).value in ProgramTypes)
    && (EnumText(p.alerta).Some? ==> EnumText(p.alerta).value in AlertTypes)
  }

  /** The patch sends no usable value at all: null, absent or "" everywhere. */
  predicate SendsNothing(p: Patch) {
    && NonEmpty(p.name).None? && EnumText(p.programa).None? && NonEmpty(p.categoria).None?
    && NonEmpty(p.especificacion).None? && p.cantidad.Null? && NonEmpty(p.unidad).None?
    && NonEmpty(p.proveedor).None? && NonEmpty(p.ordenServicio).None?
    && p.fechaAvanzada.Null? && NonEmpty(p.linkAvanzada).None? && p.fechaInspeccion.Null?
    && NonEmpty(p.linkInspeccion).None? && NonEmpty(p.logistica).None?
    && EnumText(p.alerta).None? && NonEmpty(p.comentario).None?
  }

  /** No column that held a value is cleared. */
  predicate NeverClears(m: Material, r: Material) {
    && (m.name.Some? ==> r.name.Some?) && (m.programa.Some? ==> r.programa.Some?)
    && (m.categoria.Some? ==> r.categoria.Some?) && (m.especificacion.Some? ==> r.especificacion.Some?)
    && (m.cantidad.Some? ==> r.cantidad.Some?) && (m.unidad.Some? ==> r.unidad.Some?)
    && (m.proveedor.Some? ==> r.proveedor.Some?) && (m.ordenServicio.Some? ==> r.ordenServicio.Some?)
    && (m.fechaAvanzada.Some? ==> r.fechaAvanzada.Some?) && (m.linkAvanzada.Some? ==> r.linkAvanzada.Some?)
    && (m.fechaInspeccion.Some? ==> r.fechaInspeccion.Some?) && (m.linkInspeccion.Some? ==> r.linkInspeccion.Some?)
    && (m.logistica.Some? ==> r.logistica.Some?) && (m.alerta.Some? ==> r.alerta.Some?)
    && (m.comentario.Some? ==> r.comentario.Some?)
  }

  /** Every column the patch sends a usable value for holds that value. */
  predicate Applied(p: Patch, r: Material) {
    && (NonEmpty(p.name).Some? ==> r.name == p.name)
    && (EnumText(p.programa).Some? ==> r.programa == Some(Lower(p.programa.value)))
    && (NonEmpty(p.categoria).Some? ==> r.categoria == p.categoria)
    && (NonEmpty(p.especificacion).Some? ==> r.especificacion == p.especificacion)
    && (p.cantidad.Valid? ==> r.cantidad == Some(p.cantidad.value))
    && (NonEmpty(p.unidad).Some? ==> r.unidad == p.unidad)
    && (NonEmpty(p.proveedor).Some? ==> r.proveedor == p.proveedor)
    && (NonEmpty(p.ordenServicio).Some? ==> r.ordenServicio == p.ordenServicio)
    && (p.fechaAvanzada.Valid? ==> r.fechaAvanzada == Some(p.fechaAvanzada.value))
    && (NonEmpty(p.linkAvanzada).Some? ==> r.linkAvanzada == p.linkAvanzada)
    && (p.fechaInspeccion.Valid? ==> r.fechaInspeccion == Some(p.fechaInspeccion.value))
    && (NonEmpty(p.linkInspeccion).Some? ==> r.linkInspeccion == p.linkInspeccion)
    && (NonEmpty(p.logistica).Some? ==> r.logistica == p.logistica)
    && (EnumText(p.alerta).Some? ==> r.alerta == Some(Lower(p.alerta.value)))
    && (NonEmpty(p.comentario).Some? ==> r.comentario == p.comentario)
  }

  /** Every column the patch sends no usable value for keeps `m`'s value. */
  predicate KeepsUnsent(m: Material, p: Patch, r: Material) {
    && (NonEmpty(p.name).None? ==> r.name == m.name)
    && (EnumText(p.programa).None? ==> r.programa == m.programa)
    && (NonEmpty(p.categoria).None? ==> r.categoria == m.categoria)
    && (NonEmpty(p.especificacion).None? ==> r.especificacion == m.especificacion)
    && (TypedValue(p.cantidad).None? ==> r.cantidad == m.cantidad)
    && (NonEmpty(p.unidad).None? ==> r.unidad == m.unidad)
    && (NonEmpty(p.proveedor).None? ==> r.proveedor == m.proveedor)
    && (NonEmpty(p.ordenServicio).None? ==> r.ordenServicio == m.ordenServicio)
    && (TypedValue(p.fechaAvanzada).None? ==> r.fechaAvanzada == m.fechaAvanzada)
    && (NonEmpty(p.linkAvanzada).None? ==> r.linkAvanzada == m.linkAvanzada)
    && (TypedValue(p.fechaInspeccion).None? ==> r.fechaInspeccion == m.fechaInspeccion)
    && (NonEmpty(p.linkInspeccion).None? ==> r.linkInspeccion == m.linkInspeccion)
    && (NonEmpty(p.logistica).None? ==> r.logistica == m.logistica)
    && (EnumText(p.alerta).None? ==> r.alerta == m.alerta)
    && (NonEmpty(p.comentario).None? ==> r.comentario == m.comentario)
  }

  /** The SET list of the UPDATE applied to one row. */
  function Merge(m: Material, p: Patch): (r: Material)
    ensures r.well == m.well && r.stage == m.stage
    ensures NeverClears(m, r)
    ensures Applied(p, r)
    ensures KeepsUnsent(m, p, r)
    ensures SendsNothing(p) ==> r == m
  {
    m.(name := Coalesce(NonEmpty(p.name), m.name),
       programa := Coalesce(EnumText(p.programa), m.programa),
       categoria := Coalesce(NonEmpty(p.categoria), m.categoria),
       especificacion := Coalesce(NonEmpty(p.especificacion), m.especificacion),
       cantidad := Coalesce(TypedValue(p.cantidad), m.cantidad),
       unidad := Coalesce(NonEmpty(p.unidad), m.unidad),
       proveedor := Coalesce(NonEmpty(p.proveedor), m.proveedor),
       ordenServicio := Coalesce(NonEmpty(p.ordenServicio), m.ordenServicio),
       fechaAvanzada := Coalesce(TypedValue(p.fechaAvanzada), m.fechaAvanzada),
       linkAvanzada := Coalesce(NonEmpty(p.linkAvanzada), m.linkAvanzada),
       fechaInspeccion := Coalesce(TypedValue(p.fechaInspeccion), m.fechaInspeccion),
       linkInspeccion := Coalesce(NonEmpty(p.linkInspeccion), m.linkInspeccion),
       logistica := Coalesce(NonEmpty(p.logistica), m.logistica),
       alerta := Coalesce(EnumText(p.alerta), m.alerta),
       comentario := Coalesce(NonEmpty(p.comentario), m.comentario))
  }

  /** The merged row is the only one that holds what the patch sends and
      keeps every column the patch leaves out. */
  lemma MergeCharacterised(m: Material, p: Patch, r: Material)
    requires r.well == m.well && r.stage == m.stage
    requires Applied(p, r) && KeepsUnsent(m, p, r)
    ensures r == Merge(m, p)
  {
  }

  /** Applying the same patch twice is applying it once. */
  lemma MergeIdempotent(m: Material, p: Patch)
    ensures Merge(Merge(m, p), p) == Merge(m, p)
  {
  }

  /** What the driver reports for a NaN or fractional id. */
  const SyntaxError := "invalid input syntax for type integer"
  const EnumError := "invalid input value for enum"
  const TypedError := "invalid input syntax for type numeric or date"

  /** The store of materials and the route's status. */
  datatype MaterialOutcome = MaterialOutcome(status: Status, store: Materials)

  /** PUT /materials/:id. `id` is `Number` of the path parameter. A cast that
      fails aborts the statement; a missing row is not an error. */
  function UpdateMaterial(ms: Materials, id: Num, p: Patch, fault: bool): (r: MaterialOutcome)
    ensures r.status.Ok? <==> !fault && id.Int? && InInt4(id.i) && PatchCasts(p)
    ensures !r.status.BadRequest?
    ensures !r.status.Ok? ==> r.store == ms
    ensures r.store.Keys == ms.Keys
    ensures forall k | k in ms && id != Int(k) :: r.store[k] == ms[k]
    ensures r.status.Ok? && id.i in ms ==> r.store[id.i] == Merge(ms[id.i], p)
  {
    if fault then MaterialOutcome(ServerError(FaultError), ms)
    else if !id.Int? then MaterialOutcome(ServerError(SyntaxError), ms)
    else if !InInt4(id.i) then MaterialOutcome(ServerError(CastError), ms)
    else if !p.cantidad.Invalid? && !p.fechaAvanzada.Invalid? && !p.fechaInspeccion.Invalid? then
      if !PatchCasts(p) then MaterialOutcome(ServerError(EnumError), ms)
      else if id.i in ms then MaterialOutcome(Ok, ms[id.i := Merge(ms[id.i], p)])
      else MaterialOutcome(Ok, ms)
    else MaterialOutcome(ServerError(TypedError), ms)
  }
}

=== FILE: optional.dfy ===
/** The absent-or-present value used throughout the model for SQL NULL,
    JavaScript `null`/`undefined`, and "no such element". */
module Optional {

  datatype Option<+T> = None | Some(value: T) {

    /** The value, or `default` when absent (SQL `COALESCE(x, default)`). */
    function GetOr(default: T): T {
      match this
      case Some(v) => v
      case None => default
    }
  }
}

=== FILE: progress.dfy ===
/** The two columns GET /wells derives from a well's stages: `first_stage`,
    the name of the first stage by `(order_index, id)`, and `current_progress`,
    a label saying which stage is under way or that the well is finished. */
module WellProgress {
  import opened Optional
  import opened Seqs
  import opened Text
  import opened StageStore
  import opened Reorder

  /** `s.progress IS NULL OR LOWER(s.progress) LIKE 'en proceso%'`. */
  predicate Pending(st: Stage) {
    st.progress.None? || StartsWith(Lower(st.progress.value), "en proceso")
  }

  /** `LOWER(s.progress) LIKE 'completado%'` (false on NULL). */
  predicate Completed(st: Stage) {
    st.progress.Some? && StartsWith(Lower(st.progress.value), "completado")
  }

  /** `a` comes no later than `b` under `ORDER BY order_index ASC, id ASC`. */
  predicate Precedes(s: Store, a: int, b: int)
    requires a in s && b in s
  {
    s[a].orderIndex < s[b].orderIndex || (s[a].orderIndex == s[b].orderIndex && a <= b)
  }

  /** The row `ORDER BY order_index, id LIMIT 1` returns from `ids`. */
  ghost function FirstOf(s: Store, ids: set<int>): (f: int)
    requires ids != {} && ids <= s.Keys
    ensures f in ids
    ensures forall id | id in ids :: Precedes(s, f, id)
    decreases |ids|
  {
    var x := Pick(ids);
    if ids == {x} then x
    else
      var f := FirstOf(s, ids - {x});
      assert forall id | id in ids :: id == x || id in ids - {x};
      if Precedes(s, x, f) then x else f
  }

  /** The first row by `(order_index, id)` is unique: ids are keys. */
  lemma FirstIsUnique(s: Store, ids: set<int>, a: int)
    requires ids != {} && ids <= s.Keys
    requires a in ids && forall id | id in ids :: Precedes(s, a, id)
    ensures a == FirstOf(s, ids)
  {
    var f := FirstOf(s, ids);
    assert Precedes(s, f, a) && Precedes(s, a, f);
  }

  /** The pending stages of well `w`. */
  function PendingOf(s: Store, w: int): set<int> {
    set id | id in s && s[id].well == w && Pending(s[id])
  }

  /** `'Etapa ' || COALESCE(s.stage_name, '') || ' - en proceso'`. */
  function Label(st: Stage): string {
    "Etapa " + st.name.GetOr("") + " - en proceso"
  }

  const WellCompleted := "Pozo completado"

  /** The `current_progress` CASE. */
  ghost function CurrentProgress(s: Store, w: int): (r: Option<string>)
    ensures PendingOf(s, w) != {} ==>
      exists id | id in PendingOf(s, w) ::
        && r == Some(Label(s[id]))
        && forall p | p in PendingOf(s, w) :: Precedes(s, id, p)
    ensures r == Some(WellCompleted) <==>
      PendingOf(s, w) == {} && StagesOf(s, w) != {} && forall id | id in StagesOf(s, w) :: Completed(s[id])
    ensures r.None? <==>
      PendingOf(s, w) == {} && (StagesOf(s, w) == {} || exists id | id in StagesOf(s, w) :: !Completed(s[id]))
  {
    if PendingOf(s, w) != {} then
      var f := FirstOf(s, PendingOf(s, w));
      LabelIsNotCompleted(s[f]);
      Some(Label(s[f]))
    else if StagesOf(s, w) != {} && forall id | id in StagesOf(s, w) :: Completed(s[id]) then
      Some(WellCompleted)
    else
      None
  }

  /** A pending label always starts with "Etapa ", so it never reads
      "Pozo completado". */
  lemma LabelIsNotCompleted(st: Stage)
    ensures Label(st) != WellCompleted
  {
    assert Label(st)[0] == 'E';
  }

  /** No progress text is both pending and completed: the prefixes clash. */
  lemma {:induction false} NotBoth(st: Stage)
    ensures !(Pending(st) && Completed(st))
  {
  }

  /** The first WHEN of the CASE is redundant for a finished well: the label
      is "Pozo completado" exactly when the well has stages and every one of
      them reads "completado…". */
  lemma {:induction false} CompletedIffAllCompleted(s: Store, w: int)
    ensures CurrentProgress(s, w) == Some(WellCompleted) <==>
      StagesOf(s, w) != {} && forall id | id in StagesOf(s, w) :: Completed(s[id])
  {
    if StagesOf(s, w) != {} && forall id | id in StagesOf(s, w) :: Completed(s[id]) {
      forall id | id in PendingOf(s, w) ensures false {
        assert id in StagesOf(s, w);
        NotBoth(s[id]);
      }
      assert PendingOf(s, w) == {};
    }
  }

  /** The `first_stage` column: the name of the first stage by
      `(order_index, id)`; NULL when the well has no stages or that stage has
      no name. */
  ghost function FirstStage(s: Store, w: int): (r: Option<string>)
    ensures StagesOf(s, w) == {} ==> r.None?
    ensures StagesOf(s, w) != {} ==>
      exists id | id in StagesOf(s, w) ::
        && r == s[id].name
        && forall o | o in StagesOf(s, w) :: Precedes(s, id, o)
  {
    if StagesOf(s, w) == {} then None else s[FirstOf(s, StagesOf(s, w))].name
  }

  /** After a committed reorder that lists every stage of the well, the
      "en proceso" label names the first pending stage in the submitted
      order: the client's order decides which stage the list shows as under
      way. */
  lemma {:induction false} ReorderMovesLabel(s: Store, w: int, ids: seq<int>, k: int)
    requires ReorderStages(s, Int(w), Some(AsNums(ids)), false).status.Ok?
    requires forall id | id in StagesOf(s, w) :: id in ids
    requires 0 <= k < |ids| && Pending(s[ids[k]])
    requires forall j | 0 <= j < k :: !Pending(s[ids[j]])
    ensures CurrentProgress(ReorderStages(s, Int(w), Some(AsNums(ids)), false).store, w) == Some(Label(s[ids[k]]))
  {
    var order := Some(AsNums(ids));
    ReorderCommitsIff(s, Int(w), order, false);
    assert OrderIds(order) == ids;
    var s' := ReorderStages(s, Int(w), order, false).store;
    assert forall j | 0 <= j < |ids| :: ids[j] in s && s'[ids[j]] == s[ids[j]].(orderIndex := j + 1);
    var pending := PendingOf(s', w);
    assert InWell(s, w, ids[k]);
    assert ids[k] in pending;
    forall p | p in pending ensures Precedes(s', ids[k], p) {
      assert s[p].well == w;
      assert p in StagesOf(s, w);
      var j := IndexOf(ids, p);
      assert s'[ids[j]].orderIndex == j + 1;
      assert Pending(s[ids[j]]);
    }
    FirstIsUnique(s', pending, ids[k]);
  }
}

=== FILE: query.dfy ===
/** A URL query as `URLSearchParams` holds it: name/value pairs in the order
    they were set. Percent-encoding is not part of this model. */
module Query {
  import opened Optional

  type Query = seq<(string, string)>

  /** `URLSearchParams.get(name)`: the first value of `name`. */
  function Param(q: Query, name: string): (v: Option<string>)
    ensures v.None? <==> forall k | 0 <= k < |q| :: q[k].0 != name
    ensures v.Some? ==> exists k | 0 <= k < |q| :: q[k] == (name, v.value)
  {
    if |q| == 0 then None
    else if q[0].0 == name then Some(q[0].1)
    else Param(q[1..], name)
  }

  /** A query of at most one parameter, present when `present` holds. */
  lemma ParamOfOptional(present: bool, n: string, v: string, name: string)
    ensures Param(if present then [(n, v)] else [], name) == if present && n == name then Some(v) else None
  {
    if present {
      assert [(n, v)][0].0 == n;
    }
  }

  /** A name set in the first part of a query hides its later values. */
  lemma {:induction false} ParamAppend(a: Query, b: Query, name: string)
    ensures Param(a + b, name) == if Param(a, name).Some? then Param(a, name) else Param(b, name)
    decreases |a|
  {
    if |a| > 0 {
      assert (a + b)[1..] == a[1..] + b;
      ParamAppend(a[1..], b, name);
    } else {
      assert a + b == b;
    }
  }
}

=== FILE: reorder.dfy ===
/** POST /wells/:id/stages/reorder: validate the request, then in one
    transaction give every listed stage of the well its 1-based rank in the
    list, check the row count, and let the deferred constraint
    `uq_stage_order_per_well` decide at COMMIT. Any failure rolls back. */
module Reorder {
  import opened Optional
  import opened Seqs
  import opened StageStore

  predicate AllInts(xs: seq<Num>) {
    forall k | 0 <= k < |xs| :: xs[k].Int?
  }

  function Ints(xs: seq<Num>): (r: seq<int>)
    requires AllInts(xs)
    ensures |r| == |xs|
    ensures forall k | 0 <= k < |xs| :: xs[k] == Int(r[k])
  {
    if |xs| == 0 then [] else [xs[0].i] + Ints(xs[1..])
  }

  /** `intsUnique(arr)`; `None` stands for a body whose `order` is missing or
      is not an array. The source tests element by element, then compares the
      size of the set of numbers with the array length; the contract says what
      that amounts to. */
  function IntsUnique(order: Option<seq<Num>>): (ok: bool)
    ensures ok <==> order.Some? && |order.value| > 0 && AllInts(order.value) && Distinct(Ints(order.value))
  {
    if order.None? || |order.value| == 0 then false
    else if !AllInts(order.value) then false
    else
      var ids := Ints(order.value);
      DistinctIffCardinality(ids);
      |set x | x in ids| == |order.value|
  }

  /** The ids the transaction works on (`order.map(n => Number(n))`). */
  function OrderIds(order: Option<seq<Num>>): seq<int>
    requires IntsUnique(order)
  {
    Ints(order.value)
  }

  /** The bulk UPDATE joined with `unnest($2::int[]) WITH ORDINALITY`: a stage
      of well `w` listed at index k gets `order_index = k + 1`; every other row
      is left as it is. */
  function AssignRanks(s: Store, w: int, ids: seq<int>): (r: Store)
    ensures r.Keys == s.Keys
  {
    map id | id in s :: if id in ids && s[id].well == w then s[id].(orderIndex := IndexOf(ids, id) + 1) else s[id]
  }

  /** The rows that UPDATE matched; `rowCount` is their number. */
  function UpdatedRows(s: Store, w: int, ids: seq<int>): set<int> {
    set id | id in s && s[id].well == w && id in ids
  }

  const WellIdError := "wellId inválido"
  const OrderError := "order debe ser arreglo de enteros únicos"
  const ForeignIdError := "Algunos IDs no pertenecen al pozo o no existen"

  /** The whole route as one atomic step. `fault` stands for a statement
      inside the `try` that fails for a reason not derived from the request
      (a lock-wait timeout, say), which the `catch` answers with 500 after a
      rollback. */
  function ReorderStages(s: Store, wellId: Num, order: Option<seq<Num>>, fault: bool): (r: Outcome)
    ensures r.status.BadRequest? <==> !wellId.Int? || !IntsUnique(order)
    ensures !r.status.Ok? ==> r.store == s
    ensures r.status.Ok? ==>
      var ids := OrderIds(order);
      && r.store.Keys == s.Keys
      && (forall id | id in s :: r.store[id] == s[id].(orderIndex := r.store[id].orderIndex))
      && (forall k | 0 <= k < |ids| :: ids[k] in s && r.store[ids[k]] == s[ids[k]].(orderIndex := k + 1))
      && (forall id | id in s && id !in ids :: r.store[id] == s[id])
  {
    if !wellId.Int? then Outcome(BadRequest(WellIdError), s)
    else if !IntsUnique(order) then Outcome(BadRequest(OrderError), s)
    else
      var w := wellId.i;
      var ids := OrderIds(order);
      if fault then Outcome(ServerError(FaultError), s)
      else if exists k | 0 <= k < |ids| :: !InInt4(ids[k]) then Outcome(ServerError(CastError), s)
      else
        var s' := AssignRanks(s, w, ids);
        if |UpdatedRows(s, w, ids)| != |ids| then Outcome(ServerError(ForeignIdError), s)
        else if !ChangedRowsUnique(s', UpdatedRows(s, w, ids)) then Outcome(ServerError(ConstraintError), s)
        else
          RowCountIffOwned(s, w, ids);
          assert forall k | 0 <= k < |ids| :: IndexOf(ids, ids[k]) == k;
          Outcome(Ok, s')
  }

  /** With distinct ids, the UPDATE reports as many rows as ids exactly when
      every id is a stage of the well. */
  lemma {:induction false} RowCountIffOwned(s: Store, w: int, ids: seq<int>)
    requires Distinct(ids)
    ensures |UpdatedRows(s, w, ids)| == |ids| <==> forall k | 0 <= k < |ids| :: InWell(s, w, ids[k])
  {
    var listed := set x | x in ids;
    var rows := UpdatedRows(s, w, ids);
    DistinctIffCardinality(ids);
    assert rows <= listed;
    if forall k | 0 <= k < |ids| :: InWell(s, w, ids[k]) {
      forall x | x in listed ensures x in rows {
        var k :| 0 <= k < |ids| && ids[k] == x;
        assert InWell(s, w, ids[k]);
      }
      assert rows == listed;
    } else {
      var k :| 0 <= k < |ids| && !InWell(s, w, ids[k]);
      assert rows <= listed - {ids[k]};
      SubsetCardinality(rows, listed - {ids[k]});
    }
  }

  /** The body a client sends for the order `ids`: every element a JSON integer. */
  function AsNums(ids: seq<int>): (r: seq<Num>)
    ensures |r| == |ids| && AllInts(r) && Ints(r) == ids
  {
    var r := seq(|ids|, k requires 0 <= k < |ids| => Int(ids[k]));
    assert Ints(r) == ids by {
      forall k | 0 <= k < |ids| ensures Ints(r)[k] == ids[k] {
        assert r[k] == Int(Ints(r)[k]);
      }
    }
    r
  }

  /** No stage of well `w` missing from `ids` holds one of the ranks 1..|ids|
      that the list hands out. */
  predicate NoRankCollision(s: Store, w: int, ids: seq<int>) {
    forall u | u in s && s[u].well == w && u !in ids :: !(1 <= s[u].orderIndex <= |ids|)
  }

  /** Every listed id fits the `int` cast and is a stage of well `w`. */
  predicate ListedInWell(s: Store, w: int, ids: seq<int>) {
    forall k | 0 <= k < |ids| :: InInt4(ids[k]) && InWell(s, w, ids[k])
  }

  /** The deferred check at COMMIT fails exactly when a stage left out of the
      list already sits at one of the ranks the list assigns. */
  lemma {:induction false} CommitCheckIffNoCollision(s: Store, w: int, ids: seq<int>)
    requires Distinct(ids)
    requires forall k | 0 <= k < |ids| :: InWell(s, w, ids[k])
    ensures ChangedRowsUnique(AssignRanks(s, w, ids), UpdatedRows(s, w, ids)) <==> NoRankCollision(s, w, ids)
  {
    var s' := AssignRanks(s, w, ids);
    var rows := UpdatedRows(s, w, ids);
    assert forall k | 0 <= k < |ids| :: IndexOf(ids, ids[k]) == k;
    if NoRankCollision(s, w, ids) {
      forall a, b | a in s' && b in s' && a != b && a in rows && s'[a].well == s'[b].well
        ensures s'[a].orderIndex != s'[b].orderIndex
      {
        var i := IndexOf(ids, a);
        if b in ids {
          var j := IndexOf(ids, b);
          assert s'[b].orderIndex == j + 1;
        }
      }
    } else {
      var u :| u in s && s[u].well == w && u !in ids && 1 <= s[u].orderIndex <= |ids|;
      var a := ids[s[u].orderIndex - 1];
      assert s'[a].orderIndex == s'[u].orderIndex;
      assert a in rows && a != u;
    }
  }

  /** The reorder commits exactly when the request is well formed, the
      datastore does not fail, every listed id is an `int` stage of the well,
      and no unlisted stage of the well holds a rank from 1 to |order|. */
  lemma {:induction false} ReorderCommitsIff(s: Store, wellId: Num, order: Option<seq<Num>>, fault: bool)
    ensures ReorderStages(s, wellId, order, fault).status.Ok? <==>
      && wellId.Int? && IntsUnique(order) && !fault
      && ListedInWell(s, wellId.i, OrderIds(order))
      && NoRankCollision(s, wellId.i, OrderIds(order))
  {
    if wellId.Int? && IntsUnique(order) && !fault {
      var w := wellId.i;
      var ids := OrderIds(order);
      RowCountIffOwned(s, w, ids);
      if forall k | 0 <= k < |ids| :: InWell(s, w, ids[k]) {
        CommitCheckIffNoCollision(s, w, ids);
      }
    }
  }

  /** An order naming a stage that does not exist or belongs to another well is
      answered with 500 and changes nothing, in any well. */
  lemma {:induction false} ForeignIdRollsBack(s: Store, wellId: Num, order: Option<seq<Num>>, fault: bool, k: int)
    requires wellId.Int? && IntsUnique(order)
    requires 0 <= k < |OrderIds(order)| && !InWell(s, wellId.i, OrderIds(order)[k])
    ensures ReorderStages(s, wellId, order, fault).status.ServerError?
    ensures ReorderStages(s, wellId, order, fault).store == s
  {
    ReorderCommitsIff(s, wellId, order, fault);
  }

  /** A partial order whose ranks reach a stage left out of it fails the
      deferred constraint: 500, nothing changed. */
  lemma {:induction false} PartialOrderCollisionRollsBack(s: Store, wellId: Num, order: Option<seq<Num>>, fault: bool, u: int)
    requires wellId.Int? && IntsUnique(order)
    requires InWell(s, wellId.i, u) && u !in OrderIds(order) && 1 <= s[u].orderIndex <= |OrderIds(order)|
    ensures ReorderStages(s, wellId, order, fault).status.ServerError?
    ensures ReorderStages(s, wellId, order, fault).store == s
  {
    ReorderCommitsIff(s, wellId, order, fault);
  }

  /** Submitting every stage of the well once succeeds and leaves the well's
      positions exactly 1..N, pairwise distinct; other wells are untouched. */
  lemma {:induction false} FullOrderYieldsOneToN(s: Store, w: int, ids: seq<int>)
    requires |ids| > 0 && Distinct(ids)
    requires (set x | x in ids) == StagesOf(s, w)
    requires forall k | 0 <= k < |ids| :: InInt4(ids[k])
    ensures ReorderStages(s, Int(w), Some(AsNums(ids)), false).status.Ok?
    ensures forall p :: p in PositionsOf(ReorderStages(s, Int(w), Some(AsNums(ids)), false).store, w) <==> 1 <= p <= |ids|
    ensures UniqueIn(ReorderStages(s, Int(w), Some(AsNums(ids)), false).store, w)
  {
    var order := Some(AsNums(ids));
    assert OrderIds(order) == ids;
    forall k | 0 <= k < |ids| ensures InWell(s, w, ids[k]) {
      assert ids[k] in StagesOf(s, w);
    }
    assert NoRankCollision(s, w, ids) by {
      forall u | u in s && s[u].well == w ensures u in ids {
        assert u in StagesOf(s, w);
      }
    }
    ReorderCommitsIff(s, Int(w), order, false);
    var r := ReorderStages(s, Int(w), order, false);
    assert r.status.Ok?;
    var s' := r.store;
    assert forall k | 0 <= k < |ids| :: s'[ids[k]].orderIndex == k + 1 && s'[ids[k]].well == w;
    forall id | id in s' && s'[id].well == w ensures id in ids {
      assert s[id].well == w;
      assert id in StagesOf(s, w);
    }
    forall p | p in PositionsOf(s', w) ensures 1 <= p <= |ids| {
      var id :| id in s' && s'[id].well == w && s'[id].orderIndex == p;
      var k := IndexOf(ids, id);
      assert s'[ids[k]].orderIndex == k + 1;
    }
    forall p | 1 <= p <= |ids| ensures p in PositionsOf(s', w) {
      assert s'[ids[p - 1]].orderIndex == p;
    }
    forall a, b | a in s' && b in s' && a != b && s'[a].well == w && s'[b].well == w
      ensures s'[a].orderIndex != s'[b].orderIndex
    {
      var i, j := IndexOf(ids, a), IndexOf(ids, b);
      assert s'[ids[i]].orderIndex == i + 1 && s'[ids[j]].orderIndex == j + 1;
    }
  }

  /** A store in which every listed stage already holds its rank, and no
      unlisted stage of the well holds one, is a fixed point of the reorder. */
  lemma {:induction false} RanksInPlaceIsFixedPoint(s: Store, wellId: Num, order: Option<seq<Num>>)
    requires wellId.Int? && IntsUnique(order)
    requires ListedInWell(s, wellId.i, OrderIds(order))
    requires forall k | 0 <= k < |OrderIds(order)| :: s[OrderIds(order)[k]].orderIndex == k + 1
    requires NoRankCollision(s, wellId.i, OrderIds(order))
    ensures ReorderStages(s, wellId, order, false) == Outcome(Ok, s)
  {
    var w := wellId.i;
    var ids := OrderIds(order);
    ReorderCommitsIff(s, wellId, order, false);
    var r := ReorderStages(s, wellId, order, false);
    assert r.status.Ok?;
    forall id | id in s ensures r.store[id] == s[id] {
      if id in ids {
        var k := IndexOf(ids, id);
        assert r.store[ids[k]] == s[ids[k]].(orderIndex := k + 1);
      }
    }
    assert r.store == s;
  }

  /** After a successful reorder, sending the same order again succeeds and
      changes nothing. */
  lemma {:induction false} ReorderIdempotent(s: Store, wellId: Num, order: Option<seq<Num>>, fault: bool)
    requires ReorderStages(s, wellId, order, fault).status.Ok?
    ensures var s' := ReorderStages(s, wellId, order, fault).store;
      ReorderStages(s', wellId, order, false) == Outcome(Ok, s')
  {
    var s' := ReorderStages(s, wellId, order, fault).store;
    ReorderCommitsIff(s, wellId, order, fault);
    var w := wellId.i;
    var ids := OrderIds(order);
    forall k | 0 <= k < |ids| ensures InInt4(ids[k]) && InWell(s', w, ids[k]) && s'[ids[k]].orderIndex == k + 1 {
      assert s'[ids[k]] == s[ids[k]].(orderIndex := k + 1);
    }
    assert NoRankCollision(s', w, ids) by {
      forall u | u in s' && s'[u].well == w && u !in ids ensures !(1 <= s'[u].orderIndex <= |ids|) {
        assert s'[u] == s[u];
      }
    }
    RanksInPlaceIsFixedPoint(s', wellId, order);
  }

  /** What a committed reorder wrote: the ranked store, which passed the
      deferred check. */
  lemma ReorderOkStore(s: Store, wellId: Num, order: Option<seq<Num>>, fault: bool)
    requires ReorderStages(s, wellId, order, fault).status.Ok?
    ensures wellId.Int? && IntsUnique(order)
    ensures ReorderStages(s, wellId, order, fault).store == AssignRanks(s, wellId.i, OrderIds(order))
    ensures ChangedRowsUnique(AssignRanks(s, wellId.i, OrderIds(order)), UpdatedRows(s, wellId.i, OrderIds(order)))
  {
    var ids := OrderIds(order);
    var s' := AssignRanks(s, wellId.i, ids);
    var rows := UpdatedRows(s, wellId.i, ids);
    assert !fault && !(exists k | 0 <= k < |ids| :: !InInt4(ids[k]));
    assert |rows| == |ids| && ChangedRowsUnique(s', rows);
  }

  /** A committed reorder keeps `uq_stage_order_per_well` true of the table. */
  lemma {:induction false} ReorderKeepsConsistent(s: Store, wellId: Num, order: Option<seq<Num>>, fault: bool)
    requires Consistent(s)
    requires ReorderStages(s, wellId, order, fault).status.Ok?
    ensures Consistent(ReorderStages(s, wellId, order, fault).store)
  {
    ReorderOkStore(s, wellId, order, fault);
    var w := wellId.i;
    var ids := OrderIds(order);
    var s' := AssignRanks(s, w, ids);
    var rows := UpdatedRows(s, w, ids);
    assert OnlyChanged(s, s', rows) by {
      forall id | id in s' && id !in rows ensures id in s && s[id] == s'[id] {
        assert !(id in ids && s[id].well == w);
      }
    }
    CommitCheckKeepsConsistent(s, s', rows);
  }
}

=== FILE: reorder_controller.dfy ===
/** The drag-and-drop stage list of the stages page: rows move while a row
    is dragged, the order is saved when the drag ends, and a rejected save
    puts the rows back in the order they had when the drag started. The DOM
    is reduced to the sequence of the rows' stage ids; a row's geometry to an
    integer vertical midpoint. */
module ReorderController {
  import opened Optional
  import opened Seqs

  // ------------------------------------------------------ insertion point

  /** `y - box.top - box.height / 2` of a row against the pointer. */
  function Offset(mid: int -> int, row: int, y: int): int { y - mid(row) }

  /** The `reduce` of `getDragAfterElement` over the first `n` candidate rows:
      the index of the row kept as `closest`, `None` while it is still the
      initial `{offset: -Infinity}`. */
  function Closest(rows: seq<int>, mid: int -> int, y: int, n: nat): (c: Option<nat>)
    requires n <= |rows|
    ensures c.None? <==> forall j | 0 <= j < n :: mid(rows[j]) <= y
    ensures c.Some? ==>
      && c.value < n && mid(rows[c.value]) > y
      && (forall j | 0 <= j < n && mid(rows[j]) > y :: mid(rows[c.value]) <= mid(rows[j]))
      && (forall j | 0 <= j < c.value && mid(rows[j]) > y :: mid(rows[j]) > mid(rows[c.value]))
  {
    if n == 0 then None
    else
      var c := Closest(rows, mid, y, n - 1);
      var offset := Offset(mid, rows[n - 1], y);
      if offset < 0 && (c.None? || offset > Offset(mid, rows[c.value], y)) then Some(n - 1)
      else c
  }

  /** `getDragAfterElement(body, y)` over the rows that are not being dragged:
      the row whose midpoint lies nearest below the pointer (the first such
      row on a tie), or none when every midpoint is at or above it. */
  function DragAfter(others: seq<int>, mid: int -> int, y: int): (after: Option<int>)
    ensures after.None? <==> forall j | 0 <= j < |others| :: mid(others[j]) <= y
    ensures after.Some? ==> exists k | 0 <= k < |others| ::
      && others[k] == after.value && mid(others[k]) > y
      && (forall j | 0 <= j < |others| && mid(others[j]) > y :: mid(others[k]) <= mid(others[j]))
      && (forall j | 0 <= j < k && mid(others[j]) > y :: mid(others[j]) > mid(others[k]))
  {
    var c := Closest(others, mid, y, |others|);
    if c.None? then None else Some(others[c.value])
  }

  /** The dragover handler's DOM move: `insertBefore(dragging, after)`, or
      `appendChild(dragging)` when there is no such row. Either way the
      dragged row is taken out and put back, and nothing else moves. */
  function Move(rows: seq<int>, d: int, after: Option<int>): (r: seq<int>)
    requires d in rows
    requires after.Some? ==> after.value in RemoveFirst(rows, d)
    ensures multiset(r) == multiset(rows)
    ensures after.None? ==> r == RemoveFirst(rows, d) + [d]
    ensures after.Some? ==> exists k | 0 <= k < |RemoveFirst(rows, d)| ::
      && RemoveFirst(rows, d)[k] == after.value
      && r == RemoveFirst(rows, d)[..k] + [d] + RemoveFirst(rows, d)[k..]
  {
    var rest := RemoveFirst(rows, d);
    if after.None? then rest + [d]
    else
      var k := IndexOf(rest, after.value);
      InsertKeepsMultiset(rest, d, k);
      rest[..k] + [d] + rest[k..]
  }

  lemma InsertKeepsMultiset(rest: seq<int>, d: int, k: nat)
    requires k <= |rest|
    ensures multiset(rest[..k] + [d] + rest[k..]) == multiset(rest) + multiset{d}
  {
    SplitAt(rest, k);
  }

  lemma SplitAt(s: seq<int>, k: nat)
    requires k <= |s|
    ensures s[..k] + s[k..] == s
  {
  }

  // ------------------------------------------------------------- restore

  /** `body.appendChild(row)` for a row already in `acc`, or known to
      `rowsById`: the row is taken out of wherever it is and put last. */
  function Append(acc: seq<int>, id: int): seq<int> {
    RemoveFirst(acc, id) + [id]
  }

  /** The `ids.forEach` of `restoreOrder` after `body.innerHTML = ''`. */
  function RestoreFrom(present: set<int>, ids: seq<int>, acc: seq<int>): seq<int>
    decreases |ids|
  {
    if |ids| == 0 then acc
    else RestoreFrom(present, ids[1..], if ids[0] in present then Append(acc, ids[0]) else acc)
  }

  /** `restoreOrder(ids)` applied to the rows on screen. */
  function Restore(rows: seq<int>, ids: seq<int>): seq<int> {
    RestoreFrom((set x | x in rows), ids, [])
  }

  /** `[id]` when `id` has a row, `[]` otherwise. */
  function Head(id: int, present: set<int>): seq<int> {
    if id in present then [id] else []
  }

  lemma RestoreStep(present: set<int>, ids: seq<int>, acc: seq<int>)
    requires |ids| > 0 && ids[0] !in acc
    ensures RestoreFrom(present, ids, acc) == RestoreFrom(present, ids[1..], acc + Head(ids[0], present))
  {
    if ids[0] in present {
      assert Append(acc, ids[0]) == acc + [ids[0]];
    } else {
      assert acc + Head(ids[0], present) == acc;
    }
  }

  /** The rest of a repetition-free list still avoids the grown accumulator. */
  lemma TailAvoids(ids: seq<int>, acc: seq<int>, present: set<int>)
    requires |ids| > 0 && Distinct(ids)
    requires forall k | 0 <= k < |ids| :: ids[k] !in acc
    ensures Distinct(ids[1..])
    ensures forall k | 0 <= k < |ids[1..]| :: ids[1..][k] !in acc + Head(ids[0], present)
  {
    forall k | 0 <= k < |ids[1..]| ensures ids[1..][k] !in acc + Head(ids[0], present) {
      assert ids[1..][k] == ids[k + 1] != ids[0];
    }
    forall i, j | 0 <= i < j < |ids[1..]| ensures ids[1..][i] != ids[1..][j] {
      assert ids[1..][i] == ids[i + 1] && ids[1..][j] == ids[j + 1];
    }
  }

  lemma {:induction false} RestoreFromKeeps(present: set<int>, ids: seq<int>, acc: seq<int>)
    requires Distinct(ids)
    requires forall k | 0 <= k < |ids| :: ids[k] !in acc
    ensures RestoreFrom(present, ids, acc) == acc + Keep(ids, present)
    decreases |ids|
  {
    if |ids| > 0 {
      var next := acc + Head(ids[0], present);
      RestoreStep(present, ids, acc);
      TailAvoids(ids, acc, present);
      RestoreFromKeeps(present, ids[1..], next);
      KeepCons(ids, present);
      ConcatAssoc(acc, Head(ids[0], present), Keep(ids[1..], present));
    }
  }

  lemma KeepCons(ids: seq<int>, present: set<int>)
    requires |ids| > 0
    ensures Keep(ids, present) == Head(ids[0], present) + Keep(ids[1..], present)
  {
  }

  lemma ConcatAssoc(a: seq<int>, b: seq<int>, c: seq<int>)
    ensures a + (b + c) == (a + b) + c
  {
  }

  /** With a snapshot free of repetitions (as `currentIds()` of distinct
      rows is), restoring gives the snapshot's ids that still have a row on
      screen, in the snapshot's order; rows missing from the snapshot are
      dropped. */
  lemma RestoreIsSnapshotFilter(rows: seq<int>, ids: seq<int>)
    requires Distinct(ids)
    ensures Restore(rows, ids) == Keep(ids, set x | x in rows)
  {
    RestoreFromKeeps((set x | x in rows), ids, []);
  }

  /** Every element of `s` belongs to `keep`: filtering keeps all of `s`. */
  lemma {:induction false} KeepAll(s: seq<int>, keep: set<int>)
    requires forall k | 0 <= k < |s| :: s[k] in keep
    ensures Keep(s, keep) == s
  {
    if |s| > 0 {
      KeepAll(s[1..], keep);
      assert s == [s[0]] + s[1..];
    }
  }

  /** Rows that are a rearrangement of the snapshot are put back exactly in
      the snapshot's order. */
  lemma RestorePermutationIsSnapshot(rows: seq<int>, ids: seq<int>)
    requires Distinct(ids)
    requires multiset(rows) == multiset(ids)
    ensures Restore(rows, ids) == ids
  {
    RestoreIsSnapshotFilter(rows, ids);
    forall k | 0 <= k < |ids| ensures ids[k] in set x | x in rows {
      assert ids[k] in multiset(ids);
    }
    KeepAll(ids, set x | x in rows);
  }

  // --------------------------------------------------------- the page state

  const SavingText := "Guardando…"
  const SavedText := "Guardado ✓"
  const SaveFailedText := "No se pudo guardar el orden"

  /** The page: the rows' ids in DOM order, the row carrying `.dragging`,
      `snapshotIds`, `saving`, the text of the `#orderStatus` badge (`None`
      until it is first created) and how many 1000 ms badge-clearing timers
      are pending. */
  datatype State = State(
    rows: seq<int>,
    dragging: Option<int>,
    snapshot: seq<int>,
    saving: bool,
    badge: Option<string>,
    clears: nat)

  /** What the reorder request's `api.post` produced: a JSON body, or a
      rejected promise (network failure or a body that is not JSON). */
  datatype Reply = Body(ok: bool, error: Option<string>) | Thrown

  datatype Event =
    | Loaded(ids: seq<int>)           // `load()` rebuilt the rows
    | DragStart(id: int)
    | DragOver(mid: int -> int, y: int)
    | DragEnd
    | Respond(reply: Reply)
    | Tick                            // a badge timer fires

  /** What an event sends out: the `order` of a reorder request, and an `alert`. */
  datatype Effect = Effect(request: Option<seq<int>>, alert: Option<string>)

  const NoEffect := Effect(None, None)

  function Initial(): State { State([], None, [], false, None, 0) }

  /** `autosaveOrder()` up to its `await`. */
  function Autosave(st: State): (r: (State, Effect))
    ensures st.saving ==> r == (st, NoEffect)
    ensures !st.saving && |st.rows| > 0 && st.rows == st.snapshot ==> r == (st, NoEffect)
    ensures r.1.request.Some? <==> !st.saving && (|st.rows| == 0 || st.rows != st.snapshot)
    ensures r.1.request.Some? ==>
      && r.1.request.value == st.rows
      && r.0 == st.(saving := true, badge := Some(SavingText))
  {
    if st.saving then (st, NoEffect)
    else if |st.rows| > 0 && st.snapshot == st.rows then (st, NoEffect)
    else (st.(saving := true, badge := Some(SavingText)), Effect(Some(st.rows), None))
  }

  /** `res.error || 'No se pudo guardar el orden'`. */
  function FailureAlert(error: Option<string>): string {
    if error.Some? && error.value != "" then error.value else SaveFailedText
  }

  /** The dragover handler: with a dragged row on screen, move it to the
      insertion point the pointer selects. */
  function OnDragOver(st: State, mid: int -> int, y: int): State {
    if st.dragging.None? || st.dragging.value !in st.rows then st
    else
      var d := st.dragging.value;
      st.(rows := Move(st.rows, d, DragAfter(RemoveFirst(st.rows, d), mid, y)))
  }

  /** The end of `autosaveOrder()` once the reply is in. */
  function OnReply(st: State, reply: Reply): (State, Effect) {
    if reply.Thrown? then (st, NoEffect)
    else if reply.ok then
      if st.badge.Some? then (st.(saving := false, badge := Some(SavedText), clears := st.clears + 1), NoEffect)
      else (st.(saving := false), NoEffect)
    else
      (st.(saving := false, rows := Restore(st.rows, st.snapshot), badge := Some("")),
       Effect(None, Some(FailureAlert(reply.error))))
  }

  /** The page's reaction to one event, as the script is written. */
  function Step(st: State, e: Event): (r: (State, Effect)) {
    match e
    case Loaded(ids) => (st.(rows := ids, dragging := None), NoEffect)
    case DragStart(id) =>
      if id in st.rows then (st.(dragging := Some(id), snapshot := st.rows), NoEffect) else (st, NoEffect)
    case DragOver(mid, y) => (OnDragOver(st, mid, y), NoEffect)
    case DragEnd => Autosave(st.(dragging := None))
    case Respond(reply) => OnReply(st, reply)
    case Tick =>
      if st.clears > 0 then (st.(badge := Some(""), clears := st.clears - 1), NoEffect) else (st, NoEffect)
  }

  /** The states and effects along a run of events. */
  function Run(st: State, es: seq<Event>): (r: (State, seq<Effect>))
    ensures |r.1| == |es|
    decreases |es|
  {
    if |es| == 0 then (st, [])
    else
      var (s1, e1) := Step(st, es[0]);
      var (s2, rest) := Run(s1, es[1..]);
      (s2, [e1] + rest)
  }

  // ------------------------------------------------------------ properties

  /** Taking `d` out of a sequence in which it was put right after a prefix
      free of `d` gives back the sequence without it. */
  lemma {:induction false} RemoveInserted(p: seq<int>, d: int, q: seq<int>)
    requires d !in p
    ensures RemoveFirst(p + [d] + q, d) == p + q
  {
    var s := p + [d] + q;
    if |p| > 0 {
      assert s[0] == p[0] != d;
      assert s[1..] == p[1..] + [d] + q;
      assert RemoveFirst(s, d) == [s[0]] + RemoveFirst(s[1..], d);
      RemoveInserted(p[1..], d, q);
      assert p + q == [p[0]] + (p[1..] + q);
    } else {
      assert s[0] == d && s[1..] == q;
    }
  }

  /** Moving the dragged row of a repetition-free list keeps it free of
      repetitions and leaves the other rows in their order. */
  lemma MoveOnlyMovesDragged(rows: seq<int>, d: int, after: Option<int>)
    requires Distinct(rows) && d in rows
    requires after.Some? ==> after.value in RemoveFirst(rows, d)
    ensures Distinct(Move(rows, d, after))
    ensures RemoveFirst(Move(rows, d, after), d) == RemoveFirst(rows, d)
  {
    var rest := RemoveFirst(rows, d);
    DistinctRemoveFirst(rows, d);
    var r := Move(rows, d, after);
    if after.None? {
      assert rest + [d] + [] == r;
      RemoveInserted(rest, d, []);
      InsertKeepsDistinct(rest, d, []);
    } else {
      var k := IndexOf(rest, after.value);
      assert r == rest[..k] + [d] + rest[k..];
      SplitAt(rest, k);
      RemoveInserted(rest[..k], d, rest[k..]);
      InsertKeepsDistinct(rest[..k], d, rest[k..]);
    }
  }

  /** A dragover only moves the dragged row: the ids on screen are the same
      multiset, and without the dragged row they are in the same order. */
  lemma DragOverMovesOnlyDragged(st: State, mid: int -> int, y: int)
    requires Distinct(st.rows)
    ensures multiset(Step(st, DragOver(mid, y)).0.rows) == multiset(st.rows)
    ensures st.dragging.Some? ==>
      RemoveFirst(Step(st, DragOver(mid, y)).0.rows, st.dragging.value) == RemoveFirst(st.rows, st.dragging.value)
    ensures Step(st, DragOver(mid, y)).0.(rows := st.rows) == st
  {
    StepDragOver(st, mid, y);
    OnDragOverMovesOnlyDragged(st, mid, y);
  }

  lemma OnDragOverMovesOnlyDragged(st: State, mid: int -> int, y: int)
    requires Distinct(st.rows)
    ensures multiset(OnDragOver(st, mid, y).rows) == multiset(st.rows)
    ensures st.dragging.Some? ==>
      RemoveFirst(OnDragOver(st, mid, y).rows, st.dragging.value) == RemoveFirst(st.rows, st.dragging.value)
    ensures OnDragOver(st, mid, y).(rows := st.rows) == st
  {
    if st.dragging.Some? && st.dragging.value in st.rows {
      var d := st.dragging.value;
      var after := DragAfter(RemoveFirst(st.rows, d), mid, y);
      MoveOnlyMovesDragged(st.rows, d, after);
      assert OnDragOver(st, mid, y) == st.(rows := Move(st.rows, d, after));
    }
  }

  /** While a save is in flight, ending a drag sends nothing and changes
      nothing but the dragged row's class. */
  lemma SavingBlocksAutosave(st: State)
    requires st.saving
    ensures Step(st, DragEnd) == (st.(dragging := None), NoEffect)
  {
  }

  /** A reply to the reorder request clears `saving`, whatever it says; the
      success badge reads "Guardado ✓" until its timer fires, a failure
      clears the badge at once and alerts the server's message or the
      default one. */
  lemma ReplyOutcomes(st: State, ok: bool, error: Option<string>)
    requires st.badge.Some?
    ensures var (r, eff) := Step(st, Respond(Body(ok, error)));
      && !r.saving
      && (ok ==> r.badge == Some(SavedText) && r.clears == st.clears + 1 && r.rows == st.rows && eff.alert.None?)
      && (ok ==> Step(r, Tick).0.badge == Some(""))
      && (!ok ==> r.badge == Some("") && r.rows == Restore(st.rows, st.snapshot))
      && (!ok ==> eff.alert == Some(if error.Some? && error.value != "" then error.value else SaveFailedText))
  {
  }

  /** The state the page keeps well formed: rows and snapshot are lists of
      distinct ids. */
  predicate WellFormed(st: State) {
    Distinct(st.rows) && Distinct(st.snapshot)
  }

  lemma {:induction false} AppendKeepsDistinct(acc: seq<int>, id: int)
    requires Distinct(acc)
    ensures Distinct(Append(acc, id))
  {
    DistinctRemoveFirst(acc, id);
    var r := RemoveFirst(acc, id);
    assert id !in r;
    forall i, j | 0 <= i < j < |r| + 1 ensures (r + [id])[i] != (r + [id])[j] {
      if j == |r| { assert (r + [id])[i] == r[i]; } else { assert (r + [id])[i] == r[i] && (r + [id])[j] == r[j]; }
    }
  }

  lemma {:induction false} RestoreFromKeepsDistinct(present: set<int>, ids: seq<int>, acc: seq<int>)
    requires Distinct(acc)
    ensures Distinct(RestoreFrom(present, ids, acc))
    decreases |ids|
  {
    if |ids| > 0 {
      if ids[0] in present { AppendKeepsDistinct(acc, ids[0]); }
      RestoreFromKeepsDistinct(present, ids[1..], if ids[0] in present then Append(acc, ids[0]) else acc);
    }
  }

  lemma {:induction false} InsertKeepsDistinct(p: seq<int>, d: int, q: seq<int>)
    requires Distinct(p + q) && d !in p + q
    ensures Distinct(p + [d] + q)
  {
    var r := p + [d] + q;
    var pq := p + q;
    forall i, j | 0 <= i < j < |r| ensures r[i] != r[j] {
      if i < |p| && j < |p| { assert r[i] == pq[i] && r[j] == pq[j]; }
      else if i < |p| && j == |p| { assert r[i] == pq[i]; }
      else if i < |p| { assert r[i] == pq[i] && r[j] == pq[j - 1]; }
      else if i == |p| { assert r[j] == pq[j - 1]; }
      else { assert r[i] == pq[i - 1] && r[j] == pq[j - 1]; }
    }
  }

  /** Every event keeps the page well formed, given that `load()` lists
      stage ids, which are keys. */
  lemma StepKeepsWellFormed(st: State, e: Event)
    requires WellFormed(st)
    requires e.Loaded? ==> Distinct(e.ids)
    ensures WellFormed(Step(st, e).0)
  {
    match e
    case Loaded(ids) =>
      assert Step(st, e).0 == st.(rows := ids, dragging := None);
    case DragStart(id) =>
      assert Step(st, e).0.rows == st.rows;
      assert Step(st, e).0.snapshot == st.rows || Step(st, e).0.snapshot == st.snapshot;
    case DragOver(mid, y) =>
      DragOverKeepsDistinct(st, mid, y);
      assert Step(st, e).0 == OnDragOver(st, mid, y);
    case DragEnd =>
      assert Step(st, e).0.rows == st.rows && Step(st, e).0.snapshot == st.snapshot;
    case Respond(reply) =>
      RestoreFromKeepsDistinct((set x | x in st.rows), st.snapshot, []);
      assert Step(st, e).0 == OnReply(st, reply).0;
      assert Step(st, e).0.snapshot == st.snapshot;
    case Tick =>
      assert Step(st, e).0.rows == st.rows && Step(st, e).0.snapshot == st.snapshot;
  }

  lemma DragOverKeepsDistinct(st: State, mid: int -> int, y: int)
    requires Distinct(st.rows)
    ensures Distinct(OnDragOver(st, mid, y).rows) && OnDragOver(st, mid, y).snapshot == st.snapshot
  {
    if st.dragging.Some? && st.dragging.value in st.rows {
      var d := st.dragging.value;
      MoveOnlyMovesDragged(st.rows, d, DragAfter(RemoveFirst(st.rows, d), mid, y));
    }
  }

  /** A failed save puts back the drag-start order of the rows still on
      screen; rows that were not in the snapshot disappear. */
  lemma FailedSaveRestoresSnapshot(st: State, error: Option<string>)
    requires WellFormed(st)
    ensures Step(st, Respond(Body(false, error))).0.rows == Keep(st.snapshot, set x | x in st.rows)
    ensures multiset(st.rows) == multiset(st.snapshot) ==>
      Step(st, Respond(Body(false, error))).0.rows == st.snapshot
  {
    RestoreIsSnapshotFilter(st.rows, st.snapshot);
    if multiset(st.rows) == multiset(st.snapshot) {
      RestorePermutationIsSnapshot(st.rows, st.snapshot);
    }
  }

  // ------------------------------------------------- as written vs. intended

  /** Ends a drag of `3` above row `1`, then, while that save is in flight,
      a drag of `1` to the bottom, and finally the server rejects the first
      save. */
  function Scenario(): seq<Event> {
    [Loaded([1, 2, 3]),
     DragStart(3), DragOver(x => 10 * x, 0), DragEnd,
     DragStart(1), DragOver(x => 10 * x, 100), DragEnd,
     Respond(Body(false, None))]
  }

  /** A run is determined by its trace: if each event takes `states[i]` to
      `states[i + 1]` with effect `effects[i]`, the run ends in the last state
      with exactly those effects. */
  lemma {:induction false} RunTrace(states: seq<State>, es: seq<Event>, effects: seq<Effect>)
    requires |states| == |es| + 1 && |effects| == |es|
    requires forall i | 0 <= i < |es| :: Step(states[i], es[i]) == (states[i + 1], effects[i])
    ensures Run(states[0], es) == (states[|es|], effects)
    decreases |es|
  {
    if |es| > 0 {
      forall i | 0 <= i < |es| - 1
        ensures Step(states[1..][i], es[1..][i]) == (states[1..][i + 1], effects[1..][i])
      {
        assert Step(states[i + 1], es[i + 1]) == (states[i + 2], effects[i + 1]);
      }
      RunTrace(states[1..], es[1..], effects[1..]);
      assert effects == [effects[0]] + effects[1..];
    }
  }

  lemma ScenarioInsertionPoint(mid: int -> int)
    requires forall x :: mid(x) == 10 * x
    ensures DragAfter([1, 2], mid, 0) == Some(1)
    ensures DragAfter([3, 2], mid, 100).None?
  {
    assert Closest([1, 2], mid, 0, 1) == Some(0);
  }

  lemma ScenarioRemovals()
    ensures RemoveFirst([1, 2, 3], 3) == [1, 2]
    ensures RemoveFirst([3, 1, 2], 1) == [3, 2]
  {
    RemoveLastOfThree([1, 2, 3]);
    RemoveMiddleOfThree([3, 1, 2]);
  }

  lemma RemoveLastOfThree(p: seq<int>)
    requires |p| == 3 && p[2] != p[0] && p[2] != p[1]
    ensures RemoveFirst(p, p[2]) == [p[0], p[1]]
  {
    var t := p[1..];
    assert t[0] == p[1] && t[1..] == [p[2]];
    assert RemoveFirst(t[1..], p[2]) == [];
    assert RemoveFirst(t, p[2]) == [p[1]];
    assert RemoveFirst(p, p[2]) == [p[0]] + [p[1]];
  }

  lemma RemoveMiddleOfThree(p: seq<int>)
    requires |p| == 3 && p[1] != p[0]
    ensures RemoveFirst(p, p[1]) == [p[0], p[2]]
  {
    var t := p[1..];
    assert t[0] == p[1] && t[1..] == [p[2]];
    assert RemoveFirst(t, p[1]) == [p[2]];
    assert RemoveFirst(p, p[1]) == [p[0]] + [p[2]];
  }

  /** The last of three distinct rows dropped onto the first. */
  lemma MoveLastToFront(p: seq<int>)
    requires |p| == 3 && p[0] != p[1] && p[1] != p[2] && p[0] != p[2]
    ensures Move(p, p[2], Some(p[0])) == [p[2], p[0], p[1]]
  {
    RemoveLastOfThree(p);
    var rest := [p[0], p[1]];
    assert IndexOf(rest, p[0]) == 0;
    assert rest[..0] + [p[2]] + rest[0..] == [p[2], p[0], p[1]];
  }

  /** The middle one of three rows dropped below the others. */
  lemma MoveMiddleToEnd(p: seq<int>)
    requires |p| == 3 && p[0] != p[1]
    ensures Move(p, p[1], None) == [p[0], p[2], p[1]]
  {
    RemoveMiddleOfThree(p);
    assert [p[0], p[2]] + [p[1]] == [p[0], p[2], p[1]];
  }

  lemma ScenarioMoveUp()
    ensures RemoveFirst([1, 2, 3], 3) == [1, 2]
    ensures Move([1, 2, 3], 3, Some(1)) == [3, 1, 2]
  {
    ScenarioRemovals();
    MoveLastToFront([1, 2, 3]);
  }

  lemma ScenarioMoveDown()
    ensures RemoveFirst([3, 1, 2], 1) == [3, 2]
    ensures Move([3, 1, 2], 1, None) == [3, 2, 1]
  {
    ScenarioRemovals();
    MoveMiddleToEnd([3, 1, 2]);
  }

  lemma ScenarioRestore()
    ensures Restore([3, 2, 1], [3, 1, 2]) == [3, 1, 2]
  {
    var present := set x | x in [3, 2, 1];
    assert present == {1, 2, 3} by {
      assert [3, 2, 1][0] == 3 && [3, 2, 1][1] == 2 && [3, 2, 1][2] == 1;
    }
    assert [3, 1, 2][1..] == [1, 2] && [1, 2][1..] == [2] && [2][1..] == [];
    assert Append([], 3) == [3];
    assert Append([3], 1) == [3, 1] by { assert [3][1..] == []; }
    assert Append([3, 1], 2) == [3, 1, 2] by { assert [3, 1][1..] == [1] && [1][1..] == []; }
  }

  lemma StepDragOver(st: State, mid: int -> int, y: int)
    ensures Step(st, DragOver(mid, y)) == (OnDragOver(st, mid, y), NoEffect)
  {
  }

  /** A dragover with the dragged row on screen and a known insertion point. */
  lemma DragOverTo(st: State, mid: int -> int, y: int, after: Option<int>)
    requires st.dragging.Some? && st.dragging.value in st.rows
    requires DragAfter(RemoveFirst(st.rows, st.dragging.value), mid, y) == after
    ensures Step(st, DragOver(mid, y)) == (st.(rows := Move(st.rows, st.dragging.value, after)), NoEffect)
  {
    StepDragOver(st, mid, y);
  }

  lemma ScenarioFirstDrag(mid: int -> int)
    requires forall x :: mid(x) == 10 * x
    ensures Step(State([1, 2, 3], Some(3), [1, 2, 3], false, None, 0), DragOver(mid, 0))
      == (State([3, 1, 2], Some(3), [1, 2, 3], false, None, 0), NoEffect)
  {
    ScenarioInsertionPoint(mid);
    ScenarioMoveUp();
    DragOverTo(State([1, 2, 3], Some(3), [1, 2, 3], false, None, 0), mid, 0, Some(1));
  }

  lemma ScenarioSecondDrag(mid: int -> int)
    requires forall x :: mid(x) == 10 * x
    ensures Step(State([3, 1, 2], Some(1), [3, 1, 2], true, Some(SavingText), 0), DragOver(mid, 100))
      == (State([3, 2, 1], Some(1), [3, 1, 2], true, Some(SavingText), 0), NoEffect)
  {
    ScenarioInsertionPoint(mid);
    ScenarioMoveDown();
    DragOverTo(State([3, 1, 2], Some(1), [3, 1, 2], true, Some(SavingText), 0), mid, 100, None);
  }

  lemma ScenarioFailure()
    ensures Step(State([3, 2, 1], None, [3, 1, 2], true, Some(SavingText), 0), Respond(Body(false, None)))
      == (State([3, 1, 2], None, [3, 1, 2], false, Some(""), 0), Effect(None, Some(SaveFailedText)))
    ensures OnReply(State([3, 2, 1], None, [3, 1, 2], true, Some(SavingText), 0), Body(false, None))
      == (State([3, 1, 2], None, [3, 1, 2], false, Some(""), 0), Effect(None, Some(SaveFailedText)))
  {
    ScenarioRestore();
  }

  /** The states the page passes through along `Scenario()`, as written. */
  function ScenarioStates(): seq<State> {
    [Initial(),
     State([1, 2, 3], None, [], false, None, 0),
     State([1, 2, 3], Some(3), [1, 2, 3], false, None, 0),
     State([3, 1, 2], Some(3), [1, 2, 3], false, None, 0),
     State([3, 1, 2], None, [1, 2, 3], true, Some(SavingText), 0),
     State([3, 1, 2], Some(1), [3, 1, 2], true, Some(SavingText), 0),
     State([3, 2, 1], Some(1), [3, 1, 2], true, Some(SavingText), 0),
     State([3, 2, 1], None, [3, 1, 2], true, Some(SavingText), 0),
     State([3, 1, 2], None, [3, 1, 2], false, Some(""), 0)]
  }

  function ScenarioEffects(): seq<Effect> {
    [NoEffect, NoEffect, NoEffect, Effect(Some([3, 1, 2]), None),
     NoEffect, NoEffect, NoEffect, Effect(None, Some(SaveFailedText))]
  }

  lemma {:induction false} ScenarioTrace(i: int)
    requires 0 <= i < 8
    ensures Step(ScenarioStates()[i], Scenario()[i]) == (ScenarioStates()[i + 1], ScenarioEffects()[i])
  {
    var es, ss, fx := Scenario(), ScenarioStates(), ScenarioEffects();
    if i < 4 {
      ScenarioTraceFirstSave(i);
    } else {
      ScenarioTraceSecondDrag(i);
    }
  }

  lemma {:induction false} ScenarioTraceFirstSave(i: int)
    requires 0 <= i < 4
    ensures Step(ScenarioStates()[i], Scenario()[i]) == (ScenarioStates()[i + 1], ScenarioEffects()[i])
  {
    var es, ss, fx := Scenario(), ScenarioStates(), ScenarioEffects();
    if i == 0 {
      assert Step(ss[0], es[0]) == (ss[1], fx[0]);
    } else if i == 1 {
      assert Step(ss[1], es[1]) == (ss[2], fx[1]);
    } else if i == 2 {
      ScenarioFirstDrag(es[2].mid);
      assert Step(ss[2], es[2]) == (ss[3], fx[2]);
    } else {
      assert Step(ss[3], es[3]) == (ss[4], fx[3]);
    }
  }

  lemma {:induction false} ScenarioTraceSecondDrag(i: int)
    requires 4 <= i < 8
    ensures Step(ScenarioStates()[i], Scenario()[i]) == (ScenarioStates()[i + 1], ScenarioEffects()[i])
  {
    var es, ss, fx := Scenario(), ScenarioStates(), ScenarioEffects();
    if i == 4 {
      assert Step(ss[4], es[4]) == (ss[5], fx[4]);
    } else if i == 5 {
      ScenarioSecondDrag(es[5].mid);
      assert Step(ss[5], es[5]) == (ss[6], fx[5]);
    } else if i == 6 {
      assert Step(ss[6], es[6]) == (ss[7], fx[6]);
    } else {
      ScenarioFailure();
      assert Step(ss[7], es[7]) == (ss[8], fx[7]);
    }
  }

  /** As written, the second drag overwrites `snapshotIds`, so the rejected
      order [3, 1, 2] is what the failure "restores", while the server still
      holds [1, 2, 3]. */
  lemma {:induction false} SnapshotOverwrittenDuringSave()
    ensures Run(Initial(), Scenario()).1[3].request == Some([3, 1, 2])
    ensures Run(Initial(), Scenario()).1[6].request.None?
    ensures Run(Initial(), Scenario()).1[7].alert == Some(SaveFailedText)
    ensures Run(Initial(), Scenario()).0.rows == [3, 1, 2]
  {
    ScenarioRun();
    ScenarioOutcome();
  }

  lemma ScenarioOutcome()
    ensures ScenarioEffects()[3].request == Some([3, 1, 2])
    ensures ScenarioEffects()[6].request.None? && ScenarioEffects()[7].alert == Some(SaveFailedText)
    ensures ScenarioStates()[8].rows == [3, 1, 2]
    ensures FixedScenarioPages()[8].ui.rows == [1, 2, 3]
  {
  }

  /** The whole run of `Scenario()`, as written. */
  lemma {:induction false} ScenarioRun()
    ensures Run(Initial(), Scenario()) == (ScenarioStates()[8], ScenarioEffects())
  {
    var ss, es, fx := ScenarioStates(), Scenario(), ScenarioEffects();
    forall i | 0 <= i < |es| ensures Step(ss[i], es[i]) == (ss[i + 1], fx[i]) {
      ScenarioTrace(i);
    }
    RunTrace(ss, es, fx);
  }

  /** A rejected `api.post` skips `saving = false`: afterwards no event can
      start a save again (no reply is pending, so none arrives). */
  lemma {:induction false} ThrownLeavesSavingStuck(st: State, es: seq<Event>)
    requires st.saving
    requires forall i | 0 <= i < |es| :: !es[i].Respond?
    ensures var after := Step(st, Respond(Thrown)).0;
      && after == st
      && Run(after, es).0.saving
      && forall i | 0 <= i < |es| :: Run(after, es).1[i].request.None?
    decreases |es|
  {
    if |es| > 0 {
      var s1 := Step(st, es[0]).0;
      assert s1.saving;
      assert Step(st, es[0]).1.request.None?;
      assert Step(s1, Respond(Thrown)).0 == s1;
      ThrownLeavesSavingStuck(s1, es[1..]);
      assert forall i | 0 <= i < |es[1..]| :: !es[1..][i].Respond? by {
        forall i | 0 <= i < |es[1..]| ensures !es[1..][i].Respond? { assert es[1..][i] == es[i + 1]; }
      }
    }
  }

  /** The page as intended: the order to fall back to is fixed when the
      request is sent (`revertTo`), and a rejected promise is handled like a
      failed reply, so `saving` is always released. */
  datatype Page = Page(ui: State, revertTo: seq<int>)

  function StepFixed(pg: Page, e: Event): (r: (Page, Effect))
    ensures !e.DragEnd? && !e.Respond? ==> r.0.revertTo == pg.revertTo
    ensures e.DragEnd? && r.1.request.Some? ==> r.0.revertTo == pg.ui.snapshot
    ensures e.DragEnd? && r.1.request.None? ==> r.0.revertTo == pg.revertTo
    ensures e.Respond? ==> !r.0.ui.saving
    ensures e.Respond? && (e.reply.Thrown? || !e.reply.ok) ==> r.0.ui.rows == Restore(pg.ui.rows, pg.revertTo)
  {
    if e.DragEnd? then
      var (ui, eff) := Step(pg.ui, e);
      (Page(ui, if eff.request.Some? then pg.ui.snapshot else pg.revertTo), eff)
    else if e.Respond? && (e.reply.Thrown? || !e.reply.ok) then
      var error := if e.reply.Thrown? then None else e.reply.error;
      (Page(pg.ui.(saving := false, rows := Restore(pg.ui.rows, pg.revertTo), badge := Some("")), pg.revertTo),
       Effect(None, Some(FailureAlert(error))))
    else
      var (ui, eff) := Step(pg.ui, e);
      (Page(ui, pg.revertTo), eff)
  }

  function RunFixed(pg: Page, es: seq<Event>): (r: (Page, seq<Effect>))
    ensures |r.1| == |es|
    decreases |es|
  {
    if |es| == 0 then (pg, [])
    else
      var (p1, e1) := StepFixed(pg, es[0]);
      var (p2, rest) := RunFixed(p1, es[1..]);
      (p2, [e1] + rest)
  }

  /** With the correction, nothing that happens while a save is in flight
      changes the order a failure falls back to, and the page keeps saving
      until the reply. */
  lemma {:induction false} InFlightKeepsRevertTo(pg: Page, es: seq<Event>)
    requires pg.ui.saving
    requires forall i | 0 <= i < |es| :: !es[i].Respond?
    ensures RunFixed(pg, es).0.revertTo == pg.revertTo
    ensures RunFixed(pg, es).0.ui.saving
    decreases |es|
  {
    if |es| > 0 {
      var p1 := StepFixed(pg, es[0]).0;
      assert p1.revertTo == pg.revertTo && p1.ui.saving;
      assert forall i | 0 <= i < |es[1..]| :: !es[1..][i].Respond? by {
        forall i | 0 <= i < |es[1..]| ensures !es[1..][i].Respond? { assert es[1..][i] == es[i + 1]; }
      }
      InFlightKeepsRevertTo(p1, es[1..]);
    }
  }

  /** A corrected run is determined by its trace. */
  lemma {:induction false} RunFixedTrace(pages: seq<Page>, es: seq<Event>, effects: seq<Effect>)
    requires |pages| == |es| + 1 && |effects| == |es|
    requires forall i | 0 <= i < |es| :: StepFixed(pages[i], es[i]) == (pages[i + 1], effects[i])
    ensures RunFixed(pages[0], es) == (pages[|es|], effects)
    decreases |es|
  {
    if |es| > 0 {
      forall i | 0 <= i < |es| - 1
        ensures StepFixed(pages[1..][i], es[1..][i]) == (pages[1..][i + 1], effects[1..][i])
      {
        assert StepFixed(pages[i + 1], es[i + 1]) == (pages[i + 2], effects[i + 1]);
      }
      RunFixedTrace(pages[1..], es[1..], effects[1..]);
      assert effects == [effects[0]] + effects[1..];
    }
  }

  /** The pages the corrected script passes through along `Scenario()`. */
  function FixedScenarioPages(): seq<Page> {
    var ss := ScenarioStates();
    [Page(ss[0], []), Page(ss[1], []), Page(ss[2], []), Page(ss[3], []),
     Page(ss[4], [1, 2, 3]), Page(ss[5], [1, 2, 3]), Page(ss[6], [1, 2, 3]), Page(ss[7], [1, 2, 3]),
     Page(ss[8].(rows := [1, 2, 3]), [1, 2, 3])]
  }

  lemma {:induction false} FixedScenarioTrace(i: int)
    requires 0 <= i < 8
    ensures StepFixed(FixedScenarioPages()[i], Scenario()[i]) == (FixedScenarioPages()[i + 1], ScenarioEffects()[i])
  {
    if i < 7 {
      ScenarioTrace(i);
    } else {
      ScenarioRestoreFixed();
    }
  }

  /** With the correction, the scenario's failure restores [1, 2, 3], the
      order the server still holds. */
  lemma {:induction false} FixedScenarioRestoresServerOrder()
    ensures RunFixed(Page(Initial(), []), Scenario()).1[3].request == Some([3, 1, 2])
    ensures RunFixed(Page(Initial(), []), Scenario()).1[7].alert == Some(SaveFailedText)
    ensures RunFixed(Page(Initial(), []), Scenario()).0.ui.rows == [1, 2, 3]
  {
    FixedScenarioRun();
    ScenarioOutcome();
  }

  /** The whole corrected run of `Scenario()`. */
  lemma {:induction false} FixedScenarioRun()
    ensures RunFixed(Page(Initial(), []), Scenario()) == (FixedScenarioPages()[8], ScenarioEffects())
  {
    var pgs, es, fx := FixedScenarioPages(), Scenario(), ScenarioEffects();
    forall i | 0 <= i < |es| ensures StepFixed(pgs[i], es[i]) == (pgs[i + 1], fx[i]) {
      FixedScenarioTrace(i);
    }
    RunFixedTrace(pgs, es, fx);
  }

  lemma ScenarioRestoreFixed()
    ensures Restore([3, 2, 1], [1, 2, 3]) == [1, 2, 3]
  {
    var present := set x | x in [3, 2, 1];
    assert present == {1, 2, 3} by {
      assert [3, 2, 1][0] == 3 && [3, 2, 1][1] == 2 && [3, 2, 1][2] == 1;
    }
    assert [1, 2, 3][1..] == [2, 3] && [2, 3][1..] == [3] && [3][1..] == [];
    assert Append([], 1) == [1];
    assert Append([1], 2) == [1, 2] by { assert [1][1..] == []; }
    assert Append([1, 2], 3) == [1, 2, 3] by { assert [1, 2][1..] == [2] && [2][1..] == []; }
  }

  /** With the correction, a rejected request releases `saving`, so the next
      drag that changes the order is saved. */
  lemma ThrownReleasesSaving(pg: Page)
    ensures var p1 := StepFixed(pg, Respond(Thrown)).0;
      && !p1.ui.saving
      && (|p1.ui.rows| == 0 || p1.ui.rows != p1.ui.snapshot ==> StepFixed(p1, DragEnd).1.request == Some(p1.ui.rows))
  {
  }
}

=== FILE: seqs.dfy ===
/** Sequence helpers shared by the server and the client models. */
module Seqs {

  /** No element occurs twice. */
  predicate Distinct<T(==)>(s: seq<T>) {
    forall i, j | 0 <= i < j < |s| :: s[i] != s[j]
  }

  /** Index of the first occurrence of `x` in `s`. */
  function IndexOf<T(==)>(s: seq<T>, x: T): (i: nat)
    requires x in s
    ensures i < |s| && s[i] == x
    ensures forall k | 0 <= k < i :: s[k] != x
  {
    if s[0] == x then 0 else 1 + IndexOf(s[1..], x)
  }

  /** `s` without the first occurrence of `x` (unchanged when `x` does not occur). */
  function RemoveFirst<T(==)>(s: seq<T>, x: T): (r: seq<T>)
    ensures x in s ==> |r| == |s| - 1 && multiset(r) + multiset{x} == multiset(s)
    ensures x !in s ==> r == s
  {
    if |s| == 0 then s
    else if s[0] == x then
      assert s == [s[0]] + s[1..];
      s[1..]
    else
      assert s == [s[0]] + s[1..];
      [s[0]] + RemoveFirst(s[1..], x)
  }

  /** The elements of `s` that belong to `keep`, in their order in `s`. */
  function Keep<T(==)>(s: seq<T>, keep: set<T>): (r: seq<T>)
    ensures forall k | 0 <= k < |r| :: r[k] in s && r[k] in keep
    ensures forall k | 0 <= k < |s| :: s[k] in keep ==> s[k] in r
    ensures |r| <= |s|
  {
    if |s| == 0 then []
    else (if s[0] in keep then [s[0]] else []) + Keep(s[1..], keep)
  }

  lemma {:induction false} DistinctRemoveFirst<T>(s: seq<T>, x: T)
    requires Distinct(s)
    ensures Distinct(RemoveFirst(s, x))
    ensures forall y :: y in RemoveFirst(s, x) <==> y in s && y != x
  {
    if |s| > 0 && s[0] != x {
      DistinctRemoveFirst(s[1..], x);
      var t := RemoveFirst(s[1..], x);
      var r := [s[0]] + t;
      assert s[0] !in t;
      forall i, j | 0 <= i < j < |r| ensures r[i] != r[j] {
        if i == 0 { assert r[j] == t[j - 1]; } else { assert r[i] == t[i - 1] && r[j] == t[j - 1]; }
      }
    } else if |s| > 0 {
      assert RemoveFirst(s, x) == s[1..];
    }
  }

  /** A sequence without repetitions has as many distinct elements as it is long,
      and only such a sequence does. */
  lemma {:induction false} DistinctIffCardinality<T>(s: seq<T>)
    ensures |set x | x in s| == |s| <==> Distinct(s)
  {
    if |s| == 0 {
      assert (set x | x in s) == {};
    } else {
      var tail := s[1..];
      DistinctIffCardinality(tail);
      var st := set x | x in tail;
      assert (set x | x in s) == st + {s[0]};
      assert |st| <= |tail| by { CardinalityAtMostLength(tail); }
      if s[0] in tail {
        var k :| 0 <= k < |tail| && tail[k] == s[0];
        assert s[k + 1] == s[0];
        assert !Distinct(s);
        assert st + {s[0]} == st;
      } else {
        assert Distinct(s) <==> Distinct(tail) by {
          if Distinct(tail) {
            forall i, j | 0 <= i < j < |s| ensures s[i] != s[j] {
              if i == 0 { assert s[j] == tail[j - 1]; } else { assert s[i] == tail[i - 1] && s[j] == tail[j - 1]; }
            }
          }
          if Distinct(s) {
            forall i, j | 0 <= i < j < |tail| ensures tail[i] != tail[j] {
              assert tail[i] == s[i + 1] && tail[j] == s[j + 1];
            }
          }
        }
      }
    }
  }

  lemma {:induction false} CardinalityAtMostLength<T>(s: seq<T>)
    ensures |set x | x in s| <= |s|
  {
    if |s| > 0 {
      CardinalityAtMostLength(s[1..]);
      assert (set x | x in s) == (set x | x in s[1..]) + {s[0]};
    } else {
      assert (set x | x in s) == {};
    }
  }

  /** A subset is no larger than its superset. */
  lemma {:induction false} SubsetCardinality<T>(a: set<T>, b: set<T>)
    requires a <= b
    ensures |a| <= |b|
    decreases |b|
  {
    if |a| != 0 {
      var x :| x in a;
      SubsetCardinality(a - {x}, b - {x});
    }
  }

  /** Some element of a non-empty set. */
  ghost function Pick<T>(s: set<T>): (x: T)
    requires s != {}
    ensures x in s
  {
    var x :| x in s; x
  }

  /** The elements of `s` whose `f`-value is `key`, in their order in `s`. */
  function Select<T>(s: seq<T>, f: T -> string, key: string): (r: seq<T>)
    ensures |r| <= |s|
  {
    if |s| == 0 then []
    else (if f(s[0]) == key then [s[0]] else []) + Select(s[1..], f, key)
  }

  /** `Select` keeps exactly the elements with the key. */
  lemma {:induction false} SelectMembers<T>(s: seq<T>, f: T -> string, key: string)
    ensures forall x :: x in Select(s, f, key) <==> x in s && f(x) == key
    decreases |s|
  {
    if |s| > 0 {
      SelectMembers(s[1..], f, key);
      assert s == [s[0]] + s[1..];
    }
  }

  /** `Select` keeps the order: it distributes over concatenation. */
  lemma {:induction false} SelectAppend<T>(a: seq<T>, b: seq<T>, f: T -> string, key: string)
    ensures Select(a + b, f, key) == Select(a, f, key) + Select(b, f, key)
    decreases |a|
  {
    if |a| > 0 {
      assert (a + b)[0] == a[0] && (a + b)[1..] == a[1..] + b;
      SelectAppend(a[1..], b, f, key);
    } else {
      assert a + b == b;
    }
  }
}

=== FILE: stage_store.dfy ===
/** The `well_stages` table as a finite map from stage id to row, the
    per-well uniqueness constraint `uq_stage_order_per_well`, and the shapes of
    a request's outcome. Every write path returns the store it leaves behind:
    a failed transaction returns the store it was given. */
module StageStore {
  import opened Optional

  /** One row of `well_stages`. `drillTime` and `stageChange` are numeric
      columns; their values play no part in any property, so they are kept as
      reals. */
  datatype Stage = Stage(
    well: int,
    orderIndex: int,
    name: Option<string>,
    pipe: Option<string>,
    drillTime: Option<real>,
    stageChange: Option<real>,
    progress: Option<string>)

  type Store = map<int, Stage>

  /** `Number(v)` of a JSON value or a path parameter: an integer, or anything
      else (NaN, a fraction, an infinity). */
  datatype Num = Int(i: int) | NonInteger

  /** The HTTP outcome of a route: 200 `{ok: true}`, 400, or 500. */
  datatype Status = Ok | BadRequest(error: string) | ServerError(error: string)

  /** A route's status together with the store after it (committed or rolled back). */
  datatype Outcome = Outcome(status: Status, store: Store)

  /** Bounds of the Postgres `int` type, into which the reorder ids and the
      explicit positions are cast. */
  const Int4Min: int := -0x8000_0000
  const Int4Max: int := 0x7FFF_FFFF

  predicate InInt4(n: int) { Int4Min <= n <= Int4Max }

  /** The messages of the 500 responses: the driver's error text. */
  const CastError := "value out of range for type integer"
  const ConstraintError := "duplicate key value violates unique constraint \"uq_stage_order_per_well\""
  /** Stands for any other failure of the datastore. */
  const FaultError := "database error"

  /** Stage `id` exists and belongs to well `w`. */
  predicate InWell(s: Store, w: int, id: int) { id in s && s[id].well == w }

  /** The ids of well `w`'s stages. */
  function StagesOf(s: Store, w: int): set<int> {
    set id | id in s && s[id].well == w
  }

  /** `uq_stage_order_per_well` restricted to well `w`. */
  predicate UniqueIn(s: Store, w: int) {
    forall a, b | a in s && b in s && a != b && s[a].well == w && s[b].well == w ::
      s[a].orderIndex != s[b].orderIndex
  }

  /** `uq_stage_order_per_well` over the whole table. */
  predicate Consistent(s: Store) {
    forall a, b | a in s && b in s && a != b && s[a].well == s[b].well :: s[a].orderIndex != s[b].orderIndex
  }

  /** The set of positions held by well `w`'s stages. */
  function PositionsOf(s: Store, w: int): set<int> {
    set id | id in s && s[id].well == w :: s[id].orderIndex
  }

  /** Stages outside well `w` are the same in both stores, and none appear or vanish. */
  predicate OthersUnchanged(s: Store, s': Store, w: int) {
    && (forall id | id in s && s[id].well != w :: id in s' && s'[id] == s[id])
    && (forall id | id in s' && s'[id].well != w :: id in s && s[id] == s'[id])
  }

  /** What a deferred unique constraint checks at COMMIT: every row written in
      the transaction (`changed`) differs in position from every other row of
      its well. Rows the transaction did not write are not re-examined. */
  predicate ChangedRowsUnique(s: Store, changed: set<int>) {
    forall a, b | a in s && b in s && a != b && a in changed && s[a].well == s[b].well ::
      s[a].orderIndex != s[b].orderIndex
  }

  /** Rows outside `changed` are carried over from `s` unaltered. */
  predicate OnlyChanged(s: Store, s': Store, changed: set<int>) {
    forall id | id in s' && id !in changed :: id in s && s[id] == s'[id]
  }

  /** The commit-time check is enough: a transaction that starts from a
      consistent table and passes it leaves a consistent table. */
  lemma {:induction false} CommitCheckKeepsConsistent(s: Store, s': Store, changed: set<int>)
    requires Consistent(s)
    requires OnlyChanged(s, s', changed)
    requires ChangedRowsUnique(s', changed)
    ensures Consistent(s')
  {
    forall a, b | a in s' && b in s' && a != b && s'[a].well == s'[b].well
      ensures s'[a].orderIndex != s'[b].orderIndex
    {
      if a !in changed && b !in changed {
        assert s[a] == s'[a] && s[b] == s'[b];
      } else if b in changed {
        assert s'[b].orderIndex != s'[a].orderIndex;
      }
    }
  }
}

=== FILE: text.dfy ===
/** Character classes and string operations as the browser and the database
    apply them: JavaScript's whitespace set (used by `trim()` and `\s`), the
    `\w` class, ASCII case mapping, prefix tests and `split(/\s+/)`. */
module Text {

  /** JavaScript WhiteSpace and LineTerminator code points: what `trim()`
      removes and what the regular-expression class `\s` matches. */
  predicate IsSpace(c: char) {
    || c == ' ' || c == '\t' || c == '\n' || c == '\U{B}' || c == '\U{C}' || c == '\r'
    || c == '\U{A0}' || c == '\U{1680}' || ('\U{2000}' <= c <= '\U{200A}')
    || c == '\U{2028}' || c == '\U{2029}' || c == '\U{202F}' || c == '\U{205F}'
    || c == '\U{3000}' || c == '\U{FEFF}'
  }

  predicate IsAsciiDigit(c: char) { '0' <= c <= '9' }

  predicate IsAsciiLetter(c: char) { 'A' <= c <= 'Z' || 'a' <= c <= 'z' }

  /** The regular-expression class `\w` (without the `u` flag): `[A-Za-z0-9_]`. */
  predicate IsWordChar(c: char) { IsAsciiLetter(c) || IsAsciiDigit(c) || c == '_' }

  predicate HasSpace(s: string) { exists k | 0 <= k < |s| :: IsSpace(s[k]) }

  predicate AllSpace(s: string) { forall k | 0 <= k < |s| :: IsSpace(s[k]) }

  /** Neither the first nor the last character is whitespace. */
  predicate NoEdgeSpace(s: string) { |s| == 0 || (!IsSpace(s[0]) && !IsSpace(s[|s| - 1])) }

  function LowerChar(c: char): char {
    if 'A' <= c <= 'Z' then (c as int - 'A' as int + 'a' as int) as char else c
  }

  function UpperChar(c: char): char {
    if 'a' <= c <= 'z' then (c as int - 'a' as int + 'A' as int) as char else c
  }

  /** `toLowerCase()` restricted to ASCII letters. */
  function Lower(s: string): (r: string)
    ensures |r| == |s|
    ensures forall k | 0 <= k < |s| :: r[k] == LowerChar(s[k])
  {
    if |s| == 0 then "" else [LowerChar(s[0])] + Lower(s[1..])
  }

  /** `toUpperCase()` restricted to ASCII letters. */
  function Upper(s: string): (r: string)
    ensures |r| == |s|
    ensures forall k | 0 <= k < |s| :: r[k] == UpperChar(s[k])
  {
    if |s| == 0 then "" else [UpperChar(s[0])] + Upper(s[1..])
  }

  lemma UpperPair(a: char, b: char)
    ensures Upper([a, b]) == [UpperChar(a), UpperChar(b)]
  {
    var r := Upper([a, b]);
    assert |r| == 2 && r[0] == UpperChar(a) && r[1] == UpperChar(b);
  }

  predicate StartsWith(s: string, prefix: string) {
    |prefix| <= |s| && s[..|prefix|] == prefix
  }

  /** Drops the leading whitespace. */
  function TrimStart(s: string): (r: string)
    ensures |r| <= |s| && r == s[|s| - |r|..]
    ensures forall k | 0 <= k < |s| - |r| :: IsSpace(s[k])
    ensures |r| == 0 || !IsSpace(r[0])
  {
    if |s| > 0 && IsSpace(s[0]) then TrimStart(s[1..]) else s
  }

  /** Drops the trailing whitespace. */
  function TrimEnd(s: string): (r: string)
    ensures |r| <= |s| && r == s[..|r|]
    ensures forall k | |r| <= k < |s| :: IsSpace(s[k])
    ensures |r| == 0 || !IsSpace(r[|r| - 1])
  {
    if |s| > 0 && IsSpace(s[|s| - 1]) then TrimEnd(s[..|s| - 1]) else s
  }

  /** `String.prototype.trim`. */
  function Trim(s: string): (r: string)
    ensures NoEdgeSpace(r)
    ensures |r| <= |s|
    ensures NoEdgeSpace(s) ==> r == s
    ensures r == "" <==> AllSpace(s)
    ensures HasSpace(r) ==> HasSpace(s)
  {
    var a := TrimStart(s);
    TrimStartFacts(s);
    TrimEndFacts(a);
    TrimEnd(a)
  }

  lemma TrimStartFacts(s: string)
    ensures TrimStart(s) == "" <==> AllSpace(s)
    ensures HasSpace(TrimStart(s)) ==> HasSpace(s)
  {
    var a := TrimStart(s);
    if a != "" { assert a[0] == s[|s| - |a|]; }
    if HasSpace(a) {
      var k :| 0 <= k < |a| && IsSpace(a[k]);
      assert a[k] == s[k + (|s| - |a|)];
    }
  }

  lemma TrimEndFacts(a: string)
    ensures TrimEnd(a) == "" <==> AllSpace(a)
    ensures HasSpace(TrimEnd(a)) ==> HasSpace(a)
    ensures TrimEnd(a) != "" ==> TrimEnd(a)[0] == a[0]
  {
    var r := TrimEnd(a);
    if HasSpace(r) {
      var k :| 0 <= k < |r| && IsSpace(r[k]);
      assert r[k] == a[k];
    }
  }

  /** A word of `t` begins at index `j`: whitespace before it, none at it. */
  predicate WordStart(t: string, j: int) {
    0 < j < |t| && IsSpace(t[j - 1]) && !IsSpace(t[j])
  }

  /** Case mapping leaves whitespace where it was. */
  lemma LowerKeepsSpace(c: char)
    ensures IsSpace(LowerChar(c)) <==> IsSpace(c)
  {
  }

  /** Lower-casing twice is lower-casing once. */
  lemma LowerIdempotent(s: string)
    ensures Lower(Lower(s)) == Lower(s)
  {
    assert forall k | 0 <= k < |s| :: LowerChar(LowerChar(s[k])) == LowerChar(s[k]);
  }

  /** Only the empty string lower-cases to the empty string. */
  lemma LowerEmpty(s: string)
    ensures Lower(s) == "" <==> s == ""
  {
  }

  /** Every whitespace character is a single ' ' followed by no whitespace. */
  predicate Collapsed(s: string) {
    forall k | 0 <= k < |s| && IsSpace(s[k]) :: s[k] == ' ' && (k + 1 < |s| ==> !IsSpace(s[k + 1]))
  }

  /** `s.replace(/\s+/g, " ")`: each maximal whitespace run becomes one space. */
  function Collapse(s: string): (r: string)
    ensures |r| <= |s|
    ensures |s| > 0 <==> |r| > 0
    decreases |s|
  {
    if |s| == 0 then ""
    else if IsSpace(s[0]) then " " + Collapse(TrimStart(s[1..]))
    else [s[0]] + Collapse(s[1..])
  }

  lemma CollapsedTail(s: string)
    requires |s| > 0 && Collapsed(s)
    ensures Collapsed(s[1..])
  {
    forall k | 0 <= k < |s[1..]| && IsSpace(s[1..][k])
      ensures s[1..][k] == ' ' && (k + 1 < |s[1..]| ==> !IsSpace(s[1..][k + 1]))
    {
      assert s[1..][k] == s[k + 1];
      if k + 1 < |s[1..]| { assert s[1..][k + 1] == s[k + 2]; }
    }
  }

  /** A character put in front of a collapsed string keeps it collapsed when
      it is not whitespace, or is a single ' ' before a non-space. */
  lemma CollapsedCons(c: char, t: string)
    requires Collapsed(t)
    requires IsSpace(c) ==> c == ' ' && (|t| > 0 ==> !IsSpace(t[0]))
    ensures Collapsed([c] + t)
  {
    var r := [c] + t;
    assert forall k | 1 <= k < |r| :: r[k] == t[k - 1];
  }

  /** The output of `Collapse` is collapsed and begins and ends with
      whitespace exactly when its input does. */
  lemma {:induction false} CollapseShape(s: string)
    ensures Collapsed(Collapse(s))
    ensures |s| > 0 ==> (IsSpace(Collapse(s)[0]) <==> IsSpace(s[0]))
    ensures |s| > 0 ==> (IsSpace(Collapse(s)[|Collapse(s)| - 1]) <==> IsSpace(s[|s| - 1]))
    decreases |s|
  {
    if |s| > 0 {
      if IsSpace(s[0]) {
        CollapseShape(TrimStart(s[1..]));
        CollapseSpaceStep(s);
      } else {
        CollapseShape(s[1..]);
        CollapseWordStep(s);
      }
    }
  }

  /** `CollapseShape` for a string that starts with whitespace, given it for
      the rest after the run. */
  lemma CollapseSpaceStep(s: string)
    requires |s| > 0 && IsSpace(s[0])
    requires Collapsed(Collapse(TrimStart(s[1..])))
    requires |TrimStart(s[1..])| > 0 ==>
      && (IsSpace(Collapse(TrimStart(s[1..]))[0]) <==> IsSpace(TrimStart(s[1..])[0]))
      && (IsSpace(Collapse(TrimStart(s[1..]))[|Collapse(TrimStart(s[1..]))| - 1]) <==> IsSpace(s[|s| - 1]))
    ensures Collapsed(Collapse(s))
    ensures IsSpace(Collapse(s)[0])
    ensures IsSpace(Collapse(s)[|Collapse(s)| - 1]) <==> IsSpace(s[|s| - 1])
  {
    var t := TrimStart(s[1..]);
    var c := Collapse(t);
    var r := Collapse(s);
    assert r == [' '] + c;
    CollapsedCons(' ', c);
    if |t| == 0 {
      if |s| > 1 { assert s[|s| - 1] == s[1..][|s| - 2]; }
    } else {
      assert r[|r| - 1] == c[|c| - 1];
    }
  }

  /** `CollapseShape` for a string that starts with a non-space, given it for
      its tail. */
  lemma CollapseWordStep(s: string)
    requires |s| > 0 && !IsSpace(s[0])
    requires Collapsed(Collapse(s[1..]))
    requires |s| > 1 ==> (IsSpace(Collapse(s[1..])[|Collapse(s[1..])| - 1]) <==> IsSpace(s[|s| - 1]))
    ensures Collapsed(Collapse(s))
    ensures !IsSpace(Collapse(s)[0])
    ensures IsSpace(Collapse(s)[|Collapse(s)| - 1]) <==> IsSpace(s[|s| - 1])
  {
    var c := Collapse(s[1..]);
    var r := Collapse(s);
    assert r == [s[0]] + c;
    CollapsedCons(s[0], c);
    if |s| > 1 {
      assert r[|r| - 1] == c[|c| - 1];
    }
  }

  /** Collapsing a collapsed string changes nothing. */
  lemma {:induction false} CollapseFixed(s: string)
    requires Collapsed(s)
    ensures Collapse(s) == s
    decreases |s|
  {
    if |s| > 0 {
      CollapsedTail(s);
      CollapseFixed(s[1..]);
      if IsSpace(s[0]) {
        if |s| > 1 { assert !IsSpace(s[1]) && s[1..][0] == s[1]; }
        assert TrimStart(s[1..]) == s[1..];
      }
    }
  }

  // ------------------------------------------------------ split(/\s+/)

  /** The first whitespace index at or after `i`, or `|s|`. */
  function SpaceFrom(s: string, i: nat): (k: nat)
    requires i <= |s|
    ensures i <= k <= |s|
    ensures forall m | i <= m < k :: !IsSpace(s[m])
    ensures k < |s| ==> IsSpace(s[k])
    decreases |s| - i
  {
    if i == |s| || IsSpace(s[i]) then i else SpaceFrom(s, i + 1)
  }

  /** The first non-whitespace index at or after `i`, or `|s|`. */
  function WordFrom(s: string, i: nat): (k: nat)
    requires i <= |s|
    ensures i <= k <= |s|
    ensures forall m | i <= m < k :: IsSpace(s[m])
    ensures k < |s| ==> !IsSpace(s[k])
    decreases |s| - i
  {
    if i == |s| || !IsSpace(s[i]) then i else WordFrom(s, i + 1)
  }

  /** The pieces of `s[i..]` between maximal whitespace runs. */
  function FieldsFrom(s: string, i: nat): (r: seq<string>)
    requires i <= |s|
    ensures |r| >= 1 && r[0] == s[i..SpaceFrom(s, i)]
    decreases |s| - i
  {
    var k := SpaceFrom(s, i);
    if k == |s| then [s[i..]] else [s[i..k]] + FieldsFrom(s, WordFrom(s, k))
  }

  /** `s.split(/\s+/)`: an edge run of whitespace yields an empty first or
      last piece, and "" yields [""]. */
  function Fields(s: string): (r: seq<string>)
    ensures |r| >= 1 && r[0] == s[..SpaceFrom(s, 0)]
    ensures |r| == 1 <==> !HasSpace(s)
  {
    FieldsFrom(s, 0)
  }

  /** Where the last piece of `FieldsFrom(s, i)` starts. */
  function LastFrom(s: string, i: nat): (j: nat)
    requires i <= |s|
    ensures i <= j <= |s|
    decreases |s| - i
  {
    var k := SpaceFrom(s, i);
    if k == |s| then i else LastFrom(s, WordFrom(s, k))
  }

  lemma LastOfCons<T>(x: T, s: seq<T>)
    requires |s| > 0
    ensures ([x] + s)[|[x] + s| - 1] == s[|s| - 1]
  {
  }

  lemma {:induction false} LastFromIsLast(s: string, i: nat)
    requires i <= |s|
    ensures FieldsFrom(s, i)[|FieldsFrom(s, i)| - 1] == s[LastFrom(s, i)..]
    decreases |s| - i
  {
    var k := SpaceFrom(s, i);
    if k < |s| {
      LastFromIsLast(s, WordFrom(s, k));
      LastOfCons(s[i..k], FieldsFrom(s, WordFrom(s, k)));
    }
  }

  /** When `s` does not end in whitespace, the last piece starts at a
      non-space, contains no whitespace and, unless it is the whole of
      `s[i..]`, follows whitespace. */
  lemma {:induction false} LastFromShape(s: string, i: nat)
    requires i < |s| && !IsSpace(s[|s| - 1])
    ensures i <= LastFrom(s, i) < |s|
    ensures forall m | LastFrom(s, i) <= m < |s| :: !IsSpace(s[m])
    ensures LastFrom(s, i) > i ==> IsSpace(s[LastFrom(s, i) - 1])
    decreases |s| - i
  {
    var k := SpaceFrom(s, i);
    if k < |s| {
      var w := WordFrom(s, k);
      LastFromShape(s, w);
    }
  }

  /** In a string without edge whitespace, the last piece of `split(/\s+/)`
      is the final word: it starts at a word start (or at 0), no word starts
      after it, and it holds no whitespace. */
  lemma LastField(t: string)
    requires t != "" && NoEdgeSpace(t)
    ensures LastFrom(t, 0) < |t| && Fields(t)[|Fields(t)| - 1] == t[LastFrom(t, 0)..]
    ensures LastFrom(t, 0) == 0 || WordStart(t, LastFrom(t, 0))
    ensures forall i | LastFrom(t, 0) < i < |t| :: !WordStart(t, i)
    ensures !HasSpace(t[LastFrom(t, 0)..])
  {
    LastFromIsLast(t, 0);
    LastFromShape(t, 0);
    var j := LastFrom(t, 0);
    assert forall m | 0 <= m < |t[j..]| :: t[j..][m] == t[j + m];
  }

  /** In a string without edge whitespace that contains whitespace, the
      second piece of `split(/\s+/)` is the second word: it begins at the
      first word start. */
  lemma SecondField(t: string)
    requires NoEdgeSpace(t) && HasSpace(t)
    ensures |Fields(t)| >= 2
    ensures Fields(t)[1] != "" && WordStart(t, WordFrom(t, SpaceFrom(t, 0)))
    ensures Fields(t)[1][0] == t[WordFrom(t, SpaceFrom(t, 0))]
    ensures forall i | 0 < i < WordFrom(t, SpaceFrom(t, 0)) :: !WordStart(t, i)
  {
    var k := SpaceFrom(t, 0);
    var w := WordFrom(t, k);
    assert k < |t|;
    assert Fields(t)[1] == FieldsFrom(t, w)[0];
    assert SpaceFrom(t, w) > w;
    forall i | 0 < i < w ensures !WordStart(t, i) {
      if i <= k { assert !IsSpace(t[i - 1]); } else { assert IsSpace(t[i]); }
    }
  }
}

=== FILE: user_badge.dfy ===
/** The user badge shown in the top bar and on the dashboard: a display name
    derived from an e-mail address, the defaults for a user without name or
    address, and the two-letter avatar initials, which the top bar and the
    dashboard compute differently. */
module UserBadge {
  import opened Optional
  import opened Text

  // ------------------------------------------------------------ names

  /** `email.split("@")[0]`: the text before the first '@'. */
  function LocalPart(e: string): (u: string)
    ensures |u| <= |e| && u == e[..|u|]
    ensures forall k | 0 <= k < |u| :: e[k] != '@'
    ensures |u| < |e| ==> e[|u|] == '@'
  {
    if |e| == 0 || e[0] == '@' then "" else [e[0]] + LocalPart(e[1..])
  }

  const DefaultName := "Usuario"

  /** `nameFromEmail(email)`: the local part of the address with its first
      letter upper-cased; "Usuario" for a missing or empty address. */
  function NameFromEmail(email: Option<string>): (n: string)
    ensures email.None? || email.value == "" ==> n == DefaultName
    ensures email.Some? && email.value != "" ==>
      && |n| <= |email.value|
      && (forall k | 0 <= k < |n| :: email.value[k] != '@')
      && (|n| < |email.value| ==> email.value[|n|] == '@')
      && (|n| > 0 ==> n[0] == UpperChar(email.value[0]))
      && (forall k | 0 < k < |n| :: n[k] == email.value[k])
  {
    if email.None? || email.value == "" then DefaultName
    else
      var u := LocalPart(email.value);
      if u == "" then "" else [UpperChar(u[0])] + u[1..]
  }

  /** The derived name reads as the address's local part up to the case of
      its first letter. */
  lemma NameMatchesLocalPart(e: string)
    requires e != ""
    ensures Lower(NameFromEmail(Some(e))) == Lower(LocalPart(e))
  {
    var n := NameFromEmail(Some(e));
    var u := LocalPart(e);
    assert |n| == |u|;
    forall k | 0 <= k < |n| ensures LowerChar(n[k]) == LowerChar(u[k]) {
      if k == 0 {
        assert n[0] == UpperChar(u[0]);
      }
    }
  }

  // --------------------------------------------------------- initials

  /** `s[0] || ""`: the first character, if any. */
  function FirstChar(s: string): (c: string)
    ensures |c| == if s == "" then 0 else 1
    ensures s != "" ==> c[0] == s[0]
  {
    if s == "" then "" else s[..1]
  }

  /** `initialsFrom(name)` of the top bar: the first letters of the first
      and the last word, upper-cased; "US" when there are none. */
  function InitialsFrom(name: Option<string>): (r: string)
    ensures r != ""
    ensures name.None? || name.value == "" ==> r == "US"
  {
    if name.None? || name.value == "" then "US" else InitialsOfTrimmed(Trim(name.value))
  }

  /** `initialsFrom` once the name is trimmed and split. The last piece is
      never empty here, so `parts[parts.length - 1][0]` is a character. */
  function InitialsOfTrimmed(t: string): (r: string)
    requires NoEdgeSpace(t)
    ensures r != ""
  {
    var r := Upper(FirstChar(Fields(t)[0]) + LastInitial(t));
    if r == "" then "US" else r
  }

  /** `parts.length > 1 ? parts[parts.length - 1][0] : ""`. */
  function LastInitial(t: string): (c: string)
    requires NoEdgeSpace(t)
    ensures |c| <= 1
  {
    var parts := Fields(t);
    if |parts| > 1 then (LastField(t); [parts[|parts| - 1][0]]) else ""
  }

  /** The top-bar initials of a trimmed name with a word in it: the
      upper-cased first letter, followed, when there are two or more words,
      by the upper-cased first letter of the last word. */
  lemma InitialsOfWords(t: string)
    requires t != "" && NoEdgeSpace(t)
    ensures InitialsOfTrimmed(t)[0] == UpperChar(t[0])
    ensures !HasSpace(t) ==> |InitialsOfTrimmed(t)| == 1
    ensures HasSpace(t) ==>
      && WordStart(t, LastFrom(t, 0)) && (forall i | LastFrom(t, 0) < i < |t| :: !WordStart(t, i))
      && InitialsOfTrimmed(t) == [UpperChar(t[0]), UpperChar(t[LastFrom(t, 0)])]
  {
    if HasSpace(t) { InitialsOfManyWords(t); } else { InitialsOfOneWord(t); }
  }

  lemma InitialsOfOneWord(t: string)
    requires t != "" && NoEdgeSpace(t) && !HasSpace(t)
    ensures InitialsOfTrimmed(t) == [UpperChar(t[0])]
  {
    assert Fields(t) == [t];
    assert FirstChar(t) == [t[0]] && LastInitial(t) == "";
  }

  lemma InitialsOfManyWords(t: string)
    requires NoEdgeSpace(t) && HasSpace(t)
    ensures WordStart(t, LastFrom(t, 0)) && (forall i | LastFrom(t, 0) < i < |t| :: !WordStart(t, i))
    ensures InitialsOfTrimmed(t) == [UpperChar(t[0]), UpperChar(t[LastFrom(t, 0)])]
  {
    var j := LastPieceInitial(t);
    InitialsOfTwoLetters(t, j);
  }

  lemma InitialsOfTwoLetters(t: string, j: nat)
    requires t != "" && NoEdgeSpace(t) && j < |t| && LastInitial(t) == [t[j]]
    ensures InitialsOfTrimmed(t) == [UpperChar(t[0]), UpperChar(t[j])]
  {
    var first := FirstChar(Fields(t)[0]);
    assert SpaceFrom(t, 0) > 0;
    assert Fields(t)[0][0] == t[0];
    assert first + LastInitial(t) == [t[0], t[j]];
    UpperPair(t[0], t[j]);
  }

  /** The first letter of the last piece of a name with several words. */
  lemma LastPieceInitial(t: string) returns (j: nat)
    requires NoEdgeSpace(t) && HasSpace(t)
    ensures j == LastFrom(t, 0) && j < |t|
    ensures WordStart(t, j) && (forall i | j < i < |t| :: !WordStart(t, i))
    ensures LastInitial(t) == [t[j]]
  {
    LastField(t);
    j := LastFrom(t, 0);
    assert t[j..][0] == t[j];
  }

  /** A name made only of whitespace gets the placeholder "US". */
  lemma BlankNameInitials(name: string)
    requires AllSpace(name)
    ensures InitialsFrom(Some(name)) == "US"
  {
    if name != "" {
      assert !HasSpace("");
      assert Fields("") == [""];
    }
  }

  /** `initials(name)` of the dashboard: the first letters of the first and
      the SECOND word, or the first two letters of a single word,
      upper-cased; "US" only for an empty name. */
  function DashboardInitials(name: Option<string>): (r: string)
    ensures name.None? || name.value == "" ==> r == "US"
    ensures |r| <= 2
  {
    if name.None? || name.value == "" then "US" else DashboardOfTrimmed(Trim(name.value))
  }

  /** `initials` once the name is trimmed and split. */
  function DashboardOfTrimmed(t: string): (r: string)
    ensures |r| <= 2
  {
    var p := Fields(t);
    var a := FirstChar(p[0]);
    var b := if |p| > 1 && p[1] != "" then FirstChar(p[1]) else if |p[0]| > 1 then p[0][1..2] else "";
    Upper(a + b)
  }

  /** The dashboard initials of a trimmed name, by its words. */
  lemma DashboardOfWords(t: string)
    requires NoEdgeSpace(t)
    ensures t == "" ==> DashboardOfTrimmed(t) == ""
    ensures t != "" && !HasSpace(t) ==> DashboardOfTrimmed(t) == Upper(t[..if |t| < 2 then |t| else 2])
    ensures HasSpace(t) ==>
      && WordStart(t, WordFrom(t, SpaceFrom(t, 0)))
      && (forall i | 0 < i < WordFrom(t, SpaceFrom(t, 0)) :: !WordStart(t, i))
      && DashboardOfTrimmed(t) == [UpperChar(t[0]), UpperChar(t[WordFrom(t, SpaceFrom(t, 0))])]
  {
    if t == "" {
      assert !HasSpace(t);
    } else if !HasSpace(t) {
      DashboardOfOneWord(t);
    } else {
      SecondField(t);
      DashboardOfTwoLetters(t, WordFrom(t, SpaceFrom(t, 0)));
    }
  }

  lemma DashboardOfOneWord(t: string)
    requires t != "" && !HasSpace(t)
    ensures DashboardOfTrimmed(t) == Upper(t[..if |t| < 2 then |t| else 2])
  {
    assert Fields(t) == [t];
    if |t| >= 2 { assert t[..2] == t[..1] + t[1..2]; }
  }

  lemma DashboardOfTwoLetters(t: string, w: nat)
    requires t != "" && NoEdgeSpace(t) && w < |t|
    requires |Fields(t)| >= 2 && Fields(t)[1] != "" && Fields(t)[1][0] == t[w]
    ensures DashboardOfTrimmed(t) == [UpperChar(t[0]), UpperChar(t[w])]
  {
    var p := Fields(t);
    assert SpaceFrom(t, 0) > 0;
    assert p[0][0] == t[0];
    assert FirstChar(p[0]) + FirstChar(p[1]) == [t[0], t[w]];
    UpperPair(t[0], t[w]);
  }

  /** With exactly two pieces, the last piece is the second one. */
  lemma TwoFieldsLast(t: string)
    requires |Fields(t)| == 2
    ensures SpaceFrom(t, 0) < |t| && LastFrom(t, 0) == WordFrom(t, SpaceFrom(t, 0))
  {
    var k := SpaceFrom(t, 0);
    assert k < |t|;
    var w := WordFrom(t, k);
    assert Fields(t) == [t[..k]] + FieldsFrom(t, w);
    assert SpaceFrom(t, w) == |t|;
  }

  /** For a name of exactly two words both badges show the same initials. */
  lemma InitialsAgreeOnTwoWords(name: string)
    requires name != "" && |Fields(Trim(name))| == 2
    ensures InitialsFrom(Some(name)) == DashboardInitials(Some(name))
  {
    var t := Trim(name);
    assert HasSpace(t);
    TwoFieldsLast(t);
    InitialsOfManyWords(t);
    DashboardOfWords(t);
  }

  /** They disagree on a single word of two or more letters (one letter
      against two) and on a name made only of whitespace ("US" against ""). */
  lemma InitialsDisagree(word: string, blank: string)
    requires |word| >= 2 && !HasSpace(word)
    requires blank != "" && AllSpace(blank)
    ensures InitialsFrom(Some(word)) != DashboardInitials(Some(word))
    ensures InitialsFrom(Some(blank)) == "US" && DashboardInitials(Some(blank)) == ""
  {
    assert NoEdgeSpace(word);
    InitialsOfWords(word);
    DashboardOfWords(word);
    BlankNameInitials(blank);
    DashboardOfWords("");
  }

  // ------------------------------------------------------------ badges

  /** The name, address and avatar text a badge shows. */
  datatype Badge = Badge(name: string, email: string, avatar: string)

  /** The `sigma_user` entry of local storage: absent (or empty), not JSON
      (the exception is caught), or parsed; a parsed value that is not an
      object has no fields. */
  datatype Session = NoSession | Unparsable | Parsed(user: Option<StoredUser>)

  datatype StoredUser = StoredUser(name: Option<string>, email: Option<string>)

  const TopbarDefaultEmail := "correo@ejemplo.com"

  /** `hydrateTopbarSafe()`: the badge the top bar shows, or `None` when it
      is left as it is. */
  function TopbarBadge(s: Session): (b: Option<Badge>)
    ensures b.None? <==> s.NoSession? || s.Unparsable?
    ensures b.Some? ==> b.value.avatar == InitialsFrom(Some(b.value.name)) && b.value.email != ""
    ensures b.Some? && s.user.Some? && s.user.value.email.Some? && s.user.value.email.value != "" ==>
      b.value.email == s.user.value.email.value
    ensures b.Some? && s.user.Some? && s.user.value.name.Some? && s.user.value.name.value != "" ==>
      b.value.name == s.user.value.name.value
  {
    match s
    case Parsed(u) =>
      var e := if u.Some? && u.value.email.Some? && u.value.email.value != "" then u.value.email.value
               else TopbarDefaultEmail;
      var n := if u.Some? && u.value.name.Some? && u.value.name.value != "" then u.value.name.value
               else NameFromEmail(Some(e));
      Some(Badge(n, e, InitialsFrom(Some(n))))
    case _ => None
  }

  /** A word of ASCII letters is its own trimmed form and a single piece. */
  lemma LetterWord(w: string)
    requires w != "" && forall k | 0 <= k < |w| :: IsAsciiLetter(w[k])
    ensures NoEdgeSpace(w) && !HasSpace(w) && Trim(w) == w && Fields(w) == [w]
  {
    assert forall k | 0 <= k < |w| :: !IsSpace(w[k]);
  }

  /** A stored user without a name is named after the local part of their
      address. */
  lemma NamelessUserBadge(email: string)
    requires email != ""
    ensures Lower(TopbarBadge(Parsed(Some(StoredUser(None, Some(email))))).value.name) == Lower(LocalPart(email))
  {
    NameMatchesLocalPart(email);
  }

  /** Without name or address the top bar reads "Correo",
      "correo@ejemplo.com", "C". */
  lemma EmptyUserBadge()
    ensures TopbarBadge(Parsed(None)) == Some(Badge("Correo", TopbarDefaultEmail, "C"))
  {
    DefaultAddressName(TopbarDefaultEmail);
    CorreoInitial("Correo");
  }

  lemma DefaultAddressName(e: string)
    requires e == "correo@ejemplo.com"
    ensures NameFromEmail(Some(e)) == "Correo"
  {
    assert e[6] == '@';
    assert forall k | 0 <= k < 6 :: e[k] != '@';
    NameBeforeAt(e, 6);
    var n := [UpperChar(e[0])] + e[1..6];
    assert |n| == 6;
    assert forall k | 1 <= k < 6 :: n[k] == e[k];
    assert e[1] == 'o' && e[2] == 'r' && e[3] == 'r' && e[4] == 'e' && e[5] == 'o';
    assert n[0] == 'C' && n[1] == 'o' && n[2] == 'r' && n[3] == 'r' && n[4] == 'e' && n[5] == 'o';
    assert n == "Correo";
  }

  lemma CorreoInitial(w: string)
    requires w == "Correo"
    ensures InitialsFrom(Some(w)) == "C"
  {
    SingleWordInitial(w);
  }

  /** The derived name of an address whose first '@' is at `i > 0`. */
  lemma NameBeforeAt(e: string, i: nat)
    requires 0 < i < |e| && e[i] == '@' && forall k | 0 <= k < i :: e[k] != '@'
    ensures NameFromEmail(Some(e)) == [UpperChar(e[0])] + e[1..i]
  {
    var u := LocalPart(e);
    assert |u| == i;
  }

  /** A single word of ASCII letters has its upper-cased first letter as
      top-bar initials. */
  lemma SingleWordInitial(w: string)
    requires w != "" && forall k | 0 <= k < |w| :: IsAsciiLetter(w[k])
    ensures InitialsFrom(Some(w)) == [UpperChar(w[0])]
  {
    LetterWord(w);
    InitialsOfWords(w);
  }

  const DashboardDefaultEmail := "mail@example.com"

  /** The dashboard's badge for the `/api/auth/me` user. */
  function DashboardBadge(fullName: Option<string>, email: Option<string>): (b: Badge)
    ensures b.name != "" && b.email != ""
    ensures fullName.Some? && fullName.value != "" ==> b.name == fullName.value
    ensures email.Some? && email.value != "" ==> b.email == email.value
  {
    var n := if fullName.Some? && fullName.value != "" then fullName.value else DefaultName;
    var e := if email.Some? && email.value != "" then email.value else DashboardDefaultEmail;
    Badge(n, e, DashboardInitials(Some(if n != "" then n else e)))
  }

  /** `fullName || email` never reaches the address: the avatar depends on
      the name alone. */
  lemma DashboardAvatarIgnoresEmail(fullName: Option<string>, e1: Option<string>, e2: Option<string>)
    ensures DashboardBadge(fullName, e1).avatar == DashboardBadge(fullName, e2).avatar
  {
  }

  /** A user without a name shows "US", the initials of "Usuario". */
  lemma NamelessDashboardAvatar(email: Option<string>)
    ensures DashboardBadge(None, email).avatar == "US"
  {
    UsInitials(DefaultName);
  }

  lemma UsInitials(w: string)
    requires |w| >= 2 && w[..2] == "Us" && forall k | 0 <= k < |w| :: IsAsciiLetter(w[k])
    ensures DashboardInitials(Some(w)) == "US"
  {
    LetterWord(w);
    DashboardOfWords(w);
  }
}

=== FILE: well_form.dfy ===
/** The well form: one row of inputs per stage, prefilled from the well's
    stages when an existing well is edited, and the body it sends to
    POST /wells or PUT /wells/:id. Each row remembers the id of the stage it
    was filled from in a text attribute, so that saving updates that stage
    instead of adding a new one. */
module WellForm {
  import opened Optional
  import opened Text
  import opened Decimal
  import opened StageStore
  import opened WellPositions
  import opened Html

  /** A stage of GET /wells/:id as the form reads it; `id` is whatever JSON
      value the field holds. */
  datatype ShownStage = ShownStage(
    id: Option<Num>,
    name: Option<string>,
    pipe: Option<string>,
    drillTime: Option<real>,
    stageChange: Option<real>)

  /** One stage row: its `data-stage-id` attribute and its four inputs. */
  datatype Row = Row(stageId: string, name: string, pipe: string, drillTime: NumberInput, stageChange: NumberInput)

  /** `value="${x ?? ''}"` on a number input. */
  function NumberField(x: Option<real>): (v: NumberInput)
    ensures v.Empty? <==> x.None?
    ensures x.Some? ==> v.value == x.value
  {
    if x.Some? then Entered(x.value) else Empty
  }

  /** `stage.stage_name || ''` and `stage.pipe || ''`. */
  function StoredName(s: ShownStage): string { s.name.GetOr("") }
  function StoredPipe(s: ShownStage): string { s.pipe.GetOr("") }

  /** `rowTemplate(stage)`; `None` stands for the blank `{}`. The two text
      inputs are written into `innerHTML` as `value="${…}"` without
      escaping, so they hold what the browser parses back. */
  function RowTemplate(st: Option<ShownStage>): (row: Row)
    ensures row.stageId != "" <==> st.Some? && st.value.id.Some? && st.value.id.value.Int?
    ensures st.None? ==> row == Row("", "", "", Empty, Empty)
    ensures st.Some? ==> row.name == InputValue(StoredName(st.value)) && row.pipe == InputValue(StoredPipe(st.value))
    ensures st.Some? && Verbatim(StoredName(st.value)) ==> row.name == StoredName(st.value)
    ensures st.Some? && '"' in StoredName(st.value) ==> |row.name| < |StoredName(st.value)|
  {
    if st.None? then Row("", "", "", Empty, Empty)
    else
      var s := st.value;
      var id := if s.id.Some? && s.id.value.Int? then IntText(s.id.value.i) else "";
      VerbatimInputValue(StoredName(s));
      QuoteCutsInputValue(StoredName(s));
      Row(id, InputValue(StoredName(s)), InputValue(StoredPipe(s)), NumberField(s.drillTime), NumberField(s.stageChange))
  }

  /** `rowTemplate` as it should be: the texts escaped before they are
      spliced into the markup. */
  function RowTemplateEscaped(st: Option<ShownStage>): (row: Row)
    ensures st.None? ==> row == RowTemplate(st)
    ensures st.Some? ==> row == RowTemplate(st).(name := InputValue(Escape(StoredName(st.value))),
                                                 pipe := InputValue(Escape(StoredPipe(st.value))))
  {
    if st.None? then Row("", "", "", Empty, Empty)
    else
      var s := st.value;
      var id := if s.id.Some? && s.id.value.Int? then IntText(s.id.value.i) else "";
      Row(id, InputValue(Escape(StoredName(s))), InputValue(Escape(StoredPipe(s))), NumberField(s.drillTime), NumberField(s.stageChange))
  }

  /** `renderStageRows(n)`: `n` rows, the first ones filled from the existing
      stages in order, the rest blank; no row for a count below one. */
  function RenderRows(existing: seq<ShownStage>, n: int): (rows: seq<Row>)
    ensures |rows| == if n > 0 then n else 0
    ensures forall i | 0 <= i < |rows| && i < |existing| :: rows[i] == RowTemplate(Some(existing[i]))
    ensures forall i | |existing| <= i < |rows| :: rows[i] == Row("", "", "", Empty, Empty)
    decreases n
  {
    if n <= 0 then []
    else
      var prev := RenderRows(existing, n - 1);
      var last := if n - 1 < |existing| then RowTemplate(Some(existing[n - 1])) else Row("", "", "", Empty, Empty);
      assert last == RowTemplate(if n - 1 < |existing| then Some(existing[n - 1]) else None);
      RenderStep(prev, last, existing, n);
      prev + [last]
  }

  lemma RenderStep(prev: seq<Row>, last: Row, existing: seq<ShownStage>, n: int)
    requires n > 0 && |prev| == n - 1
    requires forall i | 0 <= i < |prev| && i < |existing| :: prev[i] == RowTemplate(Some(existing[i]))
    requires forall i | |existing| <= i < |prev| :: prev[i] == Row("", "", "", Empty, Empty)
    requires n - 1 < |existing| ==> last == RowTemplate(Some(existing[n - 1]))
    requires n - 1 >= |existing| ==> last == Row("", "", "", Empty, Empty)
    ensures forall i | 0 <= i < n && i < |existing| :: (prev + [last])[i] == RowTemplate(Some(existing[i]))
    ensures forall i | |existing| <= i < n :: (prev + [last])[i] == Row("", "", "", Empty, Empty)
  {
    var rows := prev + [last];
    forall i | 0 <= i < n && i < |existing| ensures rows[i] == RowTemplate(Some(existing[i])) {
      if i < n - 1 { assert rows[i] == prev[i]; } else { assert rows[i] == last; }
    }
    forall i | |existing| <= i < n ensures rows[i] == Row("", "", "", Empty, Empty) {
      if i < n - 1 { assert rows[i] == prev[i]; } else { assert rows[i] == last; }
    }
  }

  /** `Math.max(Number(numSel.value || 1), existingStages.length || 1)`;
      `selected` is `None` when the select's value is empty. */
  function SuggestedCount(selected: Option<int>, existing: nat): (n: int)
    ensures n >= existing && n >= 1
    ensures n >= selected.GetOr(1)
    ensures n == selected.GetOr(1) || n == (if existing == 0 then 1 else existing)
  {
    var a := selected.GetOr(1);
    var b := if existing == 0 then 1 else existing;
    if a >= b then a else b
  }

  /** `hydrateIfEditing()` once GET /wells/:id has answered: the suggested
      count and the rows; `stages` is `None` when the answer's `stages` is
      not an array. */
  function Hydrate(selected: Option<int>, stages: Option<seq<ShownStage>>): (r: (int, seq<Row>))
    ensures r.0 >= |stages.GetOr([])| && |r.1| == r.0
    ensures forall i | 0 <= i < |stages.GetOr([])| :: r.1[i] == RowTemplate(Some(stages.GetOr([])[i]))
    ensures forall i | |stages.GetOr([])| <= i < r.0 :: r.1[i] == Row("", "", "", Empty, Empty)
  {
    var existing := stages.GetOr([]);
    var n := SuggestedCount(selected, |existing|);
    (n, RenderRows(existing, n))
  }

  // ------------------------------------------------------------------ saving

  /** One element of the body's `stages`. */
  datatype PayloadStage = PayloadStage(
    name: string,
    pipe: string,
    drillTime: Option<real>,
    stageChange: Option<real>,
    id: Option<int>)

  /** The JSON body of the save. `stagesCount` is `None` when `parseInt`
      yields NaN (serialised as null). */
  datatype Payload = Payload(
    kind: string,
    team: string,
    name: string,
    startDate: Option<string>,
    stagesCount: Option<int>,
    stages: seq<PayloadStage>)

  /** What the inputs hold when "Guardar" is clicked. */
  datatype Form = Form(
    kind: string,
    team: string,
    name: string,
    startDate: string,
    selected: Option<int>,
    rows: seq<Row>)

  /** `drill_time ? Number(drill_time) : null`. */
  function NumberOrNull(v: NumberInput): (x: Option<real>)
    ensures x.None? <==> v.Empty?
    ensures v.Entered? ==> x == Some(v.value)
  {
    if v.Entered? then Some(v.value) else None
  }

  /** The row's part of the body: `id` is sent only when the row carries a
      stage id (`if (idAttr) data.id = Number(idAttr)`). */
  function RowPayload(row: Row): (p: PayloadStage)
    ensures row.stageId == "" ==> p.id.None?
    ensures p.name == row.name && p.pipe == row.pipe
    ensures p.drillTime == NumberOrNull(row.drillTime) && p.stageChange == NumberOrNull(row.stageChange)
  {
    PayloadStage(row.name, row.pipe, NumberOrNull(row.drillTime), NumberOrNull(row.stageChange),
                 if row.stageId != "" then DecimalValue(row.stageId) else None)
  }

  function BuildPayload(f: Form): (p: Payload)
    ensures |p.stages| == |f.rows|
    ensures forall i | 0 <= i < |f.rows| :: p.stages[i] == RowPayload(f.rows[i])
    ensures p.name == Trim(f.name) && p.team == Trim(f.team)
    ensures p.startDate.None? <==> f.startDate == ""
  {
    Payload(f.kind, Trim(f.team), Trim(f.name), if f.startDate != "" then Some(f.startDate) else None,
            f.selected, seq(|f.rows|, i requires 0 <= i < |f.rows| => RowPayload(f.rows[i])))
  }

  datatype Request = Put(wellId: string, body: Payload) | Post(body: Payload)

  /** The click handler up to its request: an alert, or the request sent. */
  datatype SaveOutcome = Rejected(message: string) | Sent(request: Request)

  const NameRequired := "Nombre es requerido"

  /** `editingId` is `qs('id')`: `None` when the page has no `id` parameter. */
  function Save(editingId: Option<string>, f: Form): (r: SaveOutcome)
    ensures r.Rejected? <==> AllSpace(f.name)
    ensures r.Rejected? ==> r.message == NameRequired
    ensures r.Sent? ==> r.request.body == BuildPayload(f) && r.request.body.name != ""
    ensures r.Sent? ==> (r.request.Put? <==> editingId.Some? && editingId.value != "")
    ensures r.Sent? && r.request.Put? ==> r.request.wellId == editingId.value
  {
    var p := BuildPayload(f);
    if p.name == "" then Rejected(NameRequired)
    else if editingId.Some? && editingId.value != "" then Sent(Put(editingId.value, p))
    else Sent(Post(p))
  }

  // -------------------------------------------------------------- properties

  /** The stage id survives the round trip through the row's text attribute:
      a row rendered from a stage with an integer id sends that id, any other
      row sends none. */
  lemma RowKeepsStageId(st: Option<ShownStage>)
    ensures RowPayload(RowTemplate(st)).id ==
      if st.Some? && st.value.id.Some? && st.value.id.value.Int? then Some(st.value.id.value.i) else None
  {
    if st.Some? && st.value.id.Some? && st.value.id.value.Int? {
      IntTextRoundTrip(st.value.id.value.i);
    }
  }

  /** `p` is what the form sends back for the existing stage `s`: its
      integer id (if it has one), its numbers, and its texts as the text
      inputs read them back. */
  predicate SentBack(s: ShownStage, p: PayloadStage) {
    && p.id == (if s.id.Some? && s.id.value.Int? then Some(s.id.value.i) else None)
    && p.name == InputValue(StoredName(s)) && p.pipe == InputValue(StoredPipe(s))
    && p.drillTime == s.drillTime && p.stageChange == s.stageChange
  }

  /** What reaches the input is the stored text exactly when no character
      of it is altered on the way; a text with a `"` never does. */
  lemma SentBackTexts(s: ShownStage, p: PayloadStage)
    requires SentBack(s, p)
    ensures Verbatim(StoredName(s)) ==> p.name == StoredName(s)
    ensures Verbatim(StoredPipe(s)) ==> p.pipe == StoredPipe(s)
    ensures '"' in StoredName(s) ==> p.name != StoredName(s)
    ensures '"' in StoredPipe(s) ==> p.pipe != StoredPipe(s)
  {
    VerbatimInputValue(StoredName(s));
    VerbatimInputValue(StoredPipe(s));
    QuoteCutsInputValue(StoredName(s));
    QuoteCutsInputValue(StoredPipe(s));
  }

  /** What a blank row sends. */
  const BlankPayload := PayloadStage("", "", None, None, None)

  /** Saving the form as hydrated sends every existing stage back, in order,
      with its integer id, its numbers and its texts as the inputs read them,
      followed by blank new stages without an id. A text without `"`, `&`,
      NUL or line breaks goes back unchanged; a text with a `"` goes back
      cut short, and the PUT then overwrites the stored one with it. */
  lemma UneditedSaveKeepsStages(editingId: string, f: Form, selected: Option<int>, stages: Option<seq<ShownStage>>)
    requires editingId != "" && !AllSpace(f.name)
    requires f.rows == Hydrate(selected, stages).1
    ensures Save(Some(editingId), f).Sent? && Save(Some(editingId), f).request == Put(editingId, BuildPayload(f))
    ensures |BuildPayload(f).stages| >= |stages.GetOr([])|
    ensures forall i | 0 <= i < |stages.GetOr([])| :: SentBack(stages.GetOr([])[i], BuildPayload(f).stages[i])
    ensures forall i | 0 <= i < |stages.GetOr([])| && Verbatim(StoredName(stages.GetOr([])[i])) ::
      BuildPayload(f).stages[i].name == StoredName(stages.GetOr([])[i])
    ensures forall i | 0 <= i < |stages.GetOr([])| && Verbatim(StoredPipe(stages.GetOr([])[i])) ::
      BuildPayload(f).stages[i].pipe == StoredPipe(stages.GetOr([])[i])
    ensures forall i | 0 <= i < |stages.GetOr([])| && '"' in StoredPipe(stages.GetOr([])[i]) ::
      BuildPayload(f).stages[i].pipe != StoredPipe(stages.GetOr([])[i])
    ensures forall i | |stages.GetOr([])| <= i < |BuildPayload(f).stages| :: BuildPayload(f).stages[i] == BlankPayload
  {
    var existing := stages.GetOr([]);
    HydratedRowsSendBack(existing, f);
    var ps := BuildPayload(f).stages;
    forall i | 0 <= i < |existing| ensures
      && (Verbatim(StoredName(existing[i])) ==> ps[i].name == StoredName(existing[i]))
      && (Verbatim(StoredPipe(existing[i])) ==> ps[i].pipe == StoredPipe(existing[i]))
      && ('"' in StoredPipe(existing[i]) ==> ps[i].pipe != StoredPipe(existing[i]))
    {
      SentBackTexts(existing[i], ps[i]);
    }
    SaveSendsPut(editingId, f);
  }

  /** The corrected row sends every existing stage back exactly: its id, its
      numbers and its texts, whatever characters they hold (a text input
      holds no NUL or line break in any case). */
  lemma EscapedRowSentBack(s: ShownStage)
    requires '\0' !in StoredName(s) && '\r' !in StoredName(s) && '\n' !in StoredName(s)
    requires '\0' !in StoredPipe(s) && '\r' !in StoredPipe(s) && '\n' !in StoredPipe(s)
    ensures RowPayload(RowTemplateEscaped(Some(s))).name == StoredName(s)
    ensures RowPayload(RowTemplateEscaped(Some(s))).pipe == StoredPipe(s)
    ensures RowPayload(RowTemplateEscaped(Some(s))).id == RowPayload(RowTemplate(Some(s))).id
    ensures RowPayload(RowTemplateEscaped(Some(s))).drillTime == s.drillTime
    ensures RowPayload(RowTemplateEscaped(Some(s))).stageChange == s.stageChange
  {
    EscapedInputValue(StoredName(s));
    EscapedInputValue(StoredPipe(s));
  }

  lemma SaveSendsPut(editingId: string, f: Form)
    requires editingId != "" && !AllSpace(f.name)
    ensures Save(Some(editingId), f) == Sent(Put(editingId, BuildPayload(f)))
  {
    var r := Save(Some(editingId), f);
    assert r.Sent? && r.request.Put?;
  }

  lemma HydratedRowsSendBack(existing: seq<ShownStage>, f: Form)
    requires |f.rows| >= |existing|
    requires forall i | 0 <= i < |existing| :: f.rows[i] == RowTemplate(Some(existing[i]))
    requires forall i | |existing| <= i < |f.rows| :: f.rows[i] == Row("", "", "", Empty, Empty)
    ensures |BuildPayload(f).stages| >= |existing|
    ensures forall i | 0 <= i < |existing| :: SentBack(existing[i], BuildPayload(f).stages[i])
    ensures forall i | |existing| <= i < |BuildPayload(f).stages| :: BuildPayload(f).stages[i] == BlankPayload
  {
    var ps := BuildPayload(f).stages;
    forall i | 0 <= i < |existing| ensures SentBack(existing[i], ps[i]) {
      RowSentBack(existing[i]);
    }
    forall i | |existing| <= i < |ps| ensures ps[i] == BlankPayload {
      assert ps[i] == RowPayload(f.rows[i]);
    }
  }

  /** A row rendered from an existing stage sends that stage back. */
  lemma RowSentBack(s: ShownStage)
    ensures SentBack(s, RowPayload(RowTemplate(Some(s))))
  {
    RowKeepsStageId(Some(s));
  }

  /** The element of `stages` PUT /wells/:id receives for one payload stage:
      the form never sends `progress`, `position` or `order_index`. */
  function ServerInput(p: PayloadStage): (st: StageInput)
    ensures st.id == p.id && DesiredOrder(st).None?
  {
    StageInput(p.id, Some(p.name), Some(p.pipe), p.drillTime, p.stageChange, None, Undefined, Undefined)
  }

  function ServerInputs(p: Payload): (sts: seq<StageInput>)
    ensures |sts| == |p.stages|
    ensures forall i | 0 <= i < |sts| :: sts[i] == ServerInput(p.stages[i])
  {
    seq(|p.stages|, i requires 0 <= i < |p.stages| => ServerInput(p.stages[i]))
  }

  /** Saving from the form never moves a stage: when PUT /wells/:id commits
      the form's body, every stage keeps its `order_index`. */
  lemma {:induction false} FormSaveKeepsOrder(f: Form, s: Store, w: int, nextId: int, fault: bool)
    requires forall id | id in s :: id < nextId
    ensures var r := UpsertWell(s, w, nextId, ServerInputs(BuildPayload(f)), fault);
      r.status.Ok? ==> forall id | id in s :: r.store[id].orderIndex == s[id].orderIndex
  {
    var sts := ServerInputs(BuildPayload(f));
    forall id | id in s ensures NoPositionFor(sts, id) {
      forall i | 0 <= i < |sts| ensures DesiredOrder(sts[i]).None? {
        assert sts[i] == ServerInput(BuildPayload(f).stages[i]);
      }
    }
  }
}

=== FILE: well_list.dfy ===
/** The ORDER BY clause of GET /wells: the `sort` query parameter is looked
    up in a whitelist of columns, `order` picks the direction. */
module WellList {
  import opened Optional
  import opened Text
  import opened JsObject

  /** `sortMap`: the sortable columns by query name. */
  const SortColumns: map<string, string> := map[
    "id" := "w.id",
    "team" := "w.team",
    "name" := "w.name",
    "start_date" := "w.start_date",
    "stages_count" := "w.stages_count"]

  const DefaultColumn := "w.id"

  /** What `sortMap[sort]` evaluates to. */
  datatype Lookup = Own(column: string) | Inherited(key: string) | Missing

  function LookupSort(sort: string): (l: Lookup)
    ensures l.Own? <==> sort in SortColumns
    ensures l.Inherited? <==> sort in InheritedKeys
  {
    if sort in SortColumns then Own(SortColumns[sort])
    else if sort in InheritedKeys then Inherited(sort)
    else Missing
  }

  /** The ordering GET /wells asks for: a column and ASC or DESC (the
      tie-break `w.id DESC` follows it in every case). */
  datatype OrderBy = OrderBy(column: string, ascending: bool)

  /** `sort = "id"` and `order = "desc"` when the parameter is absent. */
  function SortParam(sort: Option<string>): string { sort.GetOr("id") }

  /** `(order || "desc").toLowerCase() === "asc"`. */
  function Ascending(order: Option<string>): (asc: bool)
    ensures asc <==> order.Some? && Lower(order.value) == "asc"
  {
    var o := if order.Some? && order.value != "" then order.value else "desc";
    Lower(o) == "asc"
  }

  /** The route as written: `sortMap[sort] || sortMap.id`. An inherited
      property is truthy, so it is kept and interpolated into the SQL as
      function or object text, which Postgres rejects: `None` is the 500
      response. */
  function WellsOrderAsWritten(sort: Option<string>, order: Option<string>): (r: Option<OrderBy>)
    ensures r.None? <==> SortParam(sort) in InheritedKeys
  {
    match LookupSort(SortParam(sort))
    case Own(c) => Some(OrderBy(c, Ascending(order)))
    case Missing => Some(OrderBy(DefaultColumn, Ascending(order)))
    case Inherited(_) => None
  }

  /** `?sort=toString` makes GET /wells fail with 500 instead of falling back
      to `w.id`. */
  lemma InheritedSortKeyFails()
    ensures WellsOrderAsWritten(Some("toString"), None).None?
    ensures WellsOrderAsWritten(Some("constructor"), Some("asc")).None?
  {
  }

  /** The whitelist as intended: only the table's own entries count, and
      anything else sorts by id. */
  function SortColumn(sort: string): (c: string)
    ensures c in SortColumns.Values
    ensures sort in SortColumns ==> c == SortColumns[sort]
    ensures sort !in SortColumns ==> c == DefaultColumn
  {
    if sort in SortColumns then SortColumns[sort]
    else
      assert SortColumns["id"] == DefaultColumn;
      DefaultColumn
  }

  /** The corrected route: it always yields a whitelisted column. */
  function WellsOrder(sort: Option<string>, order: Option<string>): (r: OrderBy)
    ensures r.column in SortColumns.Values
    ensures r.ascending <==> order.Some? && Lower(order.value) == "asc"
  {
    OrderBy(SortColumn(SortParam(sort)), Ascending(order))
  }

  /** The correction changes nothing for a `sort` that is not an inherited
      property name. */
  lemma CorrectedAgreesElsewhere(sort: Option<string>, order: Option<string>)
    requires SortParam(sort) !in InheritedKeys
    ensures WellsOrderAsWritten(sort, order) == Some(WellsOrder(sort, order))
  {
  }

  /** Only the literal "asc", in any ASCII case, sorts ascending; an absent or
      empty `order` sorts descending. */
  lemma {:induction false} AscendingCases()
    ensures Ascending(Some("ASC")) && Ascending(Some("aSc"))
    ensures !Ascending(None) && !Ascending(Some("")) && !Ascending(Some("ascending"))
  {
    assert Lower("ASC") == "asc";
    assert Lower("aSc") == "asc";
    assert |Lower("ascending")| == 9;
  }
}

=== FILE: well_matrix.dfy ===
/** The wells matrix page: the file name one well's planning workbook is
    saved under, the queries of the two export requests, and the progress
    column of the wells table. */
module WellMatrix {
  import opened Optional
  import opened Text
  import opened Decimal
  import opened Query
  import opened StageStore
  import opened WellProgress

  // ------------------------------------------------------------ safe name

  /** A combining diacritical mark, U+0300 to U+036F. */
  predicate IsMark(c: char) { '\U{300}' <= c <= '\U{36F}' }

  /** The class `[\w\-]`: what a safe name is made of. */
  predicate SafeChar(c: char) { IsWordChar(c) || c == '-' }

  predicate AllSafe(s: string) { forall k | 0 <= k < |s| :: SafeChar(s[k]) }

  predicate NoDoubleUnderscore(s: string) {
    forall k | 0 <= k < |s| - 1 :: !(s[k] == '_' && s[k + 1] == '_')
  }

  predicate NoEdgeUnderscore(s: string) { |s| == 0 || (s[0] != '_' && s[|s| - 1] != '_') }

  /** The `slice(0, 50)` bound on a safe name. */
  const MaxNameLength := 50

  /** `replace(/[\u0300-\u036f]/g, '')`: deletes the combining marks. */
  function StripMarks(s: string): (r: string)
    ensures |r| <= |s|
    ensures forall k | 0 <= k < |r| :: !IsMark(r[k])
    ensures (forall k | 0 <= k < |s| :: !SafeChar(s[k])) ==> forall k | 0 <= k < |r| :: !SafeChar(r[k])
    ensures (forall k | 0 <= k < |s| :: !IsMark(s[k])) ==> r == s
  {
    if |s| == 0 then ""
    else if IsMark(s[0]) then StripMarks(s[1..])
    else [s[0]] + StripMarks(s[1..])
  }

  /** The removal deletes nothing but marks: every other character occurs
      in the result exactly as often as in the name. */
  lemma {:induction false} StripMarksKeepsOthers(s: string, c: char)
    requires !IsMark(c)
    ensures multiset(StripMarks(s))[c] == multiset(s)[c]
    decreases |s|
  {
    if |s| > 0 {
      StripMarksKeepsOthers(s[1..], c);
      assert s == [s[0]] + s[1..];
    }
  }

  /** Marks are removed one character at a time, keeping the order of the
      rest: stripping a concatenation strips each part. */
  lemma {:induction false} StripMarksAppend(a: string, b: string)
    ensures StripMarks(a + b) == StripMarks(a) + StripMarks(b)
    decreases |a|
  {
    if |a| > 0 {
      assert (a + b)[0] == a[0] && (a + b)[1..] == a[1..] + b;
      StripMarksAppend(a[1..], b);
    } else {
      assert a + b == b;
    }
  }

  /** A single character is kept exactly when it is not a mark. */
  lemma StripMarksOne(c: char)
    ensures StripMarks([c]) == (if IsMark(c) then "" else [c])
  {
    assert [c][1..] == "";
  }

  /** Skips a leading run of characters outside `[\w\-]`. */
  function DropUnsafe(s: string): (r: string)
    ensures |r| <= |s| && r == s[|s| - |r|..]
    ensures |r| == 0 || SafeChar(r[0])
  {
    if |s| > 0 && !SafeChar(s[0]) then DropUnsafe(s[1..]) else s
  }

  /** `replace(/[^\w\-]+/g, '_')`: each maximal run of other characters
      becomes one underscore. */
  function ReplaceUnsafe(s: string): (r: string)
    ensures |r| <= |s|
    ensures AllSafe(r)
    ensures AllSafe(s) ==> r == s
    ensures |s| > 0 && (forall k | 0 <= k < |s| :: !SafeChar(s[k])) ==> r == "_"
    decreases |s|
  {
    if |s| == 0 then ""
    else if SafeChar(s[0]) then [s[0]] + ReplaceUnsafe(s[1..])
    else
      assert (forall k | 0 <= k < |s| :: !SafeChar(s[k])) ==> DropUnsafe(s[1..]) == "";
      "_" + ReplaceUnsafe(DropUnsafe(s[1..]))
  }

  /** Skips a leading run of underscores. */
  function DropUnderscores(s: string): (r: string)
    ensures |r| <= |s| && r == s[|s| - |r|..]
    ensures forall k | 0 <= k < |s| - |r| :: s[k] == '_'
    ensures |r| == 0 || r[0] != '_'
  {
    if |s| > 0 && s[0] == '_' then DropUnderscores(s[1..]) else s
  }

  /** Drops a trailing run of underscores. */
  function DropTrailingUnderscores(s: string): (r: string)
    ensures |r| <= |s| && r == s[..|r|]
    ensures forall k | |r| <= k < |s| :: s[k] == '_'
    ensures |r| == 0 || r[|r| - 1] != '_'
  {
    if |s| > 0 && s[|s| - 1] == '_' then DropTrailingUnderscores(s[..|s| - 1]) else s
  }

  /** `replace(/_+/g, '_')`: each run of underscores becomes one. */
  function Squash(s: string): (r: string)
    ensures |r| <= |s|
    ensures |r| > 0 <==> |s| > 0
    ensures |r| > 0 ==> r[0] == s[0]
    ensures NoDoubleUnderscore(r)
    ensures AllSafe(s) ==> AllSafe(r)
    ensures NoDoubleUnderscore(s) ==> r == s
    decreases |s|
  {
    if |s| == 0 then ""
    else if s[0] == '_' then
      var t := DropUnderscores(s[1..]);
      UnderscoreRun(s, t);
      SquashUnderscoreStep(s, t, Squash(t));
      "_" + Squash(t)
    else
      SquashCharStep(s, Squash(s[1..]));
      [s[0]] + Squash(s[1..])
  }

  /** A leading `_` and the run of underscores after it, seen from `s`. */
  lemma UnderscoreRun(s: string, t: string)
    requires |s| > 0 && t == DropUnderscores(s[1..])
    ensures |t| < |s| && t == s[|s| - |t|..]
    ensures forall k | 1 <= k < |s| - |t| :: s[k] == '_'
    ensures |t| == 0 || t[0] != '_'
  {
    var u := s[1..];
    assert t == u[|u| - |t|..];
    forall k | 1 <= k < |s| - |t| ensures s[k] == '_' {
      assert u[k - 1] == s[k];
    }
  }

  /** The contract of `Squash` carries over a leading run of underscores. */
  lemma SquashUnderscoreStep(s: string, t: string, q: string)
    requires |s| > 0 && s[0] == '_' && |t| < |s| && t == s[|s| - |t|..]
    requires forall k | 1 <= k < |s| - |t| :: s[k] == '_'
    requires |t| == 0 || t[0] != '_'
    requires |q| <= |t| && (|q| > 0 <==> |t| > 0) && (|q| > 0 ==> q[0] == t[0])
    requires NoDoubleUnderscore(q) && (AllSafe(t) ==> AllSafe(q)) && (NoDoubleUnderscore(t) ==> q == t)
    ensures |"_" + q| <= |s| && ("_" + q)[0] == s[0]
    ensures NoDoubleUnderscore("_" + q)
    ensures AllSafe(s) ==> AllSafe("_" + q)
    ensures NoDoubleUnderscore(s) ==> "_" + q == s
  {
    var r := "_" + q;
    assert |q| == 0 || q[0] != '_';
    ConsNoDouble('_', q);
    if AllSafe(s) {
      assert forall k | 0 <= k < |t| :: t[k] == s[|s| - |t| + k];
      assert AllSafe(t);
      assert SafeChar('_') by { assert SafeChar(s[0]); }
      assert forall k | 1 <= k < |r| :: r[k] == q[k - 1];
    }
    if NoDoubleUnderscore(s) {
      if |s| > 1 { assert s[1] != '_'; }
      assert t == s[1..];
      NoDoubleTail(s);
      assert r == [s[0]] + s[1..];
    }
  }

  /** The contract of `Squash` carries over a leading character other than `_`. */
  lemma SquashCharStep(s: string, q: string)
    requires |s| > 0 && s[0] != '_'
    requires |q| <= |s| - 1 && (|q| > 0 <==> |s| > 1) && (|q| > 0 ==> q[0] == s[1])
    requires NoDoubleUnderscore(q) && (AllSafe(s[1..]) ==> AllSafe(q)) && (NoDoubleUnderscore(s[1..]) ==> q == s[1..])
    ensures NoDoubleUnderscore([s[0]] + q)
    ensures AllSafe(s) ==> AllSafe([s[0]] + q)
    ensures NoDoubleUnderscore(s) ==> [s[0]] + q == s
  {
    var r := [s[0]] + q;
    ConsNoDouble(s[0], q);
    if AllSafe(s) {
      assert AllSafe(s[1..]) by { assert forall k | 0 <= k < |s| - 1 :: s[1..][k] == s[k + 1]; }
      assert forall k | 1 <= k < |r| :: r[k] == q[k - 1];
    }
    if NoDoubleUnderscore(s) {
      NoDoubleTail(s);
      assert r == [s[0]] + s[1..];
    }
  }

  lemma ConsNoDouble(c: char, q: string)
    requires NoDoubleUnderscore(q) && (c != '_' || |q| == 0 || q[0] != '_')
    ensures NoDoubleUnderscore([c] + q)
  {
    var r := [c] + q;
    forall k | 0 <= k < |r| - 1 ensures !(r[k] == '_' && r[k + 1] == '_') {
      if k > 0 { assert r[k] == q[k - 1] && r[k + 1] == q[k]; }
    }
  }

  lemma NoDoubleTail(s: string)
    requires |s| > 0 && NoDoubleUnderscore(s)
    ensures NoDoubleUnderscore(s[1..])
  {
    var t := s[1..];
    forall k | 0 <= k < |t| - 1 ensures !(t[k] == '_' && t[k + 1] == '_') {
      assert t[k] == s[k + 1] && t[k + 1] == s[k + 2];
    }
  }

  /** `replace(/^_+|_+$/g, '')`: drops the underscores at both ends. */
  function TrimUnderscores(s: string): (r: string)
    ensures NoEdgeUnderscore(r)
    ensures NoEdgeUnderscore(s) ==> r == s
    ensures AllSafe(s) ==> AllSafe(r)
    ensures NoDoubleUnderscore(s) ==> NoDoubleUnderscore(r)
    ensures s == "_" ==> r == ""
  {
    TrimUnderscoresOf(s);
    DropTrailingUnderscores(DropUnderscores(s))
  }

  lemma TrimUnderscoresOf(s: string)
    ensures var r := DropTrailingUnderscores(DropUnderscores(s));
      && NoEdgeUnderscore(r)
      && (NoEdgeUnderscore(s) ==> r == s)
      && (AllSafe(s) ==> AllSafe(r))
      && (NoDoubleUnderscore(s) ==> NoDoubleUnderscore(r))
      && (s == "_" ==> r == "")
  {
    var a := DropUnderscores(s);
    TrimUnderscoresStep(s, a, DropTrailingUnderscores(a));
  }

  /** A middle slice that stops before the underscores at both ends of `s`. */
  lemma TrimUnderscoresStep(s: string, a: string, r: string)
    requires |a| <= |s| && a == s[|s| - |a|..] && (forall k | 0 <= k < |s| - |a| :: s[k] == '_')
    requires |a| == 0 || a[0] != '_'
    requires |r| <= |a| && r == a[..|r|] && (forall k | |r| <= k < |a| :: a[k] == '_')
    requires |r| == 0 || r[|r| - 1] != '_'
    ensures NoEdgeUnderscore(r)
    ensures NoEdgeUnderscore(s) ==> r == s
    ensures AllSafe(s) ==> AllSafe(r)
    ensures NoDoubleUnderscore(s) ==> NoDoubleUnderscore(r)
    ensures s == "_" ==> r == ""
  {
    var d := |s| - |a|;
    assert |r| > 0 ==> r[0] == a[0];
    if NoEdgeUnderscore(s) && |s| > 0 {
      assert s[0] != '_';
      assert a == s;
      assert a[|a| - 1] != '_';
    }
    if AllSafe(s) {
      forall k | 0 <= k < |r| ensures SafeChar(r[k]) {
        assert r[k] == s[d + k];
      }
    }
    if NoDoubleUnderscore(s) {
      forall k | 0 <= k < |r| - 1 ensures !(r[k] == '_' && r[k + 1] == '_') {
        assert r[k] == s[d + k] && r[k + 1] == s[d + k + 1];
      }
    }
  }

  /** `String(w.name || 'pozo')` after `normalize('NFD')`: the decomposed name,
      or "pozo" when the well has none. */
  function NameOrDefault(decomposed: Option<string>): string {
    if decomposed.Some? && decomposed.value != "" then decomposed.value else "pozo"
  }

  /** The replacement chain of `safeName`, before the cut. */
  function Sanitise(n: string): (t: string)
    ensures AllSafe(t) && NoDoubleUnderscore(t) && NoEdgeUnderscore(t)
  {
    TrimUnderscores(Squash(ReplaceUnsafe(StripMarks(n))))
  }

  /** `safeName` of a well whose name, after NFD decomposition, is
      `decomposed`. */
  function SafeName(decomposed: Option<string>): (r: string)
    ensures |r| <= MaxNameLength
    ensures AllSafe(r) && NoDoubleUnderscore(r)
    ensures |r| > 0 ==> r[0] != '_'
    ensures |r| > 0 && r[|r| - 1] == '_' ==> |r| == MaxNameLength
  {
    var t := Sanitise(NameOrDefault(decomposed));
    if |t| <= MaxNameLength then t
    else
      PrefixStaysSafe(t, MaxNameLength);
      t[..MaxNameLength]
  }

  /** A prefix of a safe, underscore-squashed name is one too. */
  lemma PrefixStaysSafe(t: string, n: nat)
    requires n <= |t| && AllSafe(t) && NoDoubleUnderscore(t) && NoEdgeUnderscore(t)
    ensures AllSafe(t[..n]) && NoDoubleUnderscore(t[..n])
    ensures n > 0 ==> t[..n][0] != '_'
  {
    assert forall k | 0 <= k < n :: t[..n][k] == t[k];
  }

  /** What `safeName` leaves untouched. */
  predicate Clean(s: string) {
    s != "" && |s| <= MaxNameLength && AllSafe(s) && NoDoubleUnderscore(s) && NoEdgeUnderscore(s)
  }

  /** A name that is already safe is its own safe name. */
  lemma CleanNameUnchanged(s: string)
    requires Clean(s)
    ensures SafeName(Some(s)) == s
  {
    assert forall k | 0 <= k < |s| :: !IsMark(s[k]) by {
      forall k | 0 <= k < |s| ensures !IsMark(s[k]) { assert SafeChar(s[k]); }
    }
  }

  /** `safeName` is idempotent unless the 50-character cut left an underscore
      at the end or nothing survived. */
  lemma SafeNameIdempotent(decomposed: Option<string>)
    requires SafeName(decomposed) != ""
    requires SafeName(decomposed)[|SafeName(decomposed)| - 1] != '_'
    ensures SafeName(Some(SafeName(decomposed))) == SafeName(decomposed)
  {
    CleanNameUnchanged(SafeName(decomposed));
  }

  /** A well without a name is saved as "pozo". */
  lemma UnnamedWellIsPozo()
    ensures SafeName(None) == "pozo" && SafeName(Some("")) == "pozo"
  {
    assert NameOrDefault(None) == "pozo" && NameOrDefault(Some("")) == "pozo";
    CleanNameUnchanged("pozo");
  }

  /** A name with no character of `[\w\-]` leaves nothing, not "pozo": the
      fallback applies only to a missing name. */
  lemma UnsafeNameIsEmpty(s: string)
    requires s != "" && forall k | 0 <= k < |s| :: !SafeChar(s[k])
    ensures SafeName(Some(s)) == ""
  {
    var m := StripMarks(s);
    var u := ReplaceUnsafe(m);
    assert u == "" || u == "_" by {
      if |m| > 0 { assert u == "_"; }
    }
    assert Squash(u) == u by {
      if u == "_" { assert NoDoubleUnderscore(u); }
    }
    assert TrimUnderscores(u) == "";
    assert Sanitise(s) == "";
  }

  // ---------------------------------------------------------- export query

  /** The query of one row's export: the well's id, and the alert filter
      when the page has a non-empty one. */
  function RowExportQuery(wellId: int, alertFilter: Option<string>): (q: Query)
    ensures Param(q, "well") == Some(IntText(wellId))
    ensures Param(q, "alerta").Some? <==> alertFilter.Some? && alertFilter.value != ""
    ensures Param(q, "alerta").Some? ==> Param(q, "alerta") == alertFilter
    ensures Param(q, "stage").None?
  {
    ParamAppend([("well", IntText(wellId))], if alertFilter.Some? && alertFilter.value != "" then [("alerta", alertFilter.value)] else [], "alerta");
    [("well", IntText(wellId))] + (if alertFilter.Some? && alertFilter.value != "" then [("alerta", alertFilter.value)] else [])
  }

  /** The row export asks for exactly the row's well. */
  lemma RowExportNamesWell(wellId: int, alertFilter: Option<string>)
    ensures DecimalValue(Param(RowExportQuery(wellId, alertFilter), "well").value) == Some(wellId)
  {
    IntTextRoundTrip(wellId);
  }

  /** `buildUrl`'s query from the `fWell`, `fStage` and `fAlert` controls
      (`None` when the page has no such control). */
  function ExportQuery(well: Option<string>, stage: Option<string>, alert: Option<string>): (q: Query)
    ensures |q| <= 3
    ensures Param(q, "well").Some? <==> well.Some? && well.value != ""
    ensures Param(q, "well").Some? ==> Param(q, "well") == well
    ensures Param(q, "stage").Some? <==> stage.Some? && stage.value != "" && AllDigits(stage.value)
    ensures Param(q, "stage").Some? ==> Param(q, "stage") == stage
    ensures Param(q, "alerta").Some? <==> alert.Some? && alert.value != ""
    ensures Param(q, "alerta").Some? ==> Param(q, "alerta") == alert
    ensures forall k | 0 <= k < |q| :: q[k].0 in {"well", "stage", "alerta"}
  {
    var a := if well.Some? && well.value != "" then [("well", well.value)] else [];
    var b := if stage.Some? && stage.value != "" && AllDigits(stage.value) then [("stage", stage.value)] else [];
    var c := if alert.Some? && alert.value != "" then [("alerta", alert.value)] else [];
    ExportQueryParams(well, stage, alert, a, b, c);
    a + b + c
  }

  lemma ExportQueryParams(well: Option<string>, stage: Option<string>, alert: Option<string>, a: Query, b: Query, c: Query)
    requires a == if well.Some? && well.value != "" then [("well", well.value)] else []
    requires b == if stage.Some? && stage.value != "" && AllDigits(stage.value) then [("stage", stage.value)] else []
    requires c == if alert.Some? && alert.value != "" then [("alerta", alert.value)] else []
    ensures Param(a + b + c, "well") == if well.Some? && well.value != "" then well else None
    ensures Param(a + b + c, "stage") == if stage.Some? && stage.value != "" && AllDigits(stage.value) then stage else None
    ensures Param(a + b + c, "alerta") == if alert.Some? && alert.value != "" then alert else None
  {
    var w, s, al := well.GetOr(""), stage.GetOr(""), alert.GetOr("");
    var hw, hs, ha := well.Some? && well.value != "", stage.Some? && stage.value != "" && AllDigits(stage.value), alert.Some? && alert.value != "";
    assert "well" != "stage" && "well" != "alerta" && "stage" != "alerta" by {
      assert |"well"| == 4 && |"stage"| == 5 && |"alerta"| == 6;
    }
    ParamOfOptional(hw, "well", w, "well");
    ParamOfOptional(hw, "well", w, "stage");
    ParamOfOptional(hw, "well", w, "alerta");
    ParamOfOptional(hs, "stage", s, "well");
    ParamOfOptional(hs, "stage", s, "stage");
    ParamOfOptional(hs, "stage", s, "alerta");
    ParamOfOptional(ha, "alerta", al, "well");
    ParamOfOptional(ha, "alerta", al, "stage");
    ParamOfOptional(ha, "alerta", al, "alerta");
    ParamAppend(a + b, c, "alerta");
    ParamAppend(a + b, c, "well");
    ParamAppend(a + b, c, "stage");
    ParamAppend(a, b, "alerta");
    ParamAppend(a, b, "well");
    ParamAppend(a, b, "stage");
  }

  /** A stage the export sends is a stage number: it reads back as a
      non-negative integer. */
  lemma ExportStageIsNumber(well: Option<string>, stage: Option<string>, alert: Option<string>)
    requires Param(ExportQuery(well, stage, alert), "stage").Some?
    ensures var v := DecimalValue(Param(ExportQuery(well, stage, alert), "stage").value);
      v.Some? && v.value >= 0
  {
  }

  /** `/api/operativo/planeacion/export`, with `?` and the query only when
      the query has a parameter. */
  datatype ExportUrl = ExportUrl(hasQuery: bool, query: Query)

  function BuildUrl(well: Option<string>, stage: Option<string>, alert: Option<string>): (u: ExportUrl)
    ensures !u.hasQuery <==>
      && (well.None? || well.value == "") && (alert.None? || alert.value == "")
      && (stage.None? || stage.value == "" || !AllDigits(stage.value))
  {
    var q := ExportQuery(well, stage, alert);
    ExportUrl(|q| > 0, q)
  }

  // -------------------------------------------------------- progress cell

  /** The progress cell: `w.current_progress || 'Etapa ' + (w.first_stage || '') + ' - en proceso'`. */
  function ProgressCell(currentProgress: Option<string>, firstStage: Option<string>): (c: string)
    ensures currentProgress.Some? && currentProgress.value != "" ==> c == currentProgress.value
    ensures StartsWith(c, "Etapa ") || c == currentProgress.GetOr("")
  {
    if currentProgress.Some? && currentProgress.value != "" then currentProgress.value
    else "Etapa " + firstStage.GetOr("") + " - en proceso"
  }

  /** The cell of a well as GET /wells reports it. */
  ghost function WellCell(s: Store, w: int): string {
    ProgressCell(CurrentProgress(s, w), FirstStage(s, w))
  }

  /** A well with a pending stage shows the label of its first pending stage. */
  lemma {:induction false} PendingWellCell(s: Store, w: int)
    requires PendingOf(s, w) != {}
    ensures exists id | id in PendingOf(s, w) ::
      && WellCell(s, w) == Label(s[id])
      && forall p | p in PendingOf(s, w) :: Precedes(s, id, p)
  {
    var cp := CurrentProgress(s, w);
    var id :| id in PendingOf(s, w) && CurrentProgress(s, w) == Some(Label(s[id]))
      && forall p | p in PendingOf(s, w) :: Precedes(s, id, p);
    assert Label(s[id])[..6] == "Etapa ";
    assert WellCell(s, w) == Label(s[id]);
  }

  /** A finished well reads "Pozo completado". */
  lemma {:induction false} CompletedWellCell(s: Store, w: int)
    requires StagesOf(s, w) != {} && forall id | id in StagesOf(s, w) :: Completed(s[id])
    ensures WellCell(s, w) == WellCompleted
  {
    CompletedIffAllCompleted(s, w);
  }

  /** When the server reports no progress, the cell still claims a stage
      "en proceso": the first stage's name, or an empty name for a well
      without stages. */
  lemma {:induction false} NoProgressCell(s: Store, w: int)
    requires CurrentProgress(s, w).None?
    ensures StagesOf(s, w) == {} ==> WellCell(s, w) == "Etapa  - en proceso"
    ensures StagesOf(s, w) != {} && FirstStage(s, w).Some? ==>
      WellCell(s, w) == "Etapa " + FirstStage(s, w).value + " - en proceso"
  {
  }
}

=== FILE: well_positions.dfy ===
/** The other write paths that give a stage its position: POST /wells
    (a new well and its stages), PUT /wells/:id (update the well and upsert its
    stages) and PUT /stages/:id (edit a stage's descriptive fields). */
module WellPositions {
  import opened Optional
  import opened Seqs
  import opened StageStore

  /** A JSON field as `toInt` sees it. `Value.parsed` is the result of
      `Number.parseInt(v, 10)` for any other value, `None` when that result is
      not finite. */
  datatype Raw = Undefined | Null | EmptyString | Value(parsed: Option<int>)

  /** `a ?? b`: only `null` and `undefined` fall through. */
  function Nullish(a: Raw, b: Raw): Raw {
    if a.Undefined? || a.Null? then b else a
  }

  /** `toInt(v, null)`: null, undefined and "" give null, so does a parse that is not finite. */
  function ToInt(v: Raw): Option<int> {
    if v.Value? then v.parsed else None
  }

  /** One element of `stages` in a POST or PUT /wells body. `id` is present only
      when it is a JSON integer (`Number.isInteger(s.id)`); text fields are
      `None` for null or undefined. */
  datatype StageInput = StageInput(
    id: Option<int>,
    name: Option<string>,
    pipe: Option<string>,
    drillTime: Option<real>,
    stageChange: Option<real>,
    progress: Option<string>,
    position: Raw,
    orderIndex: Raw)

  /** `toInt(s.position ?? s.order_index, null)`. */
  function DesiredOrder(st: StageInput): Option<int> {
    ToInt(Nullish(st.position, st.orderIndex))
  }

  /** `x || null` for a text field: the empty string also becomes null. */
  function OrNull(x: Option<string>): Option<string> {
    if x.Some? && x.value != "" then x else None
  }

  /** `s.progress || "En proceso"`. */
  function ProgressOrDefault(x: Option<string>): string {
    if x.Some? && x.value != "" then x.value else "En proceso"
  }

  /** Some explicit position does not fit the `::int` cast. */
  predicate SomePositionOutOfRange(stages: seq<StageInput>) {
    exists i | 0 <= i < |stages| :: DesiredOrder(stages[i]).Some? && !InInt4(DesiredOrder(stages[i]).value)
  }

  /** Some stage sent with an id that does not fit the `integer` column. */
  predicate SomeIdOutOfRange(stages: seq<StageInput>) {
    exists i | 0 <= i < |stages| :: stages[i].id.Some? && !InInt4(stages[i].id.value)
  }

  // ---------------------------------------------------------------- POST /wells

  /** Position stage i of a new well receives: its own, or else i + 1. */
  function CreatedPosition(stages: seq<StageInput>, i: nat): int
    requires i < |stages|
  {
    DesiredOrder(stages[i]).GetOr(i + 1)
  }

  /** The insertion loop of POST /wells: a counter `idx` starting at 1 is the
      fallback position of each stage in turn, so the loop hands out exactly
      the positions the rows get. */
  method CreatePositions(stages: seq<StageInput>) returns (pos: seq<int>)
    ensures |pos| == |stages|
    ensures forall i | 0 <= i < |stages| :: pos[i] == CreatedPosition(stages, i)
  {
    pos := [];
    var idx := 1;
    for i := 0 to |stages|
      invariant idx == i + 1
      invariant |pos| == i
      invariant forall j | 0 <= j < i :: pos[j] == CreatedPosition(stages, j)
    {
      var desired := DesiredOrder(stages[i]);
      pos := pos + [desired.GetOr(idx)];
      idx := idx + 1;
    }
  }

  /** The row inserted for stage i. */
  function CreatedRow(wellId: int, stages: seq<StageInput>, i: nat): Stage
    requires i < |stages|
  {
    var st := stages[i];
    Stage(wellId, CreatedPosition(stages, i), OrNull(st.name), OrNull(st.pipe),
          st.drillTime, st.stageChange, Some(ProgressOrDefault(st.progress)))
  }

  /** Id the sequence hands to the i-th row inserted from `nextId` on. */
  function NewId(nextId: int, i: int): int { nextId + i }

  /** The rows POST /wells inserts: stage i under id `NewId(nextId, i)`. */
  function NewRows(wellId: int, nextId: int, stages: seq<StageInput>): (m: map<int, Stage>)
    ensures forall i | 0 <= i < |stages| :: NewId(nextId, i) in m && m[NewId(nextId, i)] == CreatedRow(wellId, stages, i)
    ensures forall id | id in m :: nextId <= id < nextId + |stages|
  {
    var m := map i | 0 <= i < |stages| :: NewId(nextId, i) := CreatedRow(wellId, stages, i);
    assert forall id | id in m :: exists i | 0 <= i < |stages| :: id == NewId(nextId, i);
    m
  }

  /** POST /wells. The new well's id `wellId` and the stage ids
      `nextId, nextId + 1, …` come from the database sequences, which are ahead
      of every id in use. `fault` stands for a failing statement the model does
      not derive from the request, the wells row's INSERT among them. */
  function CreateWell(s: Store, wellId: int, nextId: int, stages: seq<StageInput>, fault: bool): (r: Outcome)
    requires forall id | id in s :: id < nextId
    ensures r.status.Ok? <==>
      && !fault && !SomePositionOutOfRange(stages)
      && ChangedRowsUnique(s + NewRows(wellId, nextId, stages), NewRows(wellId, nextId, stages).Keys)
    ensures !r.status.BadRequest?
    ensures !r.status.Ok? ==> r.store == s
    ensures r.status.Ok? ==> r.store == s + NewRows(wellId, nextId, stages)
    ensures Consistent(s) && r.status.Ok? ==> Consistent(r.store)
  {
    if fault then Outcome(ServerError(FaultError), s)
    else if SomePositionOutOfRange(stages) then Outcome(ServerError(CastError), s)
    else
      var rows := NewRows(wellId, nextId, stages);
      var s' := s + rows;
      if !ChangedRowsUnique(s', rows.Keys) then
        Outcome(ServerError(ConstraintError), s)
      else
        CommitCheckKeepsConsistentIf(s, s', rows.Keys);
        Outcome(Ok, s')
  }

  /** Stage i of a new well is stored under its new id, in the new well, at
      its own position if it sent one and at i + 1 otherwise; the rows that
      existed before are untouched. */
  lemma {:induction false} CreatedStagePositions(s: Store, wellId: int, nextId: int, stages: seq<StageInput>, fault: bool, i: int)
    requires forall id | id in s :: id < nextId
    requires CreateWell(s, wellId, nextId, stages, fault).status.Ok?
    requires 0 <= i < |stages|
    ensures var r := CreateWell(s, wellId, nextId, stages, fault).store;
      && NewId(nextId, i) in r && NewId(nextId, i) !in s
      && r[NewId(nextId, i)].well == wellId
      && r[NewId(nextId, i)].orderIndex == (if DesiredOrder(stages[i]).Some? then DesiredOrder(stages[i]).value else i + 1)
      && (forall id | id in s :: id in r && r[id] == s[id])
  {
    var rows := NewRows(wellId, nextId, stages);
    assert forall id | id in s :: id !in rows;
  }

  lemma CommitCheckKeepsConsistentIf(s: Store, s': Store, changed: set<int>)
    requires OnlyChanged(s, s', changed)
    requires ChangedRowsUnique(s', changed)
    ensures Consistent(s) ==> Consistent(s')
  {
    if Consistent(s) {
      CommitCheckKeepsConsistent(s, s', changed);
    }
  }

  /** A stage that sends no position of its own. */
  function Blank(): StageInput {
    StageInput(None, None, None, None, None, None, Undefined, Undefined)
  }

  /** A new well whose stages send no positions gets positions exactly 1..N. */
  lemma {:induction false} DefaultPositionsOneToN(s: Store, wellId: int, nextId: int, stages: seq<StageInput>)
    requires forall id | id in s :: id < nextId
    requires StagesOf(s, wellId) == {}
    requires forall i | 0 <= i < |stages| :: DesiredOrder(stages[i]).None?
    ensures CreateWell(s, wellId, nextId, stages, false).status.Ok?
    ensures forall p :: p in PositionsOf(CreateWell(s, wellId, nextId, stages, false).store, wellId) <==> 1 <= p <= |stages|
  {
    var rows := NewRows(wellId, nextId, stages);
    assert !SomePositionOutOfRange(stages);
    DefaultRowsUnique(s, wellId, nextId, stages);
    var r := CreateWell(s, wellId, nextId, stages, false);
    assert r.status.Ok? && r.store == s + rows;
    DefaultRowsPositions(s, wellId, nextId, stages);
  }

  /** Where no stage sends a position, new stage i sits at i + 1. */
  lemma DefaultRowPosition(s: Store, wellId: int, nextId: int, stages: seq<StageInput>, id: int)
    requires forall i | 0 <= i < |stages| :: DesiredOrder(stages[i]).None?
    requires id in NewRows(wellId, nextId, stages)
    ensures 0 <= id - nextId < |stages|
    ensures NewRows(wellId, nextId, stages)[id] == CreatedRow(wellId, stages, id - nextId)
    ensures NewRows(wellId, nextId, stages)[id].orderIndex == id - nextId + 1
    ensures NewRows(wellId, nextId, stages)[id].well == wellId
  {
    assert NewId(nextId, id - nextId) == id;
  }

  lemma DefaultRowsUnique(s: Store, wellId: int, nextId: int, stages: seq<StageInput>)
    requires forall id | id in s :: id < nextId
    requires StagesOf(s, wellId) == {}
    requires forall i | 0 <= i < |stages| :: DesiredOrder(stages[i]).None?
    ensures ChangedRowsUnique(s + NewRows(wellId, nextId, stages), NewRows(wellId, nextId, stages).Keys)
  {
    var rows := NewRows(wellId, nextId, stages);
    var s' := s + rows;
    forall a, b | a in s' && b in s' && a != b && a in rows && s'[a].well == s'[b].well
      ensures s'[a].orderIndex != s'[b].orderIndex
    {
      DefaultRowPosition(s, wellId, nextId, stages, a);
      assert b !in s by { assert b in s ==> b in StagesOf(s, wellId); }
      DefaultRowPosition(s, wellId, nextId, stages, b);
    }
  }

  lemma DefaultRowsPositions(s: Store, wellId: int, nextId: int, stages: seq<StageInput>)
    requires forall id | id in s :: id < nextId
    requires StagesOf(s, wellId) == {}
    requires forall i | 0 <= i < |stages| :: DesiredOrder(stages[i]).None?
    ensures forall p :: p in PositionsOf(s + NewRows(wellId, nextId, stages), wellId) <==> 1 <= p <= |stages|
  {
    var rows := NewRows(wellId, nextId, stages);
    var s' := s + rows;
    forall p | p in PositionsOf(s', wellId) ensures 1 <= p <= |stages| {
      var id :| id in s' && s'[id].well == wellId && s'[id].orderIndex == p;
      assert id !in s by { assert id in s ==> id in StagesOf(s, wellId); }
      DefaultRowPosition(s, wellId, nextId, stages, id);
    }
    forall p | 1 <= p <= |stages| ensures p in PositionsOf(s', wellId) {
      var id := NewId(nextId, p - 1);
      DefaultRowPosition(s, wellId, nextId, stages, id);
      assert s'[id].orderIndex == p && s'[id].well == wellId;
    }
  }

  /** An explicit position is not reconciled with the fallback counter: a
      blank first stage takes 1, so a second stage asking for 1 makes the
      whole well creation fail and nothing is stored. */
  lemma ExplicitPositionCanCollideWithFallback(s: Store, wellId: int, nextId: int)
    requires forall id | id in s :: id < nextId
    ensures var stages := [Blank(), Blank().(position := Value(Some(1)))];
      CreateWell(s, wellId, nextId, stages, false) == Outcome(ServerError(ConstraintError), s)
  {
    var stages := [Blank(), Blank().(position := Value(Some(1)))];
    var rows := NewRows(wellId, nextId, stages);
    var s' := s + rows;
    assert s'[NewId(nextId, 0)].orderIndex == 1 == s'[NewId(nextId, 1)].orderIndex;
    assert NewId(nextId, 0) in rows;
  }

  // ----------------------------------------------------------- PUT /wells/:id

  /** `COALESCE(MAX(order_index), 0)` over the ids in `ids`. */
  ghost function MaxPosition(s: Store, ids: set<int>): (m: int)
    requires ids <= s.Keys
    ensures forall id | id in ids :: s[id].orderIndex <= m
    ensures ids == {} ==> m == 0
    ensures ids != {} ==> exists id | id in ids :: s[id].orderIndex == m
    decreases |ids|
  {
    if ids == {} then 0
    else
      var x := Pick(ids);
      if ids == {x} then s[x].orderIndex
      else
        var m := MaxPosition(s, ids - {x});
        if s[x].orderIndex > m then s[x].orderIndex else m
  }

  /** The UPDATE for a stage sent with an id: only a row of this well with
      that id is written. Name, pipe, drill time and stage change are
      overwritten (with null when absent); progress and position are kept
      unless sent. */
  function UpdatedStage(row: Stage, st: StageInput): Stage {
    row.(name := OrNull(st.name), pipe := OrNull(st.pipe),
         drillTime := st.drillTime, stageChange := st.stageChange,
         progress := if st.progress.Some? then st.progress else row.progress,
         orderIndex := DesiredOrder(st).GetOr(row.orderIndex))
  }

  /** One iteration of the upsert loop of PUT /wells/:id; returns the store and
      the next id the sequence will hand out. */
  ghost function UpsertOne(s: Store, w: int, nextId: int, st: StageInput): (r: (Store, int))
    requires forall id | id in s :: id < nextId
    ensures forall id | id in r.0 :: id < r.1
    ensures nextId <= r.1
    ensures s.Keys <= r.0.Keys
    ensures forall id | id in r.0 && id !in s :: nextId <= id && r.0[id].well == w
    ensures forall id | id in s :: r.0[id].well == s[id].well
    ensures forall id | id in s && s[id].well != w :: r.0[id] == s[id]
    ensures forall id | id in s && st.id != Some(id) :: r.0[id] == s[id]
    ensures st.id.Some? ==> r.0.Keys == s.Keys && r.1 == nextId
    ensures st.id.Some? && !InWell(s, w, st.id.value) ==> r.0 == s
    ensures st.id.Some? && InWell(s, w, st.id.value) ==>
      var row := r.0[st.id.value];
      && row.name == OrNull(st.name) && row.pipe == OrNull(st.pipe)
      && row.drillTime == st.drillTime && row.stageChange == st.stageChange
      && row.progress == (if st.progress.Some? then st.progress else s[st.id.value].progress)
      && row.orderIndex == DesiredOrder(st).GetOr(s[st.id.value].orderIndex)
    ensures st.id.None? ==>
      && r.0.Keys == s.Keys + {nextId} && nextId !in s && r.1 == nextId + 1
      && r.0[nextId].well == w
      && r.0[nextId].name == OrNull(st.name) && r.0[nextId].pipe == OrNull(st.pipe)
      && r.0[nextId].drillTime == st.drillTime && r.0[nextId].stageChange == st.stageChange
      && r.0[nextId].progress == Some(ProgressOrDefault(st.progress))
      && r.0[nextId].orderIndex == DesiredOrder(st).GetOr(MaxPosition(s, StagesOf(s, w)) + 1)
  {
    if st.id.Some? then
      var id := st.id.value;
      if InWell(s, w, id) then (s[id := UpdatedStage(s[id], st)], nextId)
      else (s, nextId)
    else
      var row := Stage(w, DesiredOrder(st).GetOr(MaxPosition(s, StagesOf(s, w)) + 1),
                       OrNull(st.name), OrNull(st.pipe), st.drillTime, st.stageChange,
                       Some(ProgressOrDefault(st.progress)));
      (s[nextId := row], nextId + 1)
  }

  /** Sending an existing stage twice writes the same row as sending it once;
      a new stage, sent twice, is inserted twice. */
  lemma UpsertOneTwice(s: Store, w: int, nextId: int, st: StageInput)
    requires forall id | id in s :: id < nextId
    ensures var (s1, n1) := UpsertOne(s, w, nextId, st);
      st.id.Some? ==> UpsertOne(s1, w, n1, st) == (s1, n1)
    ensures var (s1, n1) := UpsertOne(s, w, nextId, st);
      st.id.None? ==> |UpsertOne(s1, w, n1, st).0.Keys| == |s.Keys| + 2
  {
    var (s1, n1) := UpsertOne(s, w, nextId, st);
    if st.id.None? {
      assert s1.Keys == s.Keys + {nextId} && nextId !in s.Keys;
      assert UpsertOne(s1, w, n1, st).0.Keys == s1.Keys + {n1} && n1 !in s1.Keys;
    } else if InWell(s, w, st.id.value) {
      var id := st.id.value;
      UpdatedStageTwice(s[id], st);
      assert s1 == s[id := UpdatedStage(s[id], st)];
      assert s1[id := UpdatedStage(s1[id], st)] == s1;
    }
  }

  lemma UpdatedStageTwice(row: Stage, st: StageInput)
    ensures UpdatedStage(UpdatedStage(row, st), st) == UpdatedStage(row, st)
  {
  }

  /** No element of `stages` sends both the id `id` and a position. */
  predicate NoPositionFor(stages: seq<StageInput>, id: int) {
    forall i | 0 <= i < |stages| :: stages[i].id == Some(id) ==> DesiredOrder(stages[i]).None?
  }

  /** The upsert loop over all of `stages`, in order. */
  ghost function UpsertAll(s: Store, w: int, nextId: int, stages: seq<StageInput>): (r: (Store, int))
    requires forall id | id in s :: id < nextId
    ensures forall id | id in r.0 :: id < r.1
    ensures s.Keys <= r.0.Keys
    ensures forall id | id in r.0 && id !in s :: nextId <= id && r.0[id].well == w
    ensures forall id | id in s :: r.0[id].well == s[id].well
    ensures forall id | id in s && s[id].well != w :: r.0[id] == s[id]
    ensures forall id | id in s && NoPositionFor(stages, id) :: r.0[id].orderIndex == s[id].orderIndex
    decreases |stages|
  {
    if |stages| == 0 then (s, nextId)
    else
      var (s1, n1) := UpsertOne(s, w, nextId, stages[0]);
      var r := UpsertAll(s1, w, n1, stages[1..]);
      assert forall id | id in s && NoPositionFor(stages, id) :: NoPositionFor(stages[1..], id) by {
        forall id, i | id in s && NoPositionFor(stages, id) && 0 <= i < |stages[1..]| && stages[1..][i].id == Some(id)
          ensures DesiredOrder(stages[1..][i]).None?
        {
          assert stages[1..][i] == stages[i + 1];
        }
      }
      r
  }

  /** The rows a transaction inserted or altered. */
  function Changed(s: Store, s': Store): set<int> {
    set id | id in s' && (id !in s || s'[id] != s[id])
  }

  /** PUT /wells/:id for a well id `w` the `integer` column takes: the stage
      part of the transaction. `fault` stands for a failing statement the
      model does not derive from the request: the wells row, a number the
      `numeric` columns reject, or a lock-wait timeout. An explicit position
      or a stage id out of the column's range fails its query, and so does a
      commit that leaves two stages of a well at one position; any failure
      rolls everything back. */
  ghost function UpsertWell(s: Store, w: int, nextId: int, stages: seq<StageInput>, fault: bool): (r: Outcome)
    requires forall id | id in s :: id < nextId
    ensures r.status.Ok? <==>
      && !fault && !SomePositionOutOfRange(stages) && !SomeIdOutOfRange(stages)
      && ChangedRowsUnique(UpsertAll(s, w, nextId, stages).0, Changed(s, UpsertAll(s, w, nextId, stages).0))
    ensures !r.status.BadRequest?
    ensures !r.status.Ok? ==> r.store == s
    ensures r.status.Ok? ==> r.store == UpsertAll(s, w, nextId, stages).0
    ensures r.status.Ok? ==> OthersUnchanged(s, r.store, w)
    ensures r.status.Ok? ==> forall id | id in s && NoPositionFor(stages, id) :: r.store[id].orderIndex == s[id].orderIndex
    ensures Consistent(s) && r.status.Ok? ==> Consistent(r.store)
  {
    if fault then Outcome(ServerError(FaultError), s)
    else if SomePositionOutOfRange(stages) || SomeIdOutOfRange(stages) then Outcome(ServerError(CastError), s)
    else
      var s' := UpsertAll(s, w, nextId, stages).0;
      if !ChangedRowsUnique(s', Changed(s, s')) then
        Outcome(ServerError(ConstraintError), s)
      else
        CommitCheckKeepsConsistentIf(s, s', Changed(s, s'));
        Outcome(Ok, s')
  }

  /** PUT /wells/:id with `id` the `Number` of the path parameter. The wells
      UPDATE runs first: a NaN or fractional id fails it with the driver's
      syntax error, one out of the column's range with the cast error, and
      nothing is written. */
  ghost function PutWell(s: Store, id: Num, nextId: int, stages: seq<StageInput>, fault: bool): (r: Outcome)
    requires forall k | k in s :: k < nextId
    ensures !id.Int? ==> r == Outcome(ServerError(SyntaxError), s)
    ensures id.Int? && !InInt4(id.i) ==> r == Outcome(ServerError(CastError), s)
    ensures r.status.Ok? <==> id.Int? && InInt4(id.i) && UpsertWell(s, id.i, nextId, stages, fault).status.Ok?
    ensures r.status.Ok? ==> OthersUnchanged(s, r.store, id.i)
    ensures Consistent(s) ==> Consistent(r.store)
  {
    if !id.Int? then Outcome(ServerError(SyntaxError), s)
    else if !InInt4(id.i) then Outcome(ServerError(CastError), s)
    else UpsertWell(s, id.i, nextId, stages, fault)
  }

  /** A new stage sent without a position lands after every stage of the
      well: at MAX(order_index) + 1, or 1 for a well without stages, and the
      transaction commits. */
  lemma {:induction false} NewStageAppends(s: Store, w: int, nextId: int, st: StageInput)
    requires forall id | id in s :: id < nextId
    requires st.id.None? && DesiredOrder(st).None?
    ensures var r := UpsertWell(s, w, nextId, [st], false);
      && r.status.Ok?
      && nextId in r.store && nextId !in s && r.store[nextId].well == w
      && r.store[nextId].orderIndex == MaxPosition(s, StagesOf(s, w)) + 1
      && (forall id | id in s && s[id].well == w :: s[id].orderIndex < r.store[nextId].orderIndex)
      && (StagesOf(s, w) == {} ==> r.store[nextId].orderIndex == 1)
  {
    var s1 := UpsertOne(s, w, nextId, st).0;
    NewStageRow(s, w, nextId, st);
    assert UpsertAll(s, w, nextId, [st]).0 == s1 by {
      var (s2, n2) := UpsertOne(s, w, nextId, st);
      assert UpsertAll(s, w, nextId, [st]) == UpsertAll(s2, w, n2, []);
    }
    assert !SomePositionOutOfRange([st]) && !SomeIdOutOfRange([st]);
    NewRowCommits(s, s1, nextId, MaxPosition(s, StagesOf(s, w)));
  }

  /** The row a stage without id or position adds: a fresh id of the well,
      one past the highest position. */
  lemma NewStageRow(s: Store, w: int, nextId: int, st: StageInput)
    requires forall id | id in s :: id < nextId
    requires st.id.None? && DesiredOrder(st).None?
    ensures nextId !in s && nextId in UpsertOne(s, w, nextId, st).0
    ensures UpsertOne(s, w, nextId, st).0 == s[nextId := UpsertOne(s, w, nextId, st).0[nextId]]
    ensures UpsertOne(s, w, nextId, st).0[nextId].well == w
    ensures UpsertOne(s, w, nextId, st).0[nextId].orderIndex == MaxPosition(s, StagesOf(s, w)) + 1
  {
  }

  /** Adding one row above every position of its well changes only that row
      and breaks no uniqueness. */
  lemma NewRowCommits(s: Store, s': Store, id: int, m: int)
    requires id !in s && id in s' && s' == s[id := s'[id]]
    requires StagesOf(s, s'[id].well) <= s.Keys
    requires forall k | k in StagesOf(s, s'[id].well) :: s[k].orderIndex <= m
    requires s'[id].orderIndex == m + 1
    ensures Changed(s, s') == {id}
    ensures ChangedRowsUnique(s', Changed(s, s'))
    ensures forall k | k in s && s[k].well == s'[id].well :: s[k].orderIndex < s'[id].orderIndex
  {
    forall k | k in s && s[k].well == s'[id].well ensures s[k].orderIndex < s'[id].orderIndex {
      assert k in StagesOf(s, s'[id].well);
    }
  }

  // ----------------------------------------------------------- PUT /stages/:id

  /** What the driver reports for a NaN or fractional id. */
  const SyntaxError := "invalid input syntax for type integer"

  /** PUT /stages/:id. `id` is `Number` of the path parameter; a value the
      `integer` column cannot take makes the query fail. Each sent text field
      replaces the stored one (an empty string included); a field that is
      null or absent keeps it. A missing stage is not an error. */
  function EditStage(s: Store, id: Num, name: Option<string>, pipe: Option<string>, progress: Option<string>, fault: bool): (r: Outcome)
    ensures r.status.Ok? <==> id.Int? && InInt4(id.i) && !fault
    ensures !r.status.BadRequest?
    ensures r.store.Keys == s.Keys
    ensures forall k | k in s :: r.store[k].well == s[k].well && r.store[k].orderIndex == s[k].orderIndex
    ensures forall k | k in s && (!r.status.Ok? || id != Int(k)) :: r.store[k] == s[k]
    ensures r.status.Ok? && id.i in s ==>
      && r.store[id.i].name == (if name.Some? then name else s[id.i].name)
      && r.store[id.i].pipe == (if pipe.Some? then pipe else s[id.i].pipe)
      && r.store[id.i].progress == (if progress.Some? then progress else s[id.i].progress)
      && r.store[id.i].drillTime == s[id.i].drillTime
      && r.store[id.i].stageChange == s[id.i].stageChange
  {
    if fault then Outcome(ServerError(FaultError), s)
    else if !id.Int? then Outcome(ServerError(SyntaxError), s)
    else if !InInt4(id.i) then Outcome(ServerError(CastError), s)
    else if id.i !in s then Outcome(Ok, s)
    else
      var row := s[id.i];
      Outcome(Ok, s[id.i := row.(name := if name.Some? then name else row.name,
                                pipe := if pipe.Some? then pipe else row.pipe,
                                progress := if progress.Some? then progress else row.progress)])
  }

  /** Editing a stage can never break the per-well uniqueness of positions. */
  lemma EditStageKeepsConsistent(s: Store, id: Num, name: Option<string>, pipe: Option<string>, progress: Option<string>, fault: bool)
    requires Consistent(s)
    ensures Consistent(EditStage(s, id, name, pipe, progress, fault).store)
  {
    var s' := EditStage(s, id, name, pipe, progress, fault).store;
    forall a, b | a in s' && b in s' && a != b && s'[a].well == s'[b].well
      ensures s'[a].orderIndex != s'[b].orderIndex
    {
      assert s[a].well == s[b].well;
    }
  }

  /** Sending the same edit twice is the same as sending it once. */
  lemma EditStageIdempotent(s: Store, id: Num, name: Option<string>, pipe: Option<string>, progress: Option<string>)
    ensures var s1 := EditStage(s, id, name, pipe, progress, false).store;
      EditStage(s1, id, name, pipe, progress, false).store == s1
  {
  }
}
